=== FILE: README.md ===
# bitweet client — a Dafny model of its client-side logic

This project models the browser client of bitweet, a small social network. Users post short messages, follow each other, receive notifications and talk in live audio rooms. The centre of the model is the audio-room session:

- **`WebRtcAudio`** is the mesh hook. It keeps a participant directory and per-peer registries, all keyed by user id: links, side-channels, remote streams, analysers and levels as maps, and playback elements as a multiset, because the page can hold several `audio-<id>` elements for one id. It also holds the local capture and mute state.
- **`AudioRoom`** is the room-socket hook: the connect guard, the send-only-when-open rule, optimistic chat with echo reconciliation, error codes, and leaving.
- **`AudioRoomSlice`** holds the room store's reducers.
- **`AudioRoomDetail`** is the page that wires the two hooks together. It adds init effects, button handlers and the delivery indicator.

Around this core sit the client's other pure rules:

- the participant grid and the room card;
- the post components (relative dates, edit buffer, new-post dialog);
- the authentication slice and its route guard;
- the sign-up and login schemas;
- the notification slice, page and menu;
- the change-password step machine;
- the paged post and people lists.

Every operation is a pure function from a state to a new state. Where the client talks to the outside world, the model returns the effects instead: socket frames, side-channel messages, link closes and playback changes. Answers from the outside world are inputs:

- a REST call's reply is `Outcome` or `Reply`;
- `getUserMedia`'s grant is a track count, or None when it throws;
- a WebRTC negotiation is one `ok` flag;
- whether a socket send throws is `sendThrows`;
- a confirm dialog's answer is `confirmed`;
- the chat `tempId` and timestamp are supplied by the caller.

React effects are guarded operations that the environment may fire in any order. Each guard is the effect's condition. The notifications page's first fetch is the exception: there the effect's dependency on the list's length is modelled, because it decides whether the fetch is repeated. A request with a loading flag is taken as one step, from start to completion.

## Model

| member | source | states |
|---|---|---|
| WebRtcAudio.InitializeCurrentUser | src/hooks/useWebRTCAudio.tsx:31-45 | the local user's entry is written fresh: it holds exactly the given user record, muted, at level 0, with the given creator flag; every other entry and every registry is unchanged |
| WebRtcAudio.SetRoster | src/hooks/useWebRTCAudio.tsx:48-64 | every roster id is overwritten fresh with the record listed last for it (a later `Map.set` wins), flagged creator exactly when it is the host's id; ids not on the roster keep their entries |
| WebRtcAudio.InitializeExistingParticipants | src/hooks/useWebRTCAudio.tsx:48-64 | the directory gains the roster ids, each fresh with the record listed last for it and the creator flag as above, and nothing but the directory changes |
| WebRtcAudio.InsertAbsent | src/hooks/useWebRTCAudio.tsx:536-556 | the existing-participants event adds only ids not yet present, each fresh with the record listed first for it and never as creator, and keeps present entries as they were |
| WebRtcAudio.ExistingParticipants | src/hooks/useWebRTCAudio.tsx:536-556 | a missing or empty list changes nothing; otherwise the directory gains the listed ids, each new entry fresh with the first record listed for it and not creator, and keeps every present entry. No dispatcher of this window event appears in src/hooks/useAudioRoom.tsx or src/pages/AudioRoomDetailPage.tsx, which dispatch only join, leave and signal events, so this handler has no caller among the files modelled |
| WebRtcAudio.SetMuted | src/hooks/useWebRTCAudio.tsx:100-115 | only the mute flag of an existing entry changes; an absent id leaves the map unchanged |
| WebRtcAudio.ReceiveSideMessage | src/hooks/useWebRTCAudio.tsx:160-180 | a `mute_status` message on a side-channel sets that peer's mute flag; any other message type is ignored |
| WebRtcAudio.BroadcastMuteStatus | src/hooks/useWebRTCAudio.tsx:121-136 | exactly one mute message per side-channel whose state is open, carrying the new flag, and none to other channels |
| WebRtcAudio.StartAudioStream | src/hooks/useWebRTCAudio.tsx:254-282 | fails exactly when the microphone is refused. On success capture is on, every new track is disabled, and every existing link gets the tracks with its negotiation state untouched. Nothing else changes: directory, mute flag, channels, remote streams, analysers, levels and playback |
| WebRtcAudio.StopAudioStream | src/hooks/useWebRTCAudio.tsx:285-292 | a no-op with no stream. Otherwise the stream is dropped and the microphone released, both capture and mute flags become false, and nothing else in the session changes |
| WebRtcAudio.ToggleMute | src/hooks/useWebRTCAudio.tsx:295-319 | a no-op with no stream; otherwise the flag flips, every track's enabled flag becomes the negated new flag, the caller's entry follows, and the new flag goes to open channels only |
| WebRtcAudio.HandleSignal | src/hooks/useWebRTCAudio.tsx:322-367 | a signal from an unknown peer is dropped unless it is an offer; an offer creates the link and yields exactly one answer to the sender; failures are swallowed. Only the sender's link changes, and never its attached tracks. A failed step leaves an existing link as it was, or registers a blank one for a new offer. A successful offer sets both descriptions, an answer only the remote one, and a candidate adds exactly one applied candidate |
| WebRtcAudio.HandleUserJoined | src/hooks/useWebRTCAudio.tsx:370-414 | the joiner gets a fresh entry holding exactly the joiner's record, muted, at level 0 and not creator, and a new link carrying the local tracks; exactly one offer to the joiner when negotiation succeeds; nothing else changes |
| WebRtcAudio.HandleUserLeft | src/hooks/useWebRTCAudio.tsx:417-455 | the id leaves every keyed map, other ids untouched. Exactly one of its playback elements is removed, so the id keeps playing exactly when it had two or more. The effects close its link and remove an element when they existed |
| WebRtcAudio.CloseAllPeerConnections | src/hooks/useWebRTCAudio.tsx:458-474 | every link is closed and every keyed map emptied, the local user's entry included. One playback element per linked id is removed, and none for ids without a link. The page is left silent exactly when every element belonged to a link and no link had two |
| WebRtcAudio.MeanBelowFullScale | src/hooks/useWebRTCAudio.tsx:492-497 | mean/128 is below 1 exactly when the total is below 128 per bin, and exceeds 0.1 exactly when the mean exceeds 12.8 |
| WebRtcAudio.NormalisedLevel | src/hooks/useWebRTCAudio.tsx:492-497 | `min(mean/128, 1)` lies in [0, 1], is 1 exactly at or above full scale, and exceeds 0.1 exactly when ten times the sum exceeds 128 per bin |
| WebRtcAudio.TrackArrived | src/hooks/useWebRTCAudio.tsx:219-233 | an arriving track is stored and one more playback element is added for its id, even when one exists; no other id's elements, streams, analysers or levels change. When analysis is possible the given analyser is stored and the level is the normalised reading, in [0, 1]. Everything else in the session is untouched |
| WebRtcAudio.UpdateCurrentUserMuteStatus | src/hooks/useWebRTCAudio.tsx:100-112 | a listed user's mute flag is set and nothing else in the directory or session changes; an unlisted id changes nothing |
| WebRtcAudio.ChannelOpened | src/hooks/useWebRTCAudio.tsx:150-158 | an opened side-channel, created or received, is registered as open and so is among the broadcast targets; other channels and the rest of the session are kept |
| WebRtcAudio.ChannelClosing | src/hooks/useWebRTCAudio.tsx:120-123 | a closing channel keeps its registration but is no longer a broadcast target; other channels and the rest of the session are kept |
| WebRtcAudio.ChannelClosed | src/hooks/useWebRTCAudio.tsx:155-158 | a closed channel is unregistered; other channels and the rest of the session are kept |
| WebRtcAudio.BroadcastFollowsChannelState | src/hooks/useWebRTCAudio.tsx:120-158 | a mute broadcast reaches a peer after its channel opened, and not while it closes or after it closed |
| WebRtcAudio.ReleaseAll | src/hooks/useWebRTCAudio.tsx:284-474 | close-all then stop: a link is closed exactly for each linked id, a playback element removed exactly for each linked id holding one, the microphone released exactly when held, and nothing else is emitted; no link, entry or capture remains |
| WebRtcAudio.RunKeepsScoped | src/hooks/useWebRTCAudio.tsx:139-474 | over any run of the modelled events, channels, streams, analysers and levels stay within the registered links, and capture is on exactly when a stream exists. The sampling loop is not modelled; in the source it keeps writing a departed peer's level (lines 490-505), so the levels clause holds only without it |
| WebRtcAudio.ApplyKeepsTidy | src/hooks/useWebRTCAudio.tsx:219-233 | from a scoped session with at most one playback element per stored stream, an event keeps that property exactly when it is not a second track for a peer that still has its element |
| WebRtcAudio.RunKeepsTidy | src/hooks/useWebRTCAudio.tsx:219-474 | over any run where no peer's track arrives while its element is still in the page, every element belongs to a stored stream and no id has two |
| WebRtcAudio.SecondTrackOrphansPlayback | src/hooks/useWebRTCAudio.tsx:225-229 | a peer that joins, answers and sends its track twice over, then leaves, keeps one playback element with no link, stream or directory entry behind it |
| WebRtcAudio.ApplyMovesPresence | src/hooks/useWebRTCAudio.tsx:370-455 | one join or leave moves the directory and the link registry by that one id |
| WebRtcAudio.DirectoryTracksPresence | src/hooks/useWebRTCAudio.tsx:370-455 | over any run of joins and leaves, the directory and the link registry hold exactly the present ids |
| WebRtcAudio.LinksMatchDirectory | src/hooks/useWebRTCAudio.tsx:370-455 | a directory and registry that start in lockstep stay in lockstep over joins and leaves |
| WebRtcAudio.JoinThenLeave | src/hooks/useWebRTCAudio.tsx:370-455 | leave undoes join for an unknown id, and closes exactly the link the join opened |
| WebRtcAudio.ToggleTwiceRestores | src/hooks/useWebRTCAudio.tsx:295-319 | two toggles restore the session when tracks and the caller's entry agree with the flag |
| WebRtcAudio.StartAlignsTracksWhenMuted | src/hooks/useWebRTCAudio.tsx:254-282 | after a start, tracks agree with the mute flag exactly when the flag says muted or there are no tracks |
| WebRtcAudio.StopThenStartDisagrees | src/hooks/useWebRTCAudio.tsx:285-292 | stopping clears the mute flag, so a stop followed by a start leaves the flag unmuted with every track disabled |
| WebRtcAudio.CloseAllIdempotent | src/hooks/useWebRTCAudio.tsx:458-474 | closing everything twice is closing once, and the second time closes nothing |
| WebRtcAudio.CallerScenario | src/hooks/useWebRTCAudio.tsx:370-414 | a host alone sees a joiner: one link, one offer to the joiner, and the joiner's answer completes the link |
| WebRtcAudio.CalleeScenario | src/hooks/useWebRTCAudio.tsx:327-364 | an answer or candidate from an unlinked peer changes nothing; an offer creates the link and answers the sender |
| WebRtcAudio.RejoinStartsClean | src/hooks/useWebRTCAudio.tsx:458-474 | after close-all and self-init, the directory holds only the local user and every registry is empty |
| AudioRoomSlice.SetActiveRooms | src/store/slices/audioroomSlice.ts:18-21 | the room list is replaced and loading cleared; room, connection, messages and error are kept |
| AudioRoomSlice.SetCurrentRoom | src/store/slices/audioroomSlice.ts:22-28 | clearing the room also disconnects and empties the messages; a non-null room keeps both |
| AudioRoomSlice.SetConnectionStatus | src/store/slices/audioroomSlice.ts:29-31 | the connection flag takes the given value and nothing else changes |
| AudioRoomSlice.AddMessage | src/store/slices/audioroomSlice.ts:32-34 | the message is appended at the end and earlier messages are unchanged |
| AudioRoomSlice.FindTempId | src/store/slices/audioroomSlice.ts:36-37 | the index of the first message with that temp id, or None when no message carries it |
| AudioRoomSlice.UpdateMessageStatus | src/store/slices/audioroomSlice.ts:35-44 | only the first message with the temp id changes: its status, and its timestamp when a server timestamp is given; an unmatched id is a no-op |
| AudioRoomSlice.LeaveRoom | src/store/slices/audioroomSlice.ts:51-55 | no room, disconnected, no messages; the room list, loading flag and error are untouched |
| AudioRoomSlice.ClearMessages | src/store/slices/audioroomSlice.ts:56-58 | only the messages are emptied |
| AudioRoomSlice.AddThenConfirm | src/store/slices/audioroomSlice.ts:32-44 | confirming a just-added message with a fresh temp id updates that message and no other |
| AudioRoomSlice.UpdateIdempotent | src/store/slices/audioroomSlice.ts:35-44 | applying the same status update twice is applying it once |
| AudioRoomSlice.FirstMatchStable | src/store/slices/audioroomSlice.ts:35-44 | the first match depends only on the temp ids, which an update never changes |
| AudioRoomSlice.SetLoading | src/store/slices/audioroomSlice.ts:45-47 | the loading flag takes the given value and nothing else changes |
| AudioRoomSlice.SetError | src/store/slices/audioroomSlice.ts:48-50 | the error takes the given value, a null included, and nothing else changes |
| AudioRoom.FetchActiveRooms | src/hooks/useAudioRoom.tsx:29-39 | the list is stored, or the server's detail (else 'Failed to fetch rooms') is set while the list is kept; loading ends either way |
| AudioRoom.DeleteRoom | src/hooks/useAudioRoom.tsx:71-80 | a delete leaves the room and refreshes the list; a failure sets the error (else 'Failed to delete room') and rethrows |
| AudioRoom.ConnectToRoom | src/hooks/useAudioRoom.tsx:172-265 | blocked while connecting or with a connecting or open socket. Otherwise it stores the room, closes an old socket and opens a new one, and nothing else in the store changes, so an earlier error, the chat and the connection flag survive. A failure sets the error and the error state, changes nothing else in the store, and rethrows |
| AudioRoom.OnOpen | src/hooks/useAudioRoom.tsx:206-213 | the socket is open, the store connected and the in-progress flag cleared |
| AudioRoom.OnClose | src/hooks/useAudioRoom.tsx:245-247 | disconnected and the in-progress flag cleared |
| AudioRoom.OnError | src/hooks/useAudioRoom.tsx:250-256 | 'Failed to connect to room', error state, in-progress flag cleared |
| AudioRoom.SendFrame | src/hooks/useAudioRoom.tsx:268-272 | a frame is transmitted exactly when the socket is open, otherwise silently dropped |
| AudioRoom.SendChatMessage | src/hooks/useAudioRoom.tsx:275-316 | no user means no change; otherwise one own `sending` message with the temp id is appended and sent with the same temp id, and a throwing send marks it `failed` |
| AudioRoom.ErrorText | src/hooks/useAudioRoom.tsx:147-167 | the three known codes map to fixed texts; any other code gives the server's message or 'Connection error occurred' |
| AudioRoom.HandleMessage | src/hooks/useAudioRoom.tsx:83-169 | only the store and the displayed connection state can change, never the socket or the in-progress flag. Something is relayed exactly for a join or leave carrying a user, or a signal, and then nothing else changes. The connection state moves only on connected and error messages; the room only on room_deleted, which also empties the chat and keeps the deletion text as the error. An incomplete chat changes nothing. An own echo keeps the log's length. It changes nothing when no message holds its temp id. Otherwise the first such message becomes `sent` with the server's timestamp, and every other message, later duplicates included, is unchanged. Any other complete chat appends one `sent` message without a temp id, carrying the text, sender and time, owned exactly when the sender is the user. The connection flag changes only on connected and room_deleted messages; an error message sets exactly the store's error to its text and code and nothing else in the store |
| AudioRoom.Disconnect | src/hooks/useAudioRoom.tsx:319-336 | the socket is closed with code 1000 when there is one, and the store disconnected |
| AudioRoom.LeaveRoom | src/hooks/useAudioRoom.tsx:339-348 | disconnects and clears the room, connection and messages |
| AudioRoom.IsHost | src/hooks/useAudioRoom.tsx:384 | the host id equals the user's id; with neither a room nor a user both sides are absent and the comparison holds |
| AudioRoom.SecondConnectBlocked | src/hooks/useAudioRoom.tsx:175-185 | after a started connect, a second connect has no effect |
| AudioRoom.CallbacksClearConnecting | src/hooks/useAudioRoom.tsx:206-256 | open, close and error all clear the in-progress flag; after a close a connect is allowed again, after an open it is blocked |
| AudioRoom.ChatWhileClosedStaysSending | src/hooks/useAudioRoom.tsx:300-315 | a chat sent while the socket is not open is appended as `sending`, transmits nothing and stays `sending` |
| AudioRoom.ChatRoundTrip | src/hooks/useAudioRoom.tsx:108-131 | sending a chat and receiving its own echo leaves one message, marked `sent` with the server timestamp |
| AudioRoom.RoomDeletedKeepsError | src/hooks/useAudioRoom.tsx:136-140 | room_deleted clears the room and messages while the deletion text survives as the error |
| AudioRoom.ForeignChatAppends | src/hooks/useAudioRoom.tsx:121-131 | a complete chat that is not an own echo appends exactly one message |
| AudioRoom.DisconnectIdempotent | src/hooks/useAudioRoom.tsx:319-336 | a second disconnect finds no socket, closes nothing and changes nothing |
| AudioRoom.DisconnectAllowsReconnect | src/hooks/useAudioRoom.tsx:172-185 | after a disconnect or a leave, a connect goes ahead exactly when no connect is in progress |
| AudioRoom.LeaveRoomIdempotent | src/hooks/useAudioRoom.tsx:339-348 | leaving twice is leaving once, and the second leave closes nothing |
| AudioRoom.LatestRoomListWins | src/hooks/useAudioRoom.tsx:29-39 | of two successful refreshes the later list wins, and the result is that of the later refresh alone |
| AudioRoom.RefreshKeepsEarlierError | src/hooks/useAudioRoom.tsx:29-39 | a successful refresh does not clear the error a failed one left |
| AudioRoom.DeletedRoomIsGone | src/hooks/useAudioRoom.tsx:71-80 | after an accepted delete there is no room, chat or connection and no rethrow; the list is the refreshed one, or the old one with the refresh error when the refresh fails |
| AudioRoom.FailedDeleteKeepsRoom | src/hooks/useAudioRoom.tsx:71-80 | a refused delete rethrows and keeps room, chat, list and connection, reporting the detail or 'Failed to delete room' |
| AudioRoomDetail.SelfInitEffect | src/pages/AudioRoomDetailPage.tsx:95-111 | only when connected, with a user and a room, and the user unlisted, is the user listed: fresh with exactly that user record, muted, at level 0, creator exactly when hosting. Every other entry, the rest of the mesh and the rest of the page are unchanged |
| AudioRoomDetail.ConnectEffect | src/pages/AudioRoomDetailPage.tsx:71-80 | without a room id or after an attempt nothing happens. Otherwise the attempt is marked, and only the room hook changes, the mesh and input never. A blocked connect changes nothing; an accepted one holds a connecting socket for that id and the fetched room, closing an old socket exactly when one was held; a failed one shows the error |
| AudioRoomDetail.RosterEffect | src/pages/AudioRoomDetailPage.tsx:114-125 | only the directory changes. A non-empty roster adds exactly its ids as keys, each fresh with the record listed last for it, creator exactly when it is the host's id, and every id off the roster keeps its entry; with none the page is unchanged |
| AudioRoomDetail.AutoStart | src/pages/AudioRoomDetailPage.tsx:194-198 | only the mesh changes. When connected, capturing nothing and with a user, a granted start turns capture on with the granted tracks and keeps directory, mute flag and links; otherwise nothing changes |
| AudioRoomDetail.RosterMarksHost | src/pages/AudioRoomDetailPage.tsx:114-125 | a non-empty roster lists every member muted, with the host flagged as creator and nobody else, and keeps other entries |
| AudioRoomDetail.AutoStartOnce | src/pages/AudioRoomDetailPage.tsx:194-198 | after a granted auto-start, the effect's condition no longer holds |
| AudioRoomDetail.ConnectOnce | src/pages/AudioRoomDetailPage.tsx:71-80 | the connect effect fires at most once per room id |
| AudioRoomDetail.SelfInitIdempotent | src/pages/AudioRoomDetailPage.tsx:95-111 | firing self-init again changes nothing |
| AudioRoomDetail.SendMessage | src/pages/AudioRoomDetailPage.tsx:135-140 | whitespace-only input is ignored; otherwise the trimmed text is sent and the input cleared |
| AudioRoomDetail.SendAppendsTrimmed | src/pages/AudioRoomDetailPage.tsx:135-140 | a non-blank send appends exactly one own message carrying the trimmed text |
| AudioRoomDetail.ToggleMute | src/pages/AudioRoomDetailPage.tsx:182-191 | capture is started first when off; a refused start toggles nothing |
| AudioRoomDetail.ToggleFromIdle | src/pages/AudioRoomDetailPage.tsx:182-191 | from idle with a microphone, one press starts capture and flips the flag, with the tracks following |
| AudioRoomDetail.Leave | src/pages/AudioRoomDetailPage.tsx:142-158 | a link is closed exactly for each linked id, a playback element is removed exactly for each linked id holding one, the microphone is released exactly when it was held, and the socket is closed with code 1000 exactly when there was one; no other effect and nothing written to the socket. The room is left and the page goes to /audioroom |
| AudioRoomDetail.LeaveReleasesEverything | src/pages/AudioRoomDetailPage.tsx:142-158 | leaving from a consistent mesh closes every link, releases the microphone exactly when capture was on, closes the socket exactly when one was held and transmits nothing; no links remain and capture is off. The page is silent afterwards exactly when every playback element belonged to a link and no link had two, which holds whenever the mesh was tidy |
| AudioRoomDetail.UnmountReleasesEverything | src/pages/AudioRoomDetailPage.tsx:82-92 | unmounting from a consistent mesh closes every link, releases the microphone exactly when capture was on, closes the socket exactly when one was held and transmits nothing. No link or capture remains, and playback ends as on leaving: silent exactly when every element belonged to a link and no link had two. The room hook holds no socket and no in-progress connect, so a later mount connects again |
| AudioRoomDetail.UnmountClosesSocketOnce | src/hooks/useAudioRoom.tsx:350-370 | a second unmount has no socket left to close |
| AudioRoomDetail.OnlyConfirmedHostDeletes | src/pages/AudioRoomDetailPage.tsx:160-162 | whatever the server would answer, a delete by a non-host or without confirmation changes nothing |
| AudioRoomDetail.DeleteOutcomes | src/pages/AudioRoomDetailPage.tsx:160-180 | an accepted delete returns to the room list with no room and no chat, and the links stay up until unmount. A refused one stays with the room kept and the error set |
| AudioRoomDetail.Delete | src/pages/AudioRoomDetailPage.tsx:160-180 | nothing unless there is a room, the user hosts it and confirms; success returns to the room list, failure stays |
| AudioRoomDetail.Unmount | src/pages/AudioRoomDetailPage.tsx:82-92 | a link is closed exactly for each linked id, a playback element removed exactly for each linked id holding one, the microphone released exactly when held, and the socket closed with code 1000 exactly when there was one; these are the only effects |
| AudioRoomDetail.Teardown | src/pages/AudioRoomDetailPage.tsx:82-92 | the media half of leaving and unmounting: the mesh becomes the released one and the page effects are exactly the link closes, playback removals and microphone release, with no signal sent |
| AudioRoomDetail.RoomChanged | src/pages/AudioRoomDetailPage.tsx:67-69 | a new room id resets the connect-once flag and nothing else |
| AudioRoomDetail.Inbound | src/hooks/useAudioRoom.tsx:95-144 | a socket message is handled by the room hook; when it relays nothing, the mesh is unchanged and no effect is emitted; the chat input and location are kept |
| AudioRoomDetail.ConnectionLabel | src/pages/AudioRoomDetailPage.tsx:244-263 | each connection state has its own label, and each label names exactly one state |
| AudioRoomDetail.Indicator | src/pages/AudioRoomDetailPage.tsx:353-365 | only own messages carry a mark: spinner for sending, check for sent, cross for failed |
| AudioRoomDetail.ScreenOf | src/pages/AudioRoomDetailPage.tsx:200-222 | spinner while loading; the error, else 'Room not found', with no room; the room otherwise |
| AudioRoomDetail.SendEnabled | src/pages/AudioRoomDetailPage.tsx:388 | send is enabled exactly for non-blank input while connected |
| AudioRoomDetail.NoSignalsWhileClosed | src/hooks/useAudioRoom.tsx:268-272 | with the socket not open, no signalling frame leaves the page |
| AudioRoomDetail.OfferIsAnswered | src/hooks/useWebRTCAudio.tsx:342-353 | an offer from an unknown peer on an open socket yields exactly one answer frame to the sender |
| AudioRoomDetail.RoomDeletedKeepsMesh | src/hooks/useAudioRoom.tsx:136-140 | room_deleted clears the room but, as written, leaves every link and capture running |
| AudioParticipants.LevelOf | src/components/audioroom/AudioParticipants.tsx:28-30 | a missing level reads as 0 |
| AudioParticipants.BorderOf | src/components/audioroom/AudioParticipants.tsx:32-65 | current user first, then host, then speaking, then default, each as an exact condition |
| AudioParticipants.TileOf | src/components/audioroom/AudioParticipants.tsx:75-127 | the badge is `id == host id`; 'Speaking...' shows exactly when the level exceeds 0.1 and the entry is unmuted |
| AudioParticipants.Tiles | src/components/audioroom/AudioParticipants.tsx:70 | one tile per directory entry |
| AudioParticipants.CountMatchesTiles | src/components/audioroom/AudioParticipants.tsx:26 | the heading's count equals the number of tiles |
| AudioParticipants.MutedNeverSpeaking | src/components/audioroom/AudioParticipants.tsx:123-127 | a muted entry never shows 'Speaking...' |
| AudioParticipants.SpeakingFromSpectrum | src/components/audioroom/AudioParticipants.tsx:78 | with a normalised level, 'Speaking...' shows exactly when the unmuted entry's frame averages above 12.8 |
| AudioRoomCard.FormatTimeAgoIsElapsedAgo | src/components/audioroom/AudioRoomCard.tsx:13-31 | minutes under an hour, hours under a day, whole days beyond with no cutoff, stated on milliseconds |
| AudioRoomCard.FutureShowsNegativeMinutes | src/components/audioroom/AudioRoomCard.tsx:16-24 | a future creation time shows a negative minute count |
| AudioRoomCard.ListenerCount | src/components/audioroom/AudioRoomCard.tsx:49 | a missing count shows 0 |
| AudioRoomCard.StatusLabel | src/components/audioroom/AudioRoomCard.tsx:68 | LIVE exactly when live, else NOT STARTED |
| AudioRoomCard.HostName | src/components/audioroom/AudioRoomCard.tsx:83 | the host's full name, else 'Unknown' |
| TweetItem.FormatDateIsElapsedLabel | src/components/tweet/TweetItem.tsx:75-88 | the chained floors give now under a minute, minutes under an hour, hours under a day, days under a week, else the locale date |
| TweetItem.FutureIsNow | src/components/tweet/TweetItem.tsx:79-83 | a post dated in the future reads 'now' |
| TweetItem.AuthorLine | src/components/tweet/TweetItem.tsx:153-157 | the logged-in user's names; an absent user or an empty name shows 'Unknown User', and an empty username 'unknown' |
| TweetItem.Edit | src/components/tweet/TweetItem.tsx:46-50 | the buffer is loaded from the post and edit mode entered |
| TweetItem.Save | src/components/tweet/TweetItem.tsx:52-67 | a blank buffer sends nothing and changes nothing; otherwise the trimmed text and privacy are sent, edit mode ends only on success, updating ends, and the untrimmed buffer and the delete dialog are kept |
| TweetItem.Cancel | src/components/tweet/TweetItem.tsx:69-73 | the buffer is restored from the post and edit mode left; the updating flag and the delete dialog are kept |
| TweetItem.SaveEnabled | src/components/tweet/TweetItem.tsx:124 | save is enabled exactly when not updating and the buffer is not blank |
| TweetItem.SaveSendsTrimmed | src/components/tweet/TweetItem.tsx:52-67 | a sent edit is non-empty and already trimmed |
| TweetItem.DeleteDialog | src/components/tweet/TweetItem.tsx:219-229 | delete is requested only from the dialog's confirm button |
| FeedTweetItem.FormatDateAgrees | src/components/tweet/FeedTweetItem.tsx:10-23 | the feed copy of the date label equals the list copy and the direct statement |
| FeedTweetItem.AuthorLine | src/components/tweet/FeedTweetItem.tsx:35-38 | the post author's names; an absent author or an empty name shows 'Unknown User', and an empty username 'unknown' |
| FeedTweetItem.ShowsLock | src/components/tweet/FeedTweetItem.tsx:42-47 | the lock shows exactly for private posts |
| CreateTweetDialog.SubmitEnabled | src/components/tweet/CreateTweetDialog.tsx:146 | enabled exactly when not submitting and the text is not blank |
| CreateTweetDialog.Submit | src/components/tweet/CreateTweetDialog.tsx:58-74 | only schema-valid, non-blank text is sent, with privacy as "true"/"false"; success resets, closes and notifies; failure stays open with the values |
| CreateTweetDialog.OpenChange | src/components/tweet/CreateTweetDialog.tsx:76-81 | closing while not submitting resets the form; closing mid-submit or opening keeps it |
| CreateTweetDialog.Cancel | src/components/tweet/CreateTweetDialog.tsx:139-142 | the Cancel button closes without resetting |
| CreateTweetDialog.Counter | src/components/tweet/CreateTweetDialog.tsx:111 | the counter ends in "/280", and what precedes it is a decimal numeral without leading zeros that reads back as the text's length |
| CreateTweetDialog.BlankPassesSchemaButIsBlocked | src/components/tweet/CreateTweetDialog.tsx:20-26 | whitespace-only text passes the 1..280 schema but cannot be submitted |
| CreateTweetDialog.CancelKeepsDraft | src/components/tweet/CreateTweetDialog.tsx:76-81 | a draft closed by Cancel is still there on reopening; one closed otherwise is gone |
| CreateTweetDialog.SentPostsAreValid | src/components/tweet/CreateTweetDialog.tsx:20-26 | every sent post has 1 to 280 characters and is not blank |
| AuthValidation.FullName | src/lib/validations/auth.ts:9 | accepted exactly with at least 2 characters before trimming; the value passed on is trimmed |
| AuthValidation.PasswordIssues | src/lib/validations/auth.ts:18-26 | each rule is reported exactly when the password breaks it |
| AuthValidation.PasswordValidIffNoIssues | src/lib/validations/auth.ts:18-26 | a password is accepted exactly when it breaks no rule |
| AuthValidation.CheckPassword | src/lib/validations/auth.ts:18-26 | one scan decides: at least 8 characters, an A-Z letter, a digit and a character outside [A-Za-z0-9] |
| AuthValidation.CheckUsername | src/lib/validations/auth.ts:11-17 | one scan decides: at least 3 characters, all from [A-Za-z0-9_] |
| AuthValidation.Examples | src/lib/validations/auth.ts:3-26 | concrete passwords and usernames the schemas accept and reject, with the issues reported in order |
| AuthValidation.LoginIssues | src/lib/validations/auth.ts:3-6 | the identifier check is reported exactly for fewer than 3 characters and the password check exactly for an empty password; the login form is accepted exactly when neither is reported |
| AuthValidation.UsernameIssues | src/lib/validations/auth.ts:11-17 | both username checks are made: the length one exactly under 3 characters, and the name is accepted exactly when neither fails |
| AuthValidation.RegisterIssuesExact | src/lib/validations/auth.ts:8-27 | the registration form is accepted exactly when no check fails; the full-name, e-mail and username-length checks are each reported exactly when that field breaks them, and a password rule exactly when the password breaks it |
| AuthValidation.CheckRegister | src/lib/validations/auth.ts:8-27 | one pass using the two scans decides the registration form exactly as the schema does |
| AuthSlice.RejectionPayload | src/store/slices/authSlice.ts:27-87 | the server's detail, else 'Failed to fetch profile', 'Login failed', 'Registration failed' or 'Logout failed' |
| AuthSlice.Reduce | src/store/slices/authSlice.ts:93-143 | stated field by field. The user changes only on a fulfilled request or clearAuth; a fulfilled logout and clearAuth leave none. Loading is raised only by a starting request other than logout, and lowered by every outcome. An error appears only when a login or registration is refused, with that request's payload; a rejected profile fetch keeps the error as it was. Logout pending and rejected change nothing |
| AuthSlice.LogoutIsClearAuth | src/store/slices/authSlice.ts:96-100 | a completed logout reaches the same state as clearing the session |
| AuthSlice.Guard | src/components/global/ProtectedRoute.tsx:24-36 | spinner while loading whatever the user; redirect to /login with no user; the page otherwise |
| AuthSlice.ShouldFetchProfile | src/components/global/ProtectedRoute.tsx:18-22 | the profile is requested exactly when no user is present |
| AuthSlice.GuardLifecycle | src/store/slices/authSlice.ts:21-25 | the app opens on the spinner and fetches; a profile shows the page; a failed fetch redirects with no error |
| AuthSlice.FailedLoginKeepsUser | src/store/slices/authSlice.ts:115-126 | a failed login keeps whoever was signed in and reports an error |
| NotificationSlice.SetUnreadNotifications | src/store/slices/notificationSlice.ts:53-55 | the unread list is replaced and nothing else changes |
| NotificationSlice.AddNewNotification | src/store/slices/notificationSlice.ts:56-58 | the item goes first and the others keep their order |
| NotificationSlice.ClearNotifications | src/store/slices/notificationSlice.ts:59-61 | only the unread list is emptied |
| NotificationSlice.ClearError | src/store/slices/notificationSlice.ts:62-64 | the error is cleared and nothing else changes |
| NotificationSlice.FetchPending | src/store/slices/notificationSlice.ts:68-71 | loading set, error cleared, nothing else changes |
| NotificationSlice.FetchFulfilled | src/store/slices/notificationSlice.ts:72-84 | page 1 replaces and other pages append (a missing list counts as empty); hasMore is the server's flag, else false; the page is recorded |
| NotificationSlice.FetchRejected | src/store/slices/notificationSlice.ts:85-88 | the error is set (the server's detail, else a fixed text) and both lists are kept |
| NotificationSlice.LoadFromAppends | src/store/slices/notificationSlice.ts:72-84 | pages fetched from page 2 on are appended in arrival order and the last page is recorded |
| NotificationSlice.LoadFromFirstPage | src/store/slices/notificationSlice.ts:76-80 | pages 1, 2, … loaded in order list exactly their items |
| NotificationsPage.InitialFetch | src/pages/NotificationsPage.tsx:18-20 | the effect's body asks for page 1 exactly while the full list is empty |
| NotificationsPage.FetchAfterRender | src/pages/NotificationsPage.tsx:17-21 | the effect asks for page 1 exactly after a render that changed the list's length and left it empty |
| NotificationsPage.LoadMore | src/pages/NotificationsPage.tsx:23-27 | the next page is requested exactly when not loading and more exist |
| NotificationsPage.ScreenOf | src/pages/NotificationsPage.tsx:43-116 | error with a page-1 retry, empty state, or one card per item with the unread marker exactly for unread items and Load More exactly while more exist |
| NotificationsPage.ClearAllKeepsScreen | src/pages/NotificationsPage.tsx:29-31 | Clear All changes nothing the page shows |
| NotificationsPage.ClearAll | src/pages/NotificationsPage.tsx:29-31 | Clear All empties the unread list only; the full list and everything else are kept |
| NotificationsPage.ClearAllEnabled | src/pages/NotificationsPage.tsx:66-68 | the button is enabled exactly while the full list is non-empty |
| NotificationsPage.LoadMoreRoundTrip | src/pages/NotificationsPage.tsx:23-27 | a pending Load More cannot fire again; its arrival appends and advances the page by one |
| NotificationsPage.EmptyFirstPageNotRetried | src/pages/NotificationsPage.tsx:17-21 | an empty first page leaves the list empty with the effect's condition still holding. The length it depends on is unchanged, so page 1 is not asked for again; a list emptied from non-empty does trigger the fetch |
| NotificationDropdown.Badge | src/components/global/NotificationDropdown.tsx:24-28 | no badge with nothing unread, '9+' above nine, else the count |
| NotificationDropdown.Listed | src/components/global/NotificationDropdown.tsx:44 | at most the first five items, in stored order |
| NotificationDropdown.MoreCount | src/components/global/NotificationDropdown.tsx:74-76 | the 'N more' line exactly above five, with N the count less five |
| NotificationDropdown.EveryUnreadAccountedFor | src/components/global/NotificationDropdown.tsx:42-89 | listed items plus the 'more' count make up the unread count; the empty state shows exactly when nothing is listed |
| NotificationDropdown.NewestListedFirst | src/store/slices/notificationSlice.ts:56-58 | a pushed notification is listed first and shows the badge |
| ChangePassword.SendOtp | src/pages/ChangePasswordPage.tsx:58-70 | success moves to the second step with a 60 s cooldown; failure keeps the step with the detail or 'Failed to send OTP' |
| ChangePassword.Resend | src/pages/ChangePasswordPage.tsx:156-166 | nothing while the cooldown runs. Otherwise a success restarts the 60 s cooldown on the second step with no error, and a failure keeps the step and cooldown and reports the detail or 'Failed to send OTP'. Loading ends either way; the code and location are kept. The button ignores the loading flag |
| ChangePassword.ResendLabel | src/pages/ChangePasswordPage.tsx:163-165 | 'Resend in Ns' while counting down, else 'Resend OTP' |
| ChangePassword.ResendEnabled | src/pages/ChangePasswordPage.tsx:158-161 | the resend button is enabled exactly when the cooldown is not positive |
| ChangePassword.Tick | src/pages/ChangePasswordPage.tsx:48-56 | the cooldown drops by one only while positive |
| ChangePassword.TicksCountDown | src/pages/ChangePasswordPage.tsx:48-56 | after n seconds the cooldown is c − n, stopping at 0, and nothing else changes |
| ChangePassword.EnterOtp | src/pages/ChangePasswordPage.tsx:139-142 | the code holds at most six characters |
| ChangePassword.SubmitEnabled | src/pages/ChangePasswordPage.tsx:215 | enabled exactly when not loading and the code has six characters |
| ChangePassword.Submit | src/pages/ChangePasswordPage.tsx:72-86 | success goes to /profile; failure stays with the message or 'Failed to change password' |
| ChangePassword.HappyPath | src/pages/ChangePasswordPage.tsx:31-70 | a sent code opens the second step with 'Resend in 60s', released after sixty ticks |
| PagedList.AppendAllConcat | src/hooks/useTweets.tsx:26-30 | appending pages one by one gives the list followed by the pages in order |
| PagedList.FirstThenAppend | src/hooks/useTweets.tsx:26-30 | a replacing first page and appended later pages give exactly those pages in order |
| PagedList.Without | src/hooks/useTweets.tsx:48 | the kept entries are exactly those with another id |
| PagedList.WithoutDistributes | src/hooks/useTweets.tsx:48 | removal keeps the original order |
| PagedList.WithoutIdempotent | src/hooks/useTweets.tsx:48 | removing twice is removing once |
| PagedList.Rewrite | src/hooks/useTweets.tsx:60-62 | same length; matching entries rewritten, the others kept |
| PagedList.RewriteThenRemove | src/pages/ProfilePage.tsx:89-98 | when a rewrite keeps ids, removing afterwards equals removing straight away |
| UseTweets.FetchTweets | src/hooks/useTweets.tsx:17-43 | page 1 replaces and other pages append; pagination mirrors the response; a failure keeps list and pagination with the message or a fixed text |
| UseTweets.DeleteTweet | src/hooks/useTweets.tsx:45-52 | after the server agrees, exactly the posts with that id go; a failure keeps the list |
| UseTweets.UpdateTweet | src/hooks/useTweets.tsx:54-68 | matching posts become the server's copy and others are kept; a failure keeps the list and rethrows |
| UseTweets.LoadMore | src/hooks/useTweets.tsx:70-74 | the next page exactly while the page is below the page count |
| UseTweets.LoadMoreAppends | src/hooks/useTweets.tsx:70-74 | after a page reporting more, Load More appends the next page |
| UseTweets.LoadMoreAllAppends | src/hooks/useTweets.tsx:26-30 | against a server serving the following pages one by one, every Load More press goes through. Each page is appended in order, the page counter advances once per press, and the pagination ends as the last page's |
| UseTweets.PagesAccumulate | src/hooks/useTweets.tsx:17-43 | the first page followed by Load More presses against a server serving consecutive pages lists those pages in order |
| ProfilePage.FetchTweets | src/pages/ProfilePage.tsx:35-61 | page 1 replaces and other pages append; the following list is kept |
| ProfilePage.DeleteTweet | src/pages/ProfilePage.tsx:71-78 | after the server agrees, exactly the posts with that id go and the others keep their order; a refusal keeps the posts and sets the server's message or 'Failed to delete tweet'. Pagination, loading and the following list are kept |
| ProfilePage.ApplyEdit | src/pages/ProfilePage.tsx:91-95 | only text and privacy change; id, dates and author are kept |
| ProfilePage.UpdateTweet | src/pages/ProfilePage.tsx:80-105 | matching posts take the new text and privacy and keep their other fields, whatever the server returned |
| ProfilePage.Unfollow | src/pages/ProfilePage.tsx:67-69 | exactly that user leaves the following list, the rest keep their order, and the posts are kept |
| ProfilePage.LoadMoreShown | src/pages/ProfilePage.tsx:165 | the button shows under a non-empty list exactly while more pages exist |
| ProfilePage.ShownButtonFetches | src/pages/ProfilePage.tsx:107-111 | a shown button always fetches the next page |
| ProfilePage.EditThenDelete | src/pages/ProfilePage.tsx:71-98 | editing then deleting a post equals deleting it |
| ProfilePage.EditKeepsListedDates | src/pages/ProfilePage.tsx:89-98 | the page keeps the listed creation date where the hook takes the server's copy |
| ProfilePage.UnfollowIdempotent | src/pages/ProfilePage.tsx:67-69 | unfollowing twice is unfollowing once |
| FeedPage.FetchTweets | src/pages/FeedPage.tsx:25-49 | append or replace; hasMore is `pageNum < total_pages`; a failure keeps list and hasMore; both loading flags cleared |
| FeedPage.LoadMore | src/pages/FeedPage.tsx:51-55 | the page advances by one and that page is appended |
| FeedPage.TweetCreated | src/pages/FeedPage.tsx:61-64 | back to page 1, replacing the list |
| FeedPage.ViewOf | src/pages/FeedPage.tsx:66-96 | skeletons while loading, the empty message, or the posts with Load More exactly while more exist |
| FeedPage.FailedLoadMoreSkipsPage | src/pages/FeedPage.tsx:51-55 | a failed Load More still advances the page, so the next one skips the failed page |
| FeedPage.LoadMoreAllAppends | src/pages/FeedPage.tsx:51-55 | over any sequence of Load More presses, the page counter advances once per press, and exactly the pages that arrived are appended in order |
| FeedPage.PagesAccumulate | src/pages/FeedPage.tsx:25-59 | mounting and then pressing Load More lists the first page and every later page that arrived, in order, with one page step per press |
| FeedPage.LastPageHidesButton | src/pages/FeedPage.tsx:42 | Load More disappears once the last page is loaded |
| PeoplePage.FetchUsers | src/pages/PeoplePage.tsx:24-45 | append or replace; hasMore is `pageNum < total_pages`; only a replacing fetch ends the initial loading |
| PeoplePage.LoadMore | src/pages/PeoplePage.tsx:61-65 | the page advances and that page is appended |
| PeoplePage.LoadMoreAllAppends | src/pages/PeoplePage.tsx:61-65 | over any sequence of Load More presses, the page counter advances once per press, exactly the pages that arrived are appended in order, and the follow marks are untouched |
| PeoplePage.FollowStarted | src/pages/PeoplePage.tsx:49 | the id is marked before the request |
| PeoplePage.FollowFailed | src/pages/PeoplePage.tsx:53-57 | the rollback unmarks the id |
| PeoplePage.Follow | src/pages/PeoplePage.tsx:47-59 | success leaves the id marked; failure leaves it unmarked whatever it was before; nothing but the following set changes |
| PeoplePage.IsFollowing | src/pages/PeoplePage.tsx:83 | a card shows following exactly for ids in the set |
| PeoplePage.FailedFollowForgetsEarlierFollow | src/pages/PeoplePage.tsx:53-57 | a failed follow unmarks a user an earlier follow had marked |
| PeoplePage.FollowTouchesOneCard | src/pages/PeoplePage.tsx:47-59 | a follow never changes another card |
| PeoplePage.PagesAccumulate | src/pages/PeoplePage.tsx:24-65 | the first page and every later page that arrived are listed in order, with one page step per press |
| Common.TrimEmptyIffAllSpace | src/components/tweet/TweetItem.tsx:53 | `trim()` yields the empty string exactly for whitespace-only text |
| Common.TrimIdempotent | src/components/tweet/TweetItem.tsx:58 | trimming trimmed text changes nothing |
| Common.DecimalRoundTrip | src/components/tweet/CreateTweetDialog.tsx:111 | the decimal rendering of a number reads back as that number |

## Left out

- Browser media and WebRTC objects are opaque handles. `RTCPeerConnection`, `getUserMedia`, `AudioContext` and the hand-built toast are not modelled. An `<audio>` element is modelled only by its id, as one count in the playback multiset; its stream and autoplay are not. Each negotiation is one atomic step that succeeds or fails; partial progress inside it is not modelled.
- The `requestAnimationFrame` sampling loop never ends, and after a leave it keeps rewriting that user's level. The loop is not modelled. The normaliser is modelled once per frame, on exact reals rather than floating point.
- WebSocket transport details are left out:
  - the unguarded `JSON.parse`;
  - close-code logging;
  - the window `CustomEvent` relay between the two hooks, which is replaced by direct application of the relayed event.
- Callbacks from a link or a socket that has already been replaced or closed are not modelled. Link events apply only to registered peers, and socket events to the current socket.
- React scheduling is not modelled: stale closures, effect ordering and re-renders. The current user is passed explicitly to the message handler.
- `createRoom` and `fetchRoomDetails` are left out. Only their results reach the modelled state, through `ConnectToRoom`'s details.
- `tempId` and timestamps come from `Date.now`/`Math.random` and the clock, so the caller supplies them. Locale date and time text is an opaque string.
- Dates are whole milliseconds. An unparseable date (NaN) is not modelled.
- String lengths count characters, while the source counts UTF-16 code units. Text with characters outside the Basic Multilingual Plane would differ. This affects the schemas, the counter and the code input.
- AuthValidation.FullName: the length check runs before trimming, following the order the schema declares its steps.
- The e-mail check is an input (`emailOk`) rather than a model of zod's `.email()`.
- The change-password schema is not part of this model; its verdict is the `formOk` input.
- The REST and network clients are left out: `src/lib/api.ts` (including its redirect interceptor), `useConnections`, and the notification socket with its timed reconnects. Their replies are inputs.
- Presentational and wiring files are left out: skeletons, layouts, the header, navigation, avatars, user cards, user lists, the toast, the login and register forms, the room list page, `TweetsList`, the home page, routes and the store setup. The floating audio room is left out because it is never mounted.
- While a request runs, the intermediate loading states are not modelled, because each request is one step. FeedPage's `loadingMore` and PeoplePage's `loadingMore` are therefore always false between steps.
- RunKeepsScoped: playback elements are not part of the scoped invariant, because the source does not keep them within the links. A second track for the same peer appends a second `audio-<id>` element, and a leave or close-all removes only the first one `getElementById` finds, so the other keeps playing (`SecondTrackOrphansPlayback`). `RunKeepsTidy` states when no element is orphaned.
- AudioParticipants.Tiles: the tiles come from the directory map, so the order in which the source renders them is lost. The source renders its participant `Map` in insertion order.
- `startAudioStream` called while a stream already exists replaces the stream without stopping the old one. The old tracks' release is not modelled.

=== FILE: audio_participants.dfy ===
/** The participant grid: one tile per directory entry, showing the level
    read from the level map, the border chosen by priority, the host badge,
    the microphone icon and the "Speaking..." text. */
module AudioParticipants {
  import opened Common
  import W = WebRtcAudio

  /** `audioLevels.get(id) || 0`: a missing level (or a zero one) reads as 0. */
  function LevelOf(levels: map<UserId, real>, id: UserId): (r: real)
    ensures id !in levels ==> r == 0.0
    ensures id in levels ==> r == levels[id]
  {
    if id in levels then levels[id] else 0.0
  }

  /** Speaking means a level strictly above 0.1. */
  predicate IsSpeaking(level: real) {
    level > 0.1
  }

  /** The border styles, in priority order. */
  datatype Border = CurrentUserBorder | HostBorder | SpeakingBorder | DefaultBorder

  /** `getBorderStyle`: the current user's border wins, then the host's,
      then the speaking border. */
  function BorderOf(isCurrentUser: bool, level: real, isCreator: bool): (r: Border)
    ensures r == CurrentUserBorder <==> isCurrentUser
    ensures r == HostBorder <==> !isCurrentUser && isCreator
    ensures r == SpeakingBorder <==> !isCurrentUser && !isCreator && IsSpeaking(level)
    ensures r == DefaultBorder <==> !isCurrentUser && !isCreator && !IsSpeaking(level)
  {
    if isCurrentUser then CurrentUserBorder
    else if isCreator then HostBorder
    else if IsSpeaking(level) then SpeakingBorder
    else DefaultBorder
  }

  /** What one tile shows. */
  datatype Tile = Tile(
    hostBadge: bool,
    border: Border,
    micOff: bool,
    speakingText: bool,
    fullName: string,
    username: string)

  /** The tile of one entry. The badge compares the entry's id with the
      room's host id; the entry's own creator flag is not read. */
  function TileOf(p: W.Participant, levels: map<UserId, real>, creatorId: Option<UserId>, currentUserId: Option<UserId>): (r: Tile)
    ensures r.hostBadge <==> creatorId == Some(p.user.id)
    ensures r.micOff == p.isMuted
    ensures r.speakingText <==> IsSpeaking(LevelOf(levels, p.user.id)) && !p.isMuted
    ensures r.border == BorderOf(currentUserId == Some(p.user.id), LevelOf(levels, p.user.id), creatorId == Some(p.user.id))
  {
    var level := LevelOf(levels, p.user.id);
    var isCreator := creatorId == Some(p.user.id);
    var isCurrentUser := currentUserId == Some(p.user.id);
    Tile(isCreator, BorderOf(isCurrentUser, level, isCreator), p.isMuted,
         IsSpeaking(level) && !p.isMuted, p.user.fullName, p.user.username)
  }

  /** The grid: one tile per directory entry, keyed like the directory. */
  function Tiles(participants: map<UserId, W.Participant>, levels: map<UserId, real>,
                 creatorId: Option<UserId>, currentUserId: Option<UserId>): (r: map<UserId, Tile>)
    ensures r.Keys == participants.Keys
    ensures forall id :: id in r ==> r[id] == TileOf(participants[id], levels, creatorId, currentUserId)
  {
    map id | id in participants :: TileOf(participants[id], levels, creatorId, currentUserId)
  }

  /** The heading's count is the number of directory entries. */
  function Count(participants: map<UserId, W.Participant>): (r: nat)
    ensures r == |participants.Keys|
  {
    |participants|
  }

  /** One tile per entry: the count equals the number of tiles. */
  lemma CountMatchesTiles(participants: map<UserId, W.Participant>, levels: map<UserId, real>,
                          creatorId: Option<UserId>, currentUserId: Option<UserId>)
    ensures Count(participants) == |Tiles(participants, levels, creatorId, currentUserId)|
  {
    var t := Tiles(participants, levels, creatorId, currentUserId);
    assert t.Keys == participants.Keys;
    assert |t| == |t.Keys|;
  }

  /** The badge ignores the entry's creator flag: an entry listed as creator
      by a stale roster shows no badge once the host id differs. */
  lemma BadgeIgnoresCreatorFlag(p: W.Participant, flag: bool, levels: map<UserId, real>,
                                creatorId: Option<UserId>, currentUserId: Option<UserId>)
    ensures TileOf(p.(isCreator := flag), levels, creatorId, currentUserId) == TileOf(p, levels, creatorId, currentUserId)
  {
  }

  /** A muted participant never shows "Speaking...", whatever the level. */
  lemma MutedNeverSpeaking(p: W.Participant, levels: map<UserId, real>,
                           creatorId: Option<UserId>, currentUserId: Option<UserId>)
    requires p.isMuted
    ensures !TileOf(p, levels, creatorId, currentUserId).speakingText
  {
  }

  /** With levels produced by the normaliser, a tile shows "Speaking..."
      exactly when the unmuted participant's frame averages above 12.8. */
  lemma SpeakingFromSpectrum(p: W.Participant, bins: seq<W.Byte>, creatorId: Option<UserId>, currentUserId: Option<UserId>)
    requires |bins| > 0
    ensures var levels := map[p.user.id := W.NormalisedLevel(bins)];
      TileOf(p, levels, creatorId, currentUserId).speakingText <==> !p.isMuted && 10 * W.Sum(bins) > 128 * |bins|
  {
  }
}

=== FILE: audio_room.dfy ===
/** The room-socket hook: connecting to a room (fetch its details, then open
    a socket), the socket's open/close/error callbacks, the inbound message
    dispatcher, sending frames only while the socket is open, the optimistic
    chat send, disconnecting and leaving.

    The hook's state is the store slice plus the socket reference, the
    "connection in progress" flag and the displayed connection state.
    Frames written to the socket and sockets closed are returned as a
    sequence of effects in the order they happen. */
module AudioRoom {
  import opened Common
  import Slice = AudioRoomSlice

  /** `WebSocket.readyState`. */
  datatype SocketState = SocketConnecting | SocketOpen | SocketClosing | SocketClosed

  /** The socket the hook holds: the room it was opened for and its state. */
  datatype Socket = Socket(roomId: string, readyState: SocketState)

  /** The connection state the hook exposes. */
  datatype ConnectionState = Disconnected | Connecting | Connected | Error

  datatype Hook = Hook(
    store: Slice.State,
    socket: Option<Socket>,
    connecting: bool,
    connection: ConnectionState)

  /** Frames this client writes to the room socket. */
  datatype Frame =
    | ChatFrame(text: string, timestamp: string, tempId: string)
    | SignalFrame(signalType: SignalType, target: UserId)

  /** What the hook does to the outside world. `code` is the close code when
      one is passed to `close`. */
  datatype Effect =
    | Transmit(frame: Frame)
    | CloseSocket(code: Option<int>)

  datatype HookStep = HookStep(hook: Hook, effects: seq<Effect>)

  const Initial: Hook := Hook(Slice.Initial, None, false, Disconnected)

  // -----------------------------------------------------------------------
  // REST-backed operations
  // -----------------------------------------------------------------------

  /** `fetchActiveRooms`: loading is raised, then the list is stored or the
      error set (the server's detail, else a fixed text), and loading is
      lowered in either case. */
  function FetchActiveRooms(s: Slice.State, outcome: Outcome<seq<Slice.Room>>): (r: Slice.State)
    ensures !r.isLoading
    ensures outcome.Ok? ==> r.activeRooms == outcome.value && r.error == s.error
    ensures outcome.Failure? ==> r.activeRooms == s.activeRooms && r.error == Some(OrElse(outcome.detail, "Failed to fetch rooms"))
    ensures r.currentRoom == s.currentRoom && r.messages == s.messages && r.isConnected == s.isConnected
  {
    var loading := Slice.SetLoading(s, true);
    var done := match outcome
      case Ok(rooms) => Slice.SetActiveRooms(loading, rooms)
      case Failure(detail, _) => Slice.SetError(loading, Some(OrElse(detail, "Failed to fetch rooms")));
    Slice.SetLoading(done, false)
  }

  /** `deleteRoom`: on success the room is left and the list refreshed; on
      failure the error is set and the call rethrows (`threw`). */
  function DeleteRoom(s: Slice.State, deleted: Outcome<()>, refresh: Outcome<seq<Slice.Room>>): (r: (Slice.State, bool))
    ensures deleted.Ok? ==> !r.1 && r.0 == FetchActiveRooms(Slice.LeaveRoom(s), refresh)
    ensures deleted.Failure? ==> r.1 && r.0 == Slice.SetError(s, Some(OrElse(deleted.detail, "Failed to delete room")))
  {
    match deleted
    case Ok(_) => (FetchActiveRooms(Slice.LeaveRoom(s), refresh), false)
    case Failure(detail, _) => (Slice.SetError(s, Some(OrElse(detail, "Failed to delete room"))), true)
  }

  // -----------------------------------------------------------------------
  // Connecting
  // -----------------------------------------------------------------------

  /** The duplicate-connection guard: a connect in progress, a socket still
      connecting, or an open socket makes `connectToRoom` return at once. */
  predicate ConnectBlocked(h: Hook) {
    h.connecting
    || (h.socket.Some? && h.socket.value.readyState == SocketConnecting)
    || (h.socket.Some? && h.socket.value.readyState == SocketOpen)
  }

  /** `connectToRoom(roomId)`. `details` is the room-details request. On
      success the room is stored, any held socket is closed, and a new socket
      is created in the connecting state; nothing else in the store changes,
      so an earlier error, the chat and the connection flag survive. On failure the error is set from
      the exception's message (else a fixed text), the state shows the
      error, the in-progress flag is cleared, and the call rethrows. */
  function ConnectToRoom(h: Hook, roomId: string, details: Outcome<Slice.Room>): (r: (HookStep, bool))
    ensures ConnectBlocked(h) ==> r == (HookStep(h, []), false)
    ensures !ConnectBlocked(h) && details.Ok? ==>
      && !r.1
      && r.0.hook.connecting
      && r.0.hook.connection == Connecting
      && r.0.hook.socket == Some(Socket(roomId, SocketConnecting))
      && r.0.hook.store == h.store.(currentRoom := Some(details.value), isLoading := false)
      && r.0.effects == (if h.socket.Some? then [CloseSocket(None)] else [])
    ensures !ConnectBlocked(h) && details.Failure? ==>
      && r.1
      && !r.0.hook.connecting
      && r.0.hook.connection == Error
      && r.0.hook.socket == h.socket
      && r.0.hook.store == h.store.(error := Some(OrElse(details.message, "Failed to connect to room")), isLoading := false)
      && r.0.effects == []
  {
    if ConnectBlocked(h) then (HookStep(h, []), false)
    else
      var loading := Slice.SetLoading(h.store, true);
      match details
      case Ok(room) =>
        var fetched := Slice.SetLoading(loading, false);
        var stored := Slice.SetCurrentRoom(fetched, Some(room));
        var closes := if h.socket.Some? then [CloseSocket(None)] else [];
        (HookStep(Hook(stored, Some(Socket(roomId, SocketConnecting)), true, Connecting), closes), false)
      case Failure(detail, message) =>
        var fetchFailed := Slice.SetLoading(Slice.SetError(loading, Some(OrElse(detail, "Failed to fetch room details"))), false);
        var caught := Slice.SetError(fetchFailed, Some(OrElse(message, "Failed to connect to room")));
        (HookStep(h.(store := caught, connecting := false, connection := Error), []), true)
  }

  /** `onopen` of the held socket. */
  function OnOpen(h: Hook): (r: Hook)
    ensures !r.connecting && r.store.isConnected && r.connection == Connected
    ensures h.socket.Some? ==> r.socket == Some(h.socket.value.(readyState := SocketOpen))
    ensures r.store == Slice.SetConnectionStatus(h.store, true)
  {
    h.(connecting := false, store := Slice.SetConnectionStatus(h.store, true),
       connection := Connected,
       socket := if h.socket.Some? then Some(h.socket.value.(readyState := SocketOpen)) else None)
  }

  /** `onclose` of the held socket. The reference is not cleared. */
  function OnClose(h: Hook): (r: Hook)
    ensures !r.connecting && !r.store.isConnected && r.connection == Disconnected
    ensures h.socket.Some? ==> r.socket == Some(h.socket.value.(readyState := SocketClosed))
    ensures r.store == Slice.SetConnectionStatus(h.store, false)
  {
    h.(connecting := false, store := Slice.SetConnectionStatus(h.store, false),
       connection := Disconnected,
       socket := if h.socket.Some? then Some(h.socket.value.(readyState := SocketClosed)) else None)
  }

  /** `onerror` of the held socket: the connection flag is left as it is. */
  function OnError(h: Hook): (r: Hook)
    ensures !r.connecting && r.connection == Error
    ensures r.store == Slice.SetError(h.store, Some("Failed to connect to room"))
    ensures r.socket == h.socket
  {
    h.(connecting := false, store := Slice.SetError(h.store, Some("Failed to connect to room")), connection := Error)
  }

  // -----------------------------------------------------------------------
  // Sending
  // -----------------------------------------------------------------------

  predicate IsOpen(h: Hook) {
    h.socket.Some? && h.socket.value.readyState == SocketOpen
  }

  /** `sendWebSocketMessage`: the frame goes out only while the socket is
      open; otherwise it is dropped, with no error and no buffering. */
  function SendFrame(h: Hook, frame: Frame): (r: seq<Effect>)
    ensures IsOpen(h) <==> r == [Transmit(frame)]
    ensures !IsOpen(h) <==> r == []
  {
    if IsOpen(h) then [Transmit(frame)] else []
  }

  /** `sendChatMessage(text)`. `tempId` and `now` stand for the generated
      temporary id and the ISO time; `sendThrows` says whether writing to
      the socket throws. With no user nothing happens. Otherwise one own
      message is appended with status "sending", then the chat frame is
      sent (when the socket is open); a throw marks that message failed. */
  function SendChatMessage(h: Hook, user: Option<User>, text: string, tempId: string, now: string, sendThrows: bool): (r: HookStep)
    ensures user.None? ==> r == HookStep(h, [])
    ensures user.Some? ==>
      var m := Slice.ChatMessage(
        if h.store.currentRoom.Some? then h.store.currentRoom.value.id else "",
        user.value.id, user.value.username, text, now, true, Slice.Sending, Some(tempId));
      && r.hook.store == (if IsOpen(h) && sendThrows
                          then Slice.UpdateMessageStatus(Slice.AddMessage(h.store, m), tempId, Slice.Failed, None)
                          else Slice.AddMessage(h.store, m))
      && r.effects == (if IsOpen(h) && !sendThrows then [Transmit(ChatFrame(text, now, tempId))] else [])
      && r.hook.(store := h.store) == h
  {
    match user
    case None => HookStep(h, [])
    case Some(u) =>
      var roomId := if h.store.currentRoom.Some? then h.store.currentRoom.value.id else "";
      var m := Slice.ChatMessage(roomId, u.id, u.username, text, now, true, Slice.Sending, Some(tempId));
      var added := Slice.AddMessage(h.store, m);
      if IsOpen(h) && sendThrows then
        HookStep(h.(store := Slice.UpdateMessageStatus(added, tempId, Slice.Failed, None)), [])
      else
        HookStep(h.(store := added), SendFrame(h, ChatFrame(text, now, tempId)))
  }

  // -----------------------------------------------------------------------
  // Inbound messages
  // -----------------------------------------------------------------------

  /** A parsed inbound message, by `type`; absent fields are None. */
  datatype Inbound =
    | ConnectedMsg(roomId: Option<string>)
    | UserJoinedMsg(joiner: Option<User>)
    | UserLeftMsg(leaver: Option<User>)
    | ChatMsg(chatRoomId: Option<string>, userId: Option<string>, username: Option<string>,
              message: Option<string>, timestamp: Option<string>, tempId: Option<string>)
    | RoomDeletedMsg
    | WebRtcSignalMsg(from: UserId, kind: SignalType)
    | ErrorMsg(text: Option<string>, code: Option<string>)

  /** What is handed on to the peer-mesh side. The joined and left user is
      passed only when the message carries one. */
  datatype Relay = NoRelay | RelayJoined(user: User) | RelayLeft(user: User) | RelaySignal(from: UserId, kind: SignalType)

  /** The user-facing text for a server error. */
  function ErrorText(text: Option<string>, code: Option<string>): (r: string)
    ensures code == Some("AUTH_FAILED") ==> r == "Authentication failed. Please log in again."
    ensures code == Some("ROOM_NOT_FOUND") ==> r == "Room not found or has been deleted."
    ensures code == Some("ROOM_NOT_LIVE") ==> r == "Room is not currently active."
    ensures code !in {Some("AUTH_FAILED"), Some("ROOM_NOT_FOUND"), Some("ROOM_NOT_LIVE")} ==>
      r == OrElse(text, "Connection error occurred")
    ensures r != ""
  {
    if code == Some("AUTH_FAILED") then "Authentication failed. Please log in again."
    else if code == Some("ROOM_NOT_FOUND") then "Room not found or has been deleted."
    else if code == Some("ROOM_NOT_LIVE") then "Room is not currently active."
    else OrElse(text, "Connection error occurred")
  }

  /** All five fields the chat handler requires are present and non-empty. */
  predicate ChatComplete(m: Inbound)
    requires m.ChatMsg?
  {
    Truthy(m.chatRoomId) && Truthy(m.userId) && Truthy(m.username) && Truthy(m.message) && Truthy(m.timestamp)
  }

  /** An inbound chat is treated as the echo of one of our own messages. */
  predicate IsOwnEcho(m: Inbound, currentUser: Option<User>)
    requires m.ChatMsg?
  {
    Truthy(m.tempId) && currentUser.Some? && m.userId == Some(currentUser.value.id)
  }

  /** `handleWebSocketMessage`. `currentUser` is the logged-in user as the
      handler sees it. Only the store and the displayed connection state can
      change; the socket and the in-progress flag are never touched. Join,
      leave and signal messages are handed on to the peer mesh and change
      nothing here; chat messages only ever add or confirm one message. An
      echo of our own chat confirms the first message holding its temporary
      id, stamping it with the server's time; later ones are untouched. */
  function HandleMessage(h: Hook, m: Inbound, currentUser: Option<User>): (r: (Hook, Relay))
    ensures r.0.socket == h.socket && r.0.connecting == h.connecting
    ensures r.0.store.activeRooms == h.store.activeRooms && r.0.store.isLoading == h.store.isLoading
    // what is relayed
    ensures r.1 != NoRelay <==>
      (m.UserJoinedMsg? && m.joiner.Some?) || (m.UserLeftMsg? && m.leaver.Some?) || m.WebRtcSignalMsg?
    ensures r.1.RelayJoined? ==> m == UserJoinedMsg(Some(r.1.user))
    ensures r.1.RelayLeft? ==> m == UserLeftMsg(Some(r.1.user))
    ensures r.1.RelaySignal? ==> m == WebRtcSignalMsg(r.1.from, r.1.kind)
    ensures m.UserJoinedMsg? || m.UserLeftMsg? || m.WebRtcSignalMsg? ==> r.0 == h
    // the displayed connection state and the error
    ensures r.0.connection != h.connection ==> m.ConnectedMsg? || m.ErrorMsg?
    ensures m.ConnectedMsg? ==> r.0.connection == Connected && r.0.store.isConnected
    ensures m.ErrorMsg? ==> r.0.connection == Error && r.0.store.error == Some(ErrorText(m.text, m.code))
    ensures r.0.store.error != h.store.error ==> m.ErrorMsg? || m.RoomDeletedMsg?
    ensures r.0.store.isConnected != h.store.isConnected ==> m.ConnectedMsg? || m.RoomDeletedMsg?
    ensures m.ErrorMsg? ==> r.0.store == h.store.(error := Some(ErrorText(m.text, m.code)))
    // the room and the chat log
    ensures r.0.store.currentRoom != h.store.currentRoom ==> m.RoomDeletedMsg?
    ensures m.RoomDeletedMsg? ==>
      && r.0.store.currentRoom.None? && r.0.store.messages == [] && !r.0.store.isConnected
      && r.0.store.error == Some("Room was deleted by the host") && r.0.connection == h.connection
    ensures !m.ChatMsg? && !m.RoomDeletedMsg? ==> r.0.store.messages == h.store.messages
    ensures m.ChatMsg? ==> r.1 == NoRelay && r.0.connection == h.connection
    ensures m.ChatMsg? && !ChatComplete(m) ==> r.0 == h
    ensures m.ChatMsg? && ChatComplete(m) && IsOwnEcho(m, currentUser) ==>
      && |r.0.store.messages| == |h.store.messages|
      && (Slice.FindTempId(h.store.messages, m.tempId.value).None? ==> r.0 == h)
      && (Slice.FindTempId(h.store.messages, m.tempId.value).Some? ==>
            var i := Slice.FindTempId(h.store.messages, m.tempId.value).value;
            && r.0.store.messages[i] == h.store.messages[i].(status := Slice.Sent, timestamp := m.timestamp.value)
            && (forall k :: 0 <= k < |h.store.messages| && k != i ==> r.0.store.messages[k] == h.store.messages[k]))
    ensures m.ChatMsg? && ChatComplete(m) && !IsOwnEcho(m, currentUser) ==>
      && |r.0.store.messages| == |h.store.messages| + 1
      && r.0.store.messages[..|h.store.messages|] == h.store.messages
      && var last := r.0.store.messages[|h.store.messages|];
      && last.status == Slice.Sent && last.tempId.None?
      && last.text == m.message.value && last.userId == m.userId.value && last.timestamp == m.timestamp.value
      && (last.isOwn <==> currentUser.Some? && m.userId.value == currentUser.value.id)
    ensures m.ChatMsg? ==> r.0.store.(messages := h.store.messages) == h.store
  {
    match m
    case ConnectedMsg(_) => (h.(store := Slice.SetConnectionStatus(h.store, true), connection := Connected), NoRelay)
    case UserJoinedMsg(u) => (h, if u.Some? then RelayJoined(u.value) else NoRelay)
    case UserLeftMsg(u) => (h, if u.Some? then RelayLeft(u.value) else NoRelay)
    case ChatMsg(roomId, userId, username, message, timestamp, tempId) =>
      if !ChatComplete(m) then (h, NoRelay)
      else
        var isOwn := currentUser.Some? && userId.value == currentUser.value.id;
        if Truthy(tempId) && isOwn then
          (h.(store := Slice.UpdateMessageStatus(h.store, tempId.value, Slice.Sent, timestamp)), NoRelay)
        else
          (h.(store := Slice.AddMessage(h.store, Slice.ChatMessage(roomId.value, userId.value, username.value,
                                                                    message.value, timestamp.value, isOwn, Slice.Sent, None))), NoRelay)
    case RoomDeletedMsg => (h.(store := Slice.LeaveRoom(Slice.SetError(h.store, Some("Room was deleted by the host")))), NoRelay)
    case WebRtcSignalMsg(from, kind) => (h, RelaySignal(from, kind))
    case ErrorMsg(text, code) => (h.(store := Slice.SetError(h.store, Some(ErrorText(text, code))), connection := Error), NoRelay)
  }

  // -----------------------------------------------------------------------
  // Leaving
  // -----------------------------------------------------------------------

  /** `disconnectWebSocket`: close a held socket with code 1000 and drop the
      reference; the state reads disconnected either way. The in-progress
      flag is left as it is. */
  function Disconnect(h: Hook): (r: HookStep)
    ensures r.hook.socket.None? && !r.hook.store.isConnected && r.hook.connection == Disconnected
    ensures r.effects == (if h.socket.Some? then [CloseSocket(Some(1000))] else [])
    ensures r.hook.connecting == h.connecting
    ensures r.hook.store == Slice.SetConnectionStatus(h.store, false)
  {
    HookStep(h.(socket := None, store := Slice.SetConnectionStatus(h.store, false), connection := Disconnected),
             if h.socket.Some? then [CloseSocket(Some(1000))] else [])
  }

  /** `handleLeaveRoom`: disconnect, then leave the room in the store. */
  function LeaveRoom(h: Hook): (r: HookStep)
    ensures r.hook.socket.None? && r.hook.connection == Disconnected
    ensures r.hook.store == Slice.LeaveRoom(h.store)
    ensures r.effects == Disconnect(h).effects
  {
    var d := Disconnect(h);
    HookStep(d.hook.(store := Slice.LeaveRoom(d.hook.store)), d.effects)
  }

  /** `isHost`: the room's host id equals the user's id, where an absent room
      or user reads as `undefined`; so with neither present it holds. */
  function IsHost(room: Option<Slice.Room>, user: Option<User>): (r: bool)
    ensures room.Some? && user.Some? ==> (r <==> room.value.hostId == user.value.id)
    ensures room.Some? != user.Some? ==> !r
    ensures room.None? && user.None? ==> r
  {
    match (room, user)
    case (Some(rm), Some(u)) => rm.hostId == u.id
    case (None, None) => true
    case _ => false
  }

  // -----------------------------------------------------------------------
  // Properties
  // -----------------------------------------------------------------------

  /** A guarded connect never creates a second socket: after a connect that
      went ahead, a second connect is blocked until the socket opens, closes
      or fails. */
  lemma SecondConnectBlocked(h: Hook, a: string, b: string, details: Outcome<Slice.Room>, again: Outcome<Slice.Room>)
    requires !ConnectBlocked(h) && details.Ok?
    ensures var t := ConnectToRoom(h, a, details).0.hook;
      ConnectToRoom(t, b, again) == (HookStep(t, []), false)
  {
  }

  /** Every callback clears the in-progress flag, so a later connect is
      blocked only by the socket itself. */
  lemma CallbacksClearConnecting(h: Hook)
    ensures !OnOpen(h).connecting && !OnClose(h).connecting && !OnError(h).connecting
    ensures h.socket.Some? ==> !ConnectBlocked(OnClose(h))
    ensures h.socket.Some? ==> ConnectBlocked(OnOpen(h))
  {
  }

  /** A chat sent while the socket is not open stays "sending": it is
      appended, nothing is written, and nothing marks it failed. */
  lemma ChatWhileClosedStaysSending(h: Hook, user: User, text: string, tempId: string, now: string, sendThrows: bool)
    requires !IsOpen(h)
    ensures var r := SendChatMessage(h, Some(user), text, tempId, now, sendThrows);
      && r.effects == []
      && |r.hook.store.messages| == |h.store.messages| + 1
      && r.hook.store.messages[|h.store.messages|].status == Slice.Sending
  {
  }

  /** The optimistic round trip: a chat sent on an open socket under a
      fresh temporary id, followed by the server's echo of that id, leaves
      exactly one new message, now "sent" with the server's timestamp, and
      writes exactly one frame carrying the same id. */
  lemma ChatRoundTrip(h: Hook, user: User, text: string, tempId: string, now: string, serverTime: string)
    requires IsOpen(h) && tempId != "" && Slice.TempIdFresh(h.store.messages, tempId)
    requires h.store.currentRoom.Some? && h.store.currentRoom.value.id != ""
    requires user.id != "" && user.username != "" && text != "" && serverTime != ""
    ensures var sent := SendChatMessage(h, Some(user), text, tempId, now, false);
            var echo := ChatMsg(Some(h.store.currentRoom.value.id), Some(user.id), Some(user.username), Some(text), Some(serverTime), Some(tempId));
            var back := HandleMessage(sent.hook, echo, Some(user)).0;
      && sent.effects == [Transmit(ChatFrame(text, now, tempId))]
      && |back.store.messages| == |h.store.messages| + 1
      && back.store.messages[..|h.store.messages|] == h.store.messages
      && back.store.messages[|h.store.messages|] == Slice.ChatMessage(h.store.currentRoom.value.id, user.id, user.username, text, serverTime, true, Slice.Sent, Some(tempId))
  {
    var m := Slice.ChatMessage(h.store.currentRoom.value.id, user.id, user.username, text, now, true, Slice.Sending, Some(tempId));
    Slice.AddThenConfirm(h.store, m, tempId, Slice.Sent, Some(serverTime));
  }

  /** After the host deletes the room, the error text survives while the
      room and the chat are gone. */
  lemma RoomDeletedKeepsError(h: Hook, currentUser: Option<User>)
    ensures var t := HandleMessage(h, RoomDeletedMsg, currentUser).0;
      && t.store.error == Some("Room was deleted by the host")
      && t.store.currentRoom.None? && t.store.messages == [] && !t.store.isConnected
  {
  }

  /** A chat from another user, or one of ours without a temporary id, is
      appended as a new message, never merged. */
  lemma ForeignChatAppends(h: Hook, m: Inbound, currentUser: Option<User>)
    requires m.ChatMsg? && ChatComplete(m) && !IsOwnEcho(m, currentUser)
    ensures |HandleMessage(h, m, currentUser).0.store.messages| == |h.store.messages| + 1
  {
  }

  /** A second disconnect finds no socket: it closes nothing and changes
      nothing. */
  lemma DisconnectIdempotent(h: Hook)
    ensures var d := Disconnect(h).hook; Disconnect(d) == HookStep(d, [])
  {
  }

  /** Once disconnected (or left), a connect goes ahead again unless a
      connect is still in progress. */
  lemma DisconnectAllowsReconnect(h: Hook)
    ensures !ConnectBlocked(Disconnect(h).hook) <==> !h.connecting
    ensures !ConnectBlocked(LeaveRoom(h).hook) <==> !h.connecting
  {
  }

  /** Leaving twice is leaving once, and the second leave closes nothing. */
  lemma LeaveRoomIdempotent(h: Hook)
    ensures var t := LeaveRoom(h).hook; LeaveRoom(t) == HookStep(t, [])
  {
  }

  /** Of two successful refreshes the later list wins; nothing else differs
      from a single refresh. */
  lemma LatestRoomListWins(s: Slice.State, a: seq<Slice.Room>, b: seq<Slice.Room>)
    ensures FetchActiveRooms(FetchActiveRooms(s, Ok(a)), Ok(b)) == FetchActiveRooms(s, Ok(b))
  {
  }

  /** A successful refresh does not clear the error a failed one left. */
  lemma RefreshKeepsEarlierError(s: Slice.State, detail: Option<string>, message: Option<string>, rooms: seq<Slice.Room>)
    ensures FetchActiveRooms(FetchActiveRooms(s, Failure(detail, message)), Ok(rooms)).error == Some(OrElse(detail, "Failed to fetch rooms"))
  {
  }

  /** A deleted room is gone from the store whether or not the refresh that
      follows succeeds, and the call does not rethrow; a failed refresh keeps
      the old list and reports its own error. */
  lemma DeletedRoomIsGone(s: Slice.State, refresh: Outcome<seq<Slice.Room>>)
    ensures var (t, threw) := DeleteRoom(s, Ok(()), refresh);
      && !threw && t.currentRoom.None? && t.messages == [] && !t.isConnected && !t.isLoading
      && (refresh.Ok? ==> t.activeRooms == refresh.value && t.error == s.error)
      && (refresh.Failure? ==> t.activeRooms == s.activeRooms && t.error == Some(OrElse(refresh.detail, "Failed to fetch rooms")))
  {
  }

  /** A failed delete rethrows and keeps the room, the chat, the list and
      the connection. */
  lemma FailedDeleteKeepsRoom(s: Slice.State, detail: Option<string>, message: Option<string>, refresh: Outcome<seq<Slice.Room>>)
    ensures var (t, threw) := DeleteRoom(s, Failure(detail, message), refresh);
      && threw && t.currentRoom == s.currentRoom && t.messages == s.messages
      && t.activeRooms == s.activeRooms && t.isConnected == s.isConnected
      && t.error == Some(OrElse(detail, "Failed to delete room"))
  {
  }
}

=== FILE: audio_room_card.dfy ===
/** A room in the room list: the "time ago" label, the listener count, the
    live/not-started label and the host name. */
module AudioRoomCard {
  import opened Common
  import Slice = AudioRoomSlice

  const MsPerHour: int := 3600000

  /** What `formatTimeAgo` shows: minutes (possibly negative), hours or days. */
  datatype Ago = MinutesAgo(m: int) | HoursAgo(h: int) | DaysAgo(d: int)

  /** `formatTimeAgo`, as written: whole hours first; under one hour, whole
      minutes; from a day on, whole days floored from the hours. */
  function FormatTimeAgo(elapsedMs: int): Ago {
    var hours := elapsedMs / MsPerHour;
    if hours < 1 then MinutesAgo(elapsedMs / 60000)
    else if hours < 24 then HoursAgo(hours)
    else DaysAgo(hours / 24)
  }

  /** The buckets stated on milliseconds. */
  function ElapsedAgo(elapsedMs: int): Ago {
    if elapsedMs < 3600000 then MinutesAgo(elapsedMs / 60000)
    else if elapsedMs < 86400000 then HoursAgo(elapsedMs / 3600000)
    else DaysAgo(elapsedMs / 86400000)
  }

  /** The label agrees with the direct statement for every elapsed time:
      under an hour it is minutes, under a day hours, and days with no
      upper cutoff. */
  lemma FormatTimeAgoIsElapsedAgo(elapsedMs: int)
    ensures FormatTimeAgo(elapsedMs) == ElapsedAgo(elapsedMs)
  {
    FloorDivBelow(elapsedMs, 3600000, 1);
    FloorDivBelow(elapsedMs, 3600000, 24);
    FloorDivTwice(elapsedMs, 3600000, 24);
  }

  /** A room created in the future shows a negative minute count. */
  lemma FutureShowsNegativeMinutes(elapsedMs: int)
    requires elapsedMs < 0
    ensures FormatTimeAgo(elapsedMs).MinutesAgo? && FormatTimeAgo(elapsedMs).m < 0
  {
    FloorDivBelow(elapsedMs, 3600000, 1);
    FloorDivBelow(elapsedMs, 60000, 0);
  }

  function AgoText(a: Ago): (r: string)
    ensures a.MinutesAgo? ==> r == IntToDecimal(a.m) + "m ago"
    ensures a.HoursAgo? ==> r == IntToDecimal(a.h) + "h ago"
    ensures a.DaysAgo? ==> r == IntToDecimal(a.d) + "d ago"
  {
    match a
    case MinutesAgo(m) => IntToDecimal(m) + "m ago"
    case HoursAgo(h) => IntToDecimal(h) + "h ago"
    case DaysAgo(d) => IntToDecimal(d) + "d ago"
  }

  /** `(active_participants || 0)`: absent or zero shows 0. */
  function ListenerCount(room: Slice.Room): (r: int)
    ensures room.activeParticipants.None? ==> r == 0
    ensures room.activeParticipants.Some? ==> r == room.activeParticipants.value
  {
    if room.activeParticipants.Some? then room.activeParticipants.value else 0
  }

  function StatusLabel(room: Slice.Room): (r: string)
    ensures room.isLive <==> r == "LIVE"
    ensures !room.isLive <==> r == "NOT STARTED"
  {
    if room.isLive then "LIVE" else "NOT STARTED"
  }

  /** `room.host?.fullName || "Unknown"`. */
  function HostName(room: Slice.Room): (r: string)
    ensures room.host.Some? && room.host.value.fullName != "" ==> r == room.host.value.fullName
    ensures room.host.None? || room.host.value.fullName == "" ==> r == "Unknown"
  {
    OrElse(if room.host.Some? then Some(room.host.value.fullName) else None, "Unknown")
  }
}

=== FILE: audio_room_detail.dfy ===
/** The audio-room page: it owns the room-socket hook and the peer mesh,
    wires inbound join/leave/signal messages from the socket into the mesh
    and the mesh's outgoing signals back onto the socket, and adds its own
    chat input, connect-once flag, init effects and button handlers.

    React effects are modelled as guarded operations the environment may
    fire in any order; the guards are the effects' conditions. */
module AudioRoomDetail {
  import opened Common
  import W = WebRtcAudio
  import A = AudioRoom
  import Slice = AudioRoomSlice

  datatype Page = Page(
    room: A.Hook,
    mesh: W.Session,
    chatInput: string,
    connectionAttempted: bool,
    location: Option<string>)

  /** Effects on the outside world: socket frames and closes, and the mesh's
      media and side-channel effects. */
  datatype PageEffect = Socket(socketEffect: A.Effect) | Media(mediaEffect: W.Effect)

  datatype PageStep = PageStep(page: Page, effects: set<PageEffect>)

  const RoomsPath: string := "/audioroom"

  const Initial: Page := Page(A.Initial, W.Initial, "", false, None)

  function SocketEffects(effects: seq<A.Effect>): (r: set<PageEffect>)
    ensures forall e :: e in r <==> e.Socket? && e.socketEffect in effects
  {
    set e | e in effects :: Socket(e)
  }

  /** The mesh's effects as the page performs them: signalling envelopes go
      through `sendWebSocketMessage`, so they are written only while the
      socket is open; everything else is performed as is. */
  function Route(h: A.Hook, effects: set<W.Effect>): (r: set<PageEffect>)
    ensures forall e :: e in r <==>
      || (e.Media? && e.mediaEffect in effects && !e.mediaEffect.SendSignal?)
      || (e.Socket? && A.IsOpen(h) && e.socketEffect.Transmit? && e.socketEffect.frame.SignalFrame?
          && W.SendSignal(e.socketEffect.frame.signalType, e.socketEffect.frame.target) in effects)
  {
    (set e | e in effects && !e.SendSignal? :: Media(e))
    + (set e | e in effects && e.SendSignal? && A.IsOpen(h) :: Socket(A.Transmit(A.SignalFrame(e.signalType, e.target))))
  }

  /** Applies one mesh event and routes its effects. */
  function MeshEvent(p: Page, e: W.Event): (r: PageStep)
    ensures r.page == p.(mesh := W.Apply(p.mesh, e).session)
    ensures r.effects == Route(p.room, W.Apply(p.mesh, e).effects)
  {
    var s := W.Apply(p.mesh, e);
    PageStep(p.(mesh := s.session), Route(p.room, s.effects))
  }

  // -----------------------------------------------------------------------
  // Effects
  // -----------------------------------------------------------------------

  /** The route parameter changed: the connect-once flag is reset. */
  function RoomChanged(p: Page): (r: Page)
    ensures !r.connectionAttempted && r.(connectionAttempted := p.connectionAttempted) == p
  {
    p.(connectionAttempted := false)
  }

  /** The connect effect: with a room id and no attempt yet, mark the attempt
      and connect; a rejected connect is caught and only logged. */
  function ConnectEffect(p: Page, roomId: Option<string>, details: Outcome<Slice.Room>): (r: PageStep)
    ensures roomId.None? || p.connectionAttempted ==> r == PageStep(p, {})
    ensures r.page.(room := p.room, connectionAttempted := p.connectionAttempted) == p
    ensures roomId.Some? ==> r.page.connectionAttempted
    ensures forall e :: e in r.effects ==> e == Socket(A.CloseSocket(None))
    ensures roomId.Some? && !p.connectionAttempted ==>
      && (A.ConnectBlocked(p.room) ==> r.page.room == p.room && r.effects == {})
      && (!A.ConnectBlocked(p.room) && details.Ok? ==>
            && r.page.room.socket == Some(A.Socket(roomId.value, A.SocketConnecting))
            && r.page.room.store.currentRoom == Some(details.value)
            && (r.effects == {} <==> p.room.socket.None?))
      && (!A.ConnectBlocked(p.room) && details.Failure? ==>
            && r.page.room.socket == p.room.socket && r.page.room.connection == A.Error
            && !r.page.room.connecting && r.effects == {})
  {
    if roomId.None? || p.connectionAttempted then PageStep(p, {})
    else
      var c := A.ConnectToRoom(p.room, roomId.value, details).0;
      PageStep(p.(room := c.hook, connectionAttempted := true), SocketEffects(c.effects))
  }

  /** The self-init effect: when connected, with a user and a room, and the
      user not yet listed, the user is listed as creator exactly when they
      host the room. */
  function SelfInitEffect(p: Page, user: Option<User>): (r: Page)
    ensures var st := p.room.store;
      !(st.isConnected && user.Some? && st.currentRoom.Some? && user.value.id !in p.mesh.participants) ==> r == p
    ensures var st := p.room.store;
      st.isConnected && user.Some? && st.currentRoom.Some? && user.value.id !in p.mesh.participants ==>
      && user.value.id in r.mesh.participants
      && W.IsFresh(r.mesh.participants[user.value.id], user.value)
      && (r.mesh.participants[user.value.id].isCreator <==> st.currentRoom.value.hostId == user.value.id)
      && r.mesh.participants.Keys == p.mesh.participants.Keys + {user.value.id}
      && SameOutside(p.mesh.participants, r.mesh.participants, {user.value.id})
    ensures r.(mesh := p.mesh) == p
    ensures r.mesh.(participants := p.mesh.participants) == p.mesh
  {
    var st := p.room.store;
    if st.isConnected && user.Some? && st.currentRoom.Some? && user.value.id !in p.mesh.participants then
      p.(mesh := W.InitializeCurrentUser(p.mesh, user.value, st.currentRoom.value.hostId == user.value.id))
    else p
  }

  /** The roster effect: a room with a non-empty participant list writes the
      list into the directory with the host as creator. */
  function RosterEffect(p: Page): (r: Page)
    ensures r.(mesh := p.mesh) == p
    ensures r.mesh.(participants := p.mesh.participants) == p.mesh
    ensures var room := p.room.store.currentRoom;
      room.Some? && room.value.existingParticipants.Some? && |room.value.existingParticipants.value| > 0 ==>
      var users := room.value.existingParticipants.value;
      && r.mesh.participants.Keys == p.mesh.participants.Keys + W.Ids(users)
      && (forall id :: id in W.Ids(users) ==>
            && W.IsFresh(r.mesh.participants[id], users[W.LastIndexOf(users, id)])
            && (r.mesh.participants[id].isCreator <==> id == room.value.hostId))
      && SameOutside(p.mesh.participants, r.mesh.participants, W.Ids(users))
    ensures var room := p.room.store.currentRoom;
      !(room.Some? && room.value.existingParticipants.Some? && |room.value.existingParticipants.value| > 0) ==> r == p
  {
    var room := p.room.store.currentRoom;
    if room.Some? && room.value.existingParticipants.Some? && |room.value.existingParticipants.value| > 0 then
      p.(mesh := W.InitializeExistingParticipants(p.mesh, room.value.existingParticipants.value, room.value.hostId))
    else p
  }

  /** The auto-start effect: connected, capture off and a user present start
      capture; a failed start is caught and only logged. */
  function AutoStart(p: Page, user: Option<User>, grant: Option<nat>): (r: Page)
    ensures r.(mesh := p.mesh) == p
    ensures !(p.room.store.isConnected && !p.mesh.isAudioEnabled && user.Some?) || grant.None? ==> r == p
    ensures p.room.store.isConnected && !p.mesh.isAudioEnabled && user.Some? && grant.Some? ==>
      && r.mesh.isAudioEnabled && r.mesh.localStream.Some?
      && |r.mesh.localStream.value.tracks| == grant.value
      && r.mesh.participants == p.mesh.participants && r.mesh.isMuted == p.mesh.isMuted
      && r.mesh.peers.Keys == p.mesh.peers.Keys
  {
    if p.room.store.isConnected && !p.mesh.isAudioEnabled && user.Some? then
      p.(mesh := W.StartAudioStream(p.mesh, grant).GetOr(p.mesh))
    else p
  }

  // -----------------------------------------------------------------------
  // Socket traffic
  // -----------------------------------------------------------------------

  /** The mesh event a relayed message becomes; `offerOk` and
      `negotiationOk` are the outcomes of the awaited WebRTC steps. */
  function RelayEvent(relay: A.Relay, offerOk: bool, negotiationOk: bool): Option<W.Event> {
    match relay
    case NoRelay => None
    case RelayJoined(u) => Some(W.Joined(u, offerOk))
    case RelayLeft(u) => Some(W.Left(u))
    case RelaySignal(from, kind) => Some(W.Signal(from, kind, negotiationOk))
  }

  /** An inbound socket message: the hook handles it, and a relayed join,
      leave or signal is applied to the mesh. */
  function Inbound(p: Page, m: A.Inbound, user: Option<User>, offerOk: bool, negotiationOk: bool): (r: PageStep)
    ensures r.page.room == A.HandleMessage(p.room, m, user).0
    ensures RelayEvent(A.HandleMessage(p.room, m, user).1, offerOk, negotiationOk).None? ==>
      r.page.mesh == p.mesh && r.effects == {}
    ensures r.page.chatInput == p.chatInput && r.page.location == p.location
  {
    var (h, relay) := A.HandleMessage(p.room, m, user);
    match RelayEvent(relay, offerOk, negotiationOk)
    case None => PageStep(p.(room := h), {})
    case Some(e) =>
      var s := W.Apply(p.mesh, e);
      PageStep(p.(room := h, mesh := s.session), Route(h, s.effects))
  }

  // -----------------------------------------------------------------------
  // Handlers
  // -----------------------------------------------------------------------

  /** `handleSendMessage`: blank input is ignored; otherwise the trimmed text
      is sent and the input cleared. */
  function SendMessage(p: Page, user: Option<User>, tempId: string, now: string, sendThrows: bool): (r: PageStep)
    ensures AllSpace(p.chatInput) ==> r == PageStep(p, {})
    ensures !AllSpace(p.chatInput) ==>
      var c := A.SendChatMessage(p.room, user, Trim(p.chatInput), tempId, now, sendThrows);
      r == PageStep(p.(room := c.hook, chatInput := ""), SocketEffects(c.effects))
  {
    TrimEmptyIffAllSpace(p.chatInput);
    var text := Trim(p.chatInput);
    if text == "" then PageStep(p, {})
    else
      var c := A.SendChatMessage(p.room, user, text, tempId, now, sendThrows);
      PageStep(p.(room := c.hook, chatInput := ""), SocketEffects(c.effects))
  }

  /** The user's id as `currentUser?.id`. */
  function IdOf(user: Option<User>): Option<UserId> {
    if user.Some? then Some(user.value.id) else None
  }

  /** `handleToggleMute`: start capture first when it is off; if that throws,
      nothing is toggled. */
  function ToggleMute(p: Page, user: Option<User>, grant: Option<nat>): (r: PageStep)
    ensures !p.mesh.isAudioEnabled && grant.None? ==> r == PageStep(p, {})
    ensures p.mesh.isAudioEnabled ==>
      var t := W.ToggleMute(p.mesh, IdOf(user));
      r == PageStep(p.(mesh := t.session), Route(p.room, t.effects))
    ensures !p.mesh.isAudioEnabled && grant.Some? ==>
      var t := W.ToggleMute(W.StartAudioStream(p.mesh, grant).value, IdOf(user));
      r == PageStep(p.(mesh := t.session), Route(p.room, t.effects))
  {
    var started := if p.mesh.isAudioEnabled then Some(p.mesh) else W.StartAudioStream(p.mesh, grant);
    match started
    case None => PageStep(p, {})
    case Some(s) =>
      var t := W.ToggleMute(s, IdOf(user));
      PageStep(p.(mesh := t.session), Route(p.room, t.effects))
  }

  /** The media teardown both leaving and unmounting perform:
      `closeAllPeerConnections()` then `stopAudioStream()`. Every link is
      closed, one playback element per link removed and the microphone
      released when capture was on; nothing is written to the socket. */
  function Teardown(h: A.Hook, s: W.Session): (r: (W.Session, set<PageEffect>))
    ensures r.0.peers == map[] && r.0.participants == map[] && r.0.localStream.None?
    ensures r.0 == W.ReleaseAll(s).session
    ensures forall id :: Media(W.ClosePeer(id)) in r.1 <==> id in s.peers
    ensures forall id :: Media(W.RemovePlayback(id)) in r.1 <==> id in s.peers && id in s.playback
    ensures Media(W.ReleaseMicrophone) in r.1 <==> s.localStream.Some?
    ensures forall e :: e in r.1 ==>
      e.Media? && (e.mediaEffect.ClosePeer? || e.mediaEffect.RemovePlayback? || e.mediaEffect.ReleaseMicrophone?)
  {
    var released := W.ReleaseAll(s);
    TeardownEffects(h, s);
    (released.session, Route(h, released.effects))
  }

  lemma TeardownEffects(h: A.Hook, s: W.Session)
    ensures var m := Route(h, W.ReleaseAll(s).effects);
      && (forall id :: Media(W.ClosePeer(id)) in m <==> id in s.peers)
      && (forall id :: Media(W.RemovePlayback(id)) in m <==> id in s.peers && id in s.playback)
      && (Media(W.ReleaseMicrophone) in m <==> s.localStream.Some?)
      && (forall e :: e in m ==>
            e.Media? && (e.mediaEffect.ClosePeer? || e.mediaEffect.RemovePlayback? || e.mediaEffect.ReleaseMicrophone?))
  {
    RouteWithoutSignals(h, W.ReleaseAll(s).effects);
  }

  /** Without signals, routing performs exactly the given effects. */
  lemma RouteWithoutSignals(h: A.Hook, effects: set<W.Effect>)
    requires forall e :: e in effects ==> !e.SendSignal?
    ensures forall e :: e in Route(h, effects) ==> e.Media? && e.mediaEffect in effects
    ensures forall x :: Media(x) in Route(h, effects) <==> x in effects
  {
  }

  /** `handleLeaveRoom`: close every link, stop capture, leave the room and
      go back to the room list. */
  function Leave(p: Page): (r: PageStep)
    ensures r.page.location == Some(RoomsPath)
    ensures r.page.mesh.peers == map[] && r.page.mesh.participants == map[] && r.page.mesh.localStream.None?
    ensures r.page.room == A.LeaveRoom(p.room).hook
    ensures r.page.chatInput == p.chatInput
    ensures forall id :: Media(W.ClosePeer(id)) in r.effects <==> id in p.mesh.peers
    ensures forall id :: Media(W.RemovePlayback(id)) in r.effects <==> id in p.mesh.peers && id in p.mesh.playback
    ensures Media(W.ReleaseMicrophone) in r.effects <==> p.mesh.localStream.Some?
    ensures Socket(A.CloseSocket(Some(1000))) in r.effects <==> p.room.socket.Some?
    ensures forall e :: e in r.effects ==>
      || (e.Media? && (e.mediaEffect.ClosePeer? || e.mediaEffect.RemovePlayback? || e.mediaEffect.ReleaseMicrophone?))
      || e == Socket(A.CloseSocket(Some(1000)))
  {
    var (mesh, media) := Teardown(p.room, p.mesh);
    var left := A.LeaveRoom(p.room);
    PageStep(p.(mesh := mesh, room := left.hook, location := Some(RoomsPath)), media + SocketEffects(left.effects))
  }

  /** `handleDeleteRoom`: only a host with a room may delete, and only after
      confirming; a successful delete goes back to the room list, a failed
      one stays (the error is caught). */
  function Delete(p: Page, user: Option<User>, confirmed: bool, deleted: Outcome<()>, refresh: Outcome<seq<Slice.Room>>): (r: Page)
    ensures p.room.store.currentRoom.None? || !A.IsHost(p.room.store.currentRoom, user) || !confirmed ==> r == p
    ensures p.room.store.currentRoom.Some? && A.IsHost(p.room.store.currentRoom, user) && confirmed ==>
      && r.room.store == A.DeleteRoom(p.room.store, deleted, refresh).0
      && (r.location == if deleted.Ok? then Some(RoomsPath) else p.location)
      && r.mesh == p.mesh
  {
    if p.room.store.currentRoom.None? || !A.IsHost(p.room.store.currentRoom, user) || !confirmed then p
    else
      var (st, threw) := A.DeleteRoom(p.room.store, deleted, refresh);
      p.(room := p.room.(store := st), location := if threw then p.location else Some(RoomsPath))
  }

  /** Unmounting: the page closes links and stops capture, the mesh hook
      does the same in its own cleanup, and the room hook closes its socket
      with code 1000 and clears the in-progress flag. */
  function Unmount(p: Page): (r: PageStep)
    ensures r.page.mesh.peers == map[] && r.page.mesh.localStream.None?
    ensures r.page.room.socket.None? && !r.page.room.connecting
    ensures forall id :: Media(W.ClosePeer(id)) in r.effects <==> id in p.mesh.peers
    ensures forall id :: Media(W.RemovePlayback(id)) in r.effects <==> id in p.mesh.peers && id in p.mesh.playback
    ensures Media(W.ReleaseMicrophone) in r.effects <==> p.mesh.localStream.Some?
    ensures Socket(A.CloseSocket(Some(1000))) in r.effects <==> p.room.socket.Some?
    ensures forall e :: e in r.effects ==>
      || (e.Media? && (e.mediaEffect.ClosePeer? || e.mediaEffect.RemovePlayback? || e.mediaEffect.ReleaseMicrophone?))
      || e == Socket(A.CloseSocket(Some(1000)))
  {
    var (mesh, media) := Teardown(p.room, p.mesh);
    var closes := if p.room.socket.Some? then [A.CloseSocket(Some(1000))] else [];
    var sock := SocketEffects(closes);
    assert forall e :: e in sock ==> e == Socket(A.CloseSocket(Some(1000)));
    assert Socket(A.CloseSocket(Some(1000))) in sock <==> p.room.socket.Some?;
    PageStep(p.(mesh := mesh, room := p.room.(socket := None, connecting := false)), media + sock)
  }

  // -----------------------------------------------------------------------
  // What is shown
  // -----------------------------------------------------------------------

  /** The delivery mark next to a chat message. */
  datatype Mark = Spinner | Check | Cross

  function Indicator(m: Slice.ChatMessage): (r: Option<Mark>)
    ensures r.Some? <==> m.isOwn
    ensures r == Some(Spinner) <==> m.isOwn && m.status == Slice.Sending
    ensures r == Some(Check) <==> m.isOwn && m.status == Slice.Sent
    ensures r == Some(Cross) <==> m.isOwn && m.status == Slice.Failed
  {
    if !m.isOwn then None
    else match m.status
      case Sending => Some(Spinner)
      case Sent => Some(Check)
      case Failed => Some(Cross)
  }

  /** Which screen renders: the spinner while loading, the error screen when
      there is an error or no room, the room otherwise. */
  datatype Screen = Loading | ErrorScreen(text: string) | RoomScreen

  function ScreenOf(st: Slice.State): (r: Screen)
    ensures st.isLoading ==> r == Loading
    ensures !st.isLoading && (Truthy(st.error) || st.currentRoom.None?) ==> r == ErrorScreen(OrElse(st.error, "Room not found"))
    ensures r == RoomScreen <==> !st.isLoading && !Truthy(st.error) && st.currentRoom.Some?
  {
    if st.isLoading then Loading
    else if Truthy(st.error) || st.currentRoom.None? then ErrorScreen(OrElse(st.error, "Room not found"))
    else RoomScreen
  }

  function ConnectionLabel(c: A.ConnectionState): (r: string)
    ensures r == "Connected" <==> c.Connected?
    ensures r == "Connecting..." <==> c.Connecting?
    ensures r == "Connection failed" <==> c.Error?
    ensures r == "Disconnected" <==> c.Disconnected?
  {
    match c
    case Connected => "Connected"
    case Connecting => "Connecting..."
    case Error => "Connection failed"
    case Disconnected => "Disconnected"
  }

  /** The send button is enabled only for non-blank input while connected. */
  function SendEnabled(p: Page): (r: bool)
    ensures r <==> !AllSpace(p.chatInput) && p.room.store.isConnected
  {
    TrimEmptyIffAllSpace(p.chatInput);
    Trim(p.chatInput) != "" && p.room.store.isConnected
  }

  // -----------------------------------------------------------------------
  // Properties
  // -----------------------------------------------------------------------

  /** The connect effect fires at most once per room id. */
  lemma ConnectOnce(p: Page, roomId: string, d1: Outcome<Slice.Room>, d2: Outcome<Slice.Room>)
    ensures var q := ConnectEffect(p, Some(roomId), d1).page;
      q.connectionAttempted && ConnectEffect(q, Some(roomId), d2) == PageStep(q, {})
  {
  }

  /** Self-init lists the user once: firing it again changes nothing. */
  lemma SelfInitIdempotent(p: Page, user: Option<User>)
    ensures SelfInitEffect(SelfInitEffect(p, user), user) == SelfInitEffect(p, user)
  {
  }

  /** The roster effect lists every roster member fresh and muted, with the
      host flagged as creator and nobody else, and keeps other entries. */
  lemma RosterMarksHost(p: Page)
    requires var room := p.room.store.currentRoom;
      room.Some? && room.value.existingParticipants.Some? && |room.value.existingParticipants.value| > 0
    ensures var room := p.room.store.currentRoom.value;
      var m := RosterEffect(p).mesh.participants;
      && (forall k :: 0 <= k < |room.existingParticipants.value| ==>
            var id := room.existingParticipants.value[k].id;
            id in m && m[id].isMuted && (m[id].isCreator <==> id == room.hostId))
      && (forall id :: id in p.mesh.participants && id !in W.Ids(room.existingParticipants.value) ==>
            id in m && m[id] == p.mesh.participants[id])
  {
    var room := p.room.store.currentRoom.value;
    var users := room.existingParticipants.value;
    forall k | 0 <= k < |users| ensures users[k].id in W.Ids(users) {
      assert users[k] in users;
    }
  }

  /** Auto-start fires once: after a granted start, the effect's condition
      no longer holds. */
  lemma AutoStartOnce(p: Page, user: Option<User>, n: nat, again: Option<nat>)
    ensures var q := AutoStart(p, user, Some(n));
      AutoStart(q, user, again) == q
  {
  }

  /** Sending non-blank input appends exactly one own message, carrying the
      trimmed text, and empties the input. */
  lemma SendAppendsTrimmed(p: Page, user: User, tempId: string, now: string)
    requires !AllSpace(p.chatInput)
    ensures var r := SendMessage(p, Some(user), tempId, now, false).page;
      && r.chatInput == ""
      && |r.room.store.messages| == |p.room.store.messages| + 1
      && r.room.store.messages[|p.room.store.messages|].text == Trim(p.chatInput)
      && r.room.store.messages[|p.room.store.messages|].isOwn
  {
  }

  /** Pressing the mute button with capture off and a microphone granted
      starts capture and toggles once: the flag flips and the tracks follow. */
  lemma ToggleFromIdle(p: Page, user: Option<User>, n: nat)
    requires !p.mesh.isAudioEnabled
    ensures var m := ToggleMute(p, user, Some(n)).page.mesh;
      && m.isAudioEnabled && m.isMuted == !p.mesh.isMuted && W.TracksFollowMute(m)
  {
    var started := W.StartAudioStream(p.mesh, Some(n)).value;
    W.ToggleAlignsTracks(started, IdOf(user));
  }

  /** Signals leave through the socket only while it is open: an inbound
      message on a socket that is not open transmits nothing. */
  lemma NoSignalsWhileClosed(p: Page, m: A.Inbound, user: Option<User>, offerOk: bool, negotiationOk: bool)
    requires !A.IsOpen(A.HandleMessage(p.room, m, user).0)
    ensures forall e :: e in Inbound(p, m, user, offerOk, negotiationOk).effects ==> e.Media?
  {
  }

  /** An offer from an unknown peer, on an open socket, is answered with
      exactly one signalling frame addressed to the sender. */
  lemma OfferIsAnswered(p: Page, from: UserId, user: Option<User>)
    requires A.IsOpen(p.room) && from !in p.mesh.peers
    ensures Inbound(p, A.WebRtcSignalMsg(from, Offer), user, true, true).effects
         == {Socket(A.Transmit(A.SignalFrame(Answer, from)))}
  {
    var e := Inbound(p, A.WebRtcSignalMsg(from, Offer), user, true, true).effects;
    assert W.Apply(p.mesh, W.Signal(from, Offer, true)).effects == {W.SendSignal(Answer, from)};
    assert Socket(A.Transmit(A.SignalFrame(Answer, from))) in e;
  }

  /** When the host deletes the room, the page clears the room but, as
      written, keeps every peer link open and capture running. */
  lemma RoomDeletedKeepsMesh(p: Page, user: Option<User>, offerOk: bool, negotiationOk: bool)
    ensures var r := Inbound(p, A.RoomDeletedMsg, user, offerOk, negotiationOk).page;
      && r.room.store.currentRoom.None?
      && r.mesh == p.mesh
  {
  }

  /** Leaving from a scoped mesh ends on the room list with no links and
      capture off: every link is closed, the microphone is released exactly
      when capture was on, the socket is closed when one was held, and no
      frame is written. Each link takes one playback element with it, so the
      page is left silent exactly when every element belonged to a link and
      no link had two; in particular it is silent when the mesh was tidy. */
  lemma LeaveReleasesEverything(p: Page)
    requires W.Scoped(p.mesh)
    ensures var r := Leave(p); var m := r.page.mesh;
      && W.Scoped(m) && !m.isAudioEnabled
      && (forall id :: id in p.mesh.peers ==> Media(W.ClosePeer(id)) in r.effects)
      && (Media(W.ReleaseMicrophone) in r.effects <==> p.mesh.isAudioEnabled)
      && (Socket(A.CloseSocket(Some(1000))) in r.effects <==> p.room.socket.Some?)
      && (forall e :: e in r.effects ==> !(e.Socket? && e.socketEffect.Transmit?))
      && (m.playback == multiset{} <==> forall x :: x in p.mesh.playback ==> x in p.mesh.peers && p.mesh.playback[x] == 1)
      && (W.PlaybackTidy(p.mesh) ==> m.playback == multiset{})
  {
    ReleaseFromScoped(p.mesh);
  }

  /** Unmounting from a scoped mesh closes every link, releases the
      microphone exactly when capture was on, closes a held socket, writes no
      frame, releases playback elements as leaving does, and leaves the room
      hook without a socket, so a later mount can connect again. */
  lemma UnmountReleasesEverything(p: Page)
    requires W.Scoped(p.mesh)
    ensures var r := Unmount(p); var q := r.page;
      && W.Scoped(q.mesh) && !q.mesh.isAudioEnabled
      && (forall id :: id in p.mesh.peers ==> Media(W.ClosePeer(id)) in r.effects)
      && (Media(W.ReleaseMicrophone) in r.effects <==> p.mesh.isAudioEnabled)
      && (Socket(A.CloseSocket(Some(1000))) in r.effects <==> p.room.socket.Some?)
      && (forall e :: e in r.effects ==> !(e.Socket? && e.socketEffect.Transmit?))
      && (q.mesh.playback == multiset{} <==> forall x :: x in p.mesh.playback ==> x in p.mesh.peers && p.mesh.playback[x] == 1)
      && (W.PlaybackTidy(p.mesh) ==> q.mesh.playback == multiset{})
      && !A.ConnectBlocked(q.room)
  {
    ReleaseFromScoped(p.mesh);
  }

  /** What releasing everything leaves of a scoped mesh. */
  lemma ReleaseFromScoped(s: W.Session)
    requires W.Scoped(s)
    ensures var m := W.ReleaseAll(s).session;
      && W.Scoped(m) && !m.isAudioEnabled
      && (W.ReleaseMicrophone in W.ReleaseAll(s).effects <==> s.isAudioEnabled)
      && (m.playback == multiset{} <==> forall x :: x in s.playback ==> x in s.peers && s.playback[x] == 1)
      && (W.PlaybackTidy(s) ==> m.playback == multiset{})
  {
    var c := W.CloseAllPeerConnections(s).session;
    var m := W.ReleaseAll(s).session;
    assert m == W.StopAudioStream(c).session;
    assert m.playback == c.playback;
    if W.PlaybackTidy(s) {
      assert forall x :: x in s.playback ==> x in s.peers && s.playback[x] == 1;
    }
  }

  /** A second unmount has no socket left to close. */
  lemma UnmountClosesSocketOnce(p: Page)
    ensures Socket(A.CloseSocket(Some(1000))) !in Unmount(Unmount(p).page).effects
  {
  }

  /** Whatever the server would answer, a delete by someone who is not the
      host, or one the user did not confirm, changes nothing. */
  lemma OnlyConfirmedHostDeletes(p: Page, user: Option<User>, confirmed: bool, deleted: Outcome<()>, refresh: Outcome<seq<Slice.Room>>)
    requires !A.IsHost(p.room.store.currentRoom, user) || !confirmed
    ensures Delete(p, user, confirmed, deleted, refresh) == p
  {
  }

  /** A confirmed delete that the server accepts returns to the room list
      with no room and no chat; the links stay up until the page unmounts. A
      refused one stays on the page with the room kept and the error set. */
  lemma DeleteOutcomes(p: Page, user: Option<User>, deleted: Outcome<()>, refresh: Outcome<seq<Slice.Room>>)
    requires p.room.store.currentRoom.Some? && A.IsHost(p.room.store.currentRoom, user)
    ensures var q := Delete(p, user, true, deleted, refresh);
      && q.mesh == p.mesh
      && (deleted.Ok? ==>
            q.location == Some(RoomsPath) && q.room.store.currentRoom.None? && q.room.store.messages == [])
      && (deleted.Failure? ==>
            && q.location == p.location && q.room.store.currentRoom == p.room.store.currentRoom
            && q.room.store.error == Some(OrElse(deleted.detail, "Failed to delete room")))
  {
  }
}

=== FILE: audioroom_slice.dfy ===
/** The audio-room store slice: the current room, the list of active rooms,
    the connection flag, the loading flag, the chat log and the last error.
    Each reducer is a pure function from the old state to the new one. */
module AudioRoomSlice {
  import opened Common

  /** Delivery status of a chat message. */
  datatype Status = Sending | Sent | Failed

  /** A chat log entry. `tempId` is set only on messages this client sent
      optimistically; `timestamp` is the ISO text the server or client gave. */
  datatype ChatMessage = ChatMessage(
    roomId: string,
    userId: UserId,
    username: string,
    text: string,
    timestamp: string,
    isOwn: bool,
    status: Status,
    tempId: Option<string>)

  /** A room as the server describes it. `createdAt` is the creation instant
      in milliseconds since the epoch. */
  datatype Room = Room(
    id: string,
    title: string,
    isLive: bool,
    hostId: UserId,
    createdAt: int,
    host: Option<User>,
    activeParticipants: Option<int>,
    existingParticipants: Option<seq<User>>)

  datatype State = State(
    currentRoom: Option<Room>,
    activeRooms: seq<Room>,
    isConnected: bool,
    isLoading: bool,
    messages: seq<ChatMessage>,
    error: Option<string>)

  /** No room, no rooms listed, disconnected, not loading, no chat, no error. */
  const Initial: State := State(None, [], false, false, [], None)

  /** `setActiveRooms`: replace the list; loading is over. */
  function SetActiveRooms(s: State, rooms: seq<Room>): (r: State)
    ensures r.activeRooms == rooms && !r.isLoading
    ensures r.currentRoom == s.currentRoom && r.isConnected == s.isConnected
    ensures r.messages == s.messages && r.error == s.error
  {
    s.(activeRooms := rooms, isLoading := false)
  }

  /** `setCurrentRoom`: a null room also disconnects and empties the chat;
      a room leaves the connection flag and the chat as they are. */
  function SetCurrentRoom(s: State, room: Option<Room>): (r: State)
    ensures r.currentRoom == room
    ensures room.None? ==> !r.isConnected && r.messages == []
    ensures room.Some? ==> r.isConnected == s.isConnected && r.messages == s.messages
    ensures r.activeRooms == s.activeRooms && r.isLoading == s.isLoading && r.error == s.error
  {
    if room.None? then s.(currentRoom := None, isConnected := false, messages := [])
    else s.(currentRoom := room)
  }

  function SetConnectionStatus(s: State, connected: bool): (r: State)
    ensures r.isConnected == connected
    ensures r.(isConnected := s.isConnected) == s
  {
    s.(isConnected := connected)
  }

  /** `addMessage`: append at the end; earlier messages stay as they are. */
  function AddMessage(s: State, m: ChatMessage): (r: State)
    ensures |r.messages| == |s.messages| + 1
    ensures r.messages[..|s.messages|] == s.messages && r.messages[|s.messages|] == m
    ensures r.(messages := s.messages) == s
  {
    s.(messages := s.messages + [m])
  }

  /** `findIndex(msg => msg.tempId === tempId)`: the first position whose
      message carries this temporary id, if any. Messages without a
      temporary id never match. */
  function FindTempId(ms: seq<ChatMessage>, tempId: string): (r: Option<nat>)
    ensures r.Some? ==> r.value < |ms| && ms[r.value].tempId == Some(tempId)
    ensures r.Some? ==> forall k :: 0 <= k < r.value ==> ms[k].tempId != Some(tempId)
    ensures r.None? ==> forall k :: 0 <= k < |ms| ==> ms[k].tempId != Some(tempId)
    decreases |ms|
  {
    if ms == [] then None
    else if ms[0].tempId == Some(tempId) then Some(0)
    else
      match FindTempId(ms[1..], tempId)
      case None => None
      case Some(i) => Some(i + 1)
  }

  /** The updated form of one message: new status, and the server's
      timestamp when one is given (a non-empty string). */
  function Restamp(m: ChatMessage, status: Status, serverTimestamp: Option<string>): (r: ChatMessage)
    ensures r.status == status
    ensures r.timestamp == OrElse(serverTimestamp, m.timestamp)
    ensures r.(status := m.status, timestamp := m.timestamp) == m
  {
    m.(status := status, timestamp := if Truthy(serverTimestamp) then serverTimestamp.value else m.timestamp)
  }

  /** `updateMessageStatus`: only the first message with this temporary id
      changes, in its status and (when given) its timestamp; with no such
      message the state is unchanged. */
  function UpdateMessageStatus(s: State, tempId: string, status: Status, serverTimestamp: Option<string>): (r: State)
    ensures |r.messages| == |s.messages|
    ensures FindTempId(s.messages, tempId).None? ==> r == s
    ensures FindTempId(s.messages, tempId).Some? ==>
      var i := FindTempId(s.messages, tempId).value;
      && r.messages[i] == Restamp(s.messages[i], status, serverTimestamp)
      && (forall k :: 0 <= k < |s.messages| && k != i ==> r.messages[k] == s.messages[k])
    ensures forall k :: 0 <= k < |s.messages| ==> r.messages[k].tempId == s.messages[k].tempId
    ensures r.(messages := s.messages) == s
  {
    match FindTempId(s.messages, tempId)
    case None => s
    case Some(i) => s.(messages := s.messages[i := Restamp(s.messages[i], status, serverTimestamp)])
  }

  function SetLoading(s: State, loading: bool): (r: State)
    ensures r.isLoading == loading
    ensures r.(isLoading := s.isLoading) == s
  {
    s.(isLoading := loading)
  }

  function SetError(s: State, error: Option<string>): (r: State)
    ensures r.error == error
    ensures r.(error := s.error) == s
  {
    s.(error := error)
  }

  /** `leaveRoom`: no room, disconnected, empty chat; the room list, the
      loading flag and the error are kept. */
  function LeaveRoom(s: State): (r: State)
    ensures r.currentRoom.None? && !r.isConnected && r.messages == []
    ensures r.activeRooms == s.activeRooms && r.isLoading == s.isLoading && r.error == s.error
  {
    s.(currentRoom := None, isConnected := false, messages := [])
  }

  function ClearMessages(s: State): (r: State)
    ensures r.messages == []
    ensures r.(messages := s.messages) == s
  {
    s.(messages := [])
  }

  // -----------------------------------------------------------------------
  // Properties
  // -----------------------------------------------------------------------

  /** Leaving is the same as setting a null room. */
  lemma LeaveIsClearingRoom(s: State)
    ensures LeaveRoom(s) == SetCurrentRoom(s, None)
  {
  }

  lemma LeaveIdempotent(s: State)
    ensures LeaveRoom(LeaveRoom(s)) == LeaveRoom(s)
  {
  }

  /** No message carries this temporary id. */
  predicate TempIdFresh(ms: seq<ChatMessage>, tempId: string) {
    forall k :: 0 <= k < |ms| ==> ms[k].tempId != Some(tempId)
  }

  /** Reconciliation: appending a message under a fresh temporary id and
      then confirming that id changes exactly the appended message. */
  lemma AddThenConfirm(s: State, m: ChatMessage, tempId: string, status: Status, serverTimestamp: Option<string>)
    requires m.tempId == Some(tempId) && TempIdFresh(s.messages, tempId)
    ensures UpdateMessageStatus(AddMessage(s, m), tempId, status, serverTimestamp)
         == AddMessage(s, Restamp(m, status, serverTimestamp))
  {
    var a := AddMessage(s, m);
    assert FindTempId(a.messages, tempId) == Some(|s.messages|);
  }

  /** Confirming the same id twice is confirming once. */
  lemma UpdateIdempotent(s: State, tempId: string, status: Status, serverTimestamp: Option<string>)
    ensures var t := UpdateMessageStatus(s, tempId, status, serverTimestamp);
      UpdateMessageStatus(t, tempId, status, serverTimestamp) == t
  {
    var t := UpdateMessageStatus(s, tempId, status, serverTimestamp);
    match FindTempId(s.messages, tempId)
    case None =>
    case Some(i) =>
      FirstMatchStable(s.messages, t.messages, tempId, i);
  }

  /** Two logs with the same temporary ids at every position have the same
      first match. */
  lemma {:induction false} FirstMatchStable(a: seq<ChatMessage>, b: seq<ChatMessage>, tempId: string, i: nat)
    requires |a| == |b|
    requires forall k :: 0 <= k < |a| ==> a[k].tempId == b[k].tempId
    requires FindTempId(a, tempId) == Some(i)
    ensures FindTempId(b, tempId) == Some(i)
    decreases |a|
  {
    if a[0].tempId != Some(tempId) {
      FirstMatchStable(a[1..], b[1..], tempId, i - 1);
    }
  }
}

=== FILE: auth_slice.dfy ===
/** The authentication store slice, its four request lifecycles, and the
    route guard that reads it. */
module AuthSlice {
  import opened Common

  datatype State = State(user: Option<User>, isLoading: bool, error: Option<string>)

  /** No user yet, loading (the profile is fetched on first render), no error. */
  const Initial: State := State(None, true, None)

  datatype Thunk = FetchProfile | Login | Register | Logout

  /** The payload a failed request rejects with: the server's detail, else a
      fixed text per request. */
  function RejectionPayload(t: Thunk, detail: Option<string>): (r: string)
    ensures Truthy(detail) ==> r == detail.value
    ensures !Truthy(detail) && t == FetchProfile ==> r == "Failed to fetch profile"
    ensures !Truthy(detail) && t == Login ==> r == "Login failed"
    ensures !Truthy(detail) && t == Register ==> r == "Registration failed"
    ensures !Truthy(detail) && t == Logout ==> r == "Logout failed"
    ensures r != ""
  {
    OrElse(detail, match t
      case FetchProfile => "Failed to fetch profile"
      case Login => "Login failed"
      case Register => "Registration failed"
      case Logout => "Logout failed")
  }

  datatype Action =
    | ClearError
    | ClearAuth
    | Pending(thunk: Thunk)
    | Fulfilled(thunk: Thunk, payload: Option<User>)
    | Rejected(thunk: Thunk, detail: Option<string>)

  /** The reducer, stated field by field. Logout has no pending or rejected
      case. A rejected profile fetch sets no error. */
  function Reduce(s: State, a: Action): (r: State)
    // the user changes only when a request delivers one or the session ends
    ensures r.user != s.user ==> a == ClearAuth || a.Fulfilled?
    ensures a.Fulfilled? && a.thunk != Logout ==> r.user == a.payload
    ensures a == ClearAuth || (a.Fulfilled? && a.thunk == Logout) ==> r.user.None?
    // loading is raised only by a request starting, and lowered by every outcome
    ensures r.isLoading ==> s.isLoading || (a.Pending? && a.thunk != Logout)
    ensures a.Pending? && a.thunk != Logout ==> r.isLoading
    ensures a.Fulfilled? || a == ClearAuth || (a.Rejected? && a.thunk != Logout) ==> !r.isLoading
    // an error appears only when a login or registration is refused
    ensures r.error.Some? && r.error != s.error ==> a.Rejected? && (a.thunk == Login || a.thunk == Register)
    ensures a.Rejected? && (a.thunk == Login || a.thunk == Register) ==> r.error == Some(RejectionPayload(a.thunk, a.detail))
    ensures a == ClearError || a == ClearAuth || (a.Pending? && a.thunk != Logout) || (a.Fulfilled? && a.thunk == Logout) ==> r.error.None?
    ensures (a.Fulfilled? && a.thunk != Logout) || (a.Rejected? && a.thunk == FetchProfile) ==> r.error == s.error
    ensures a == ClearError ==> r.user == s.user && r.isLoading == s.isLoading
    ensures (a.Pending? || a.Rejected?) && a.thunk == Logout ==> r == s
  {
    match a
    case ClearError => s.(error := None)
    case ClearAuth => State(None, false, None)
    case Pending(t) => if t == Logout then s else s.(isLoading := true, error := None)
    case Fulfilled(t, u) => if t == Logout then State(None, false, None) else s.(isLoading := false, user := u)
    case Rejected(t, d) =>
      match t
      case FetchProfile => s.(isLoading := false)
      case Logout => s
      case _ => s.(isLoading := false, error := Some(RejectionPayload(t, d)))
  }

  /** Logging out and clearing the session reach the same state. */
  lemma LogoutIsClearAuth(s: State, payload: Option<User>)
    ensures Reduce(s, Fulfilled(Logout, payload)) == Reduce(s, ClearAuth)
  {
  }

  // -----------------------------------------------------------------------
  // Route guard
  // -----------------------------------------------------------------------

  datatype View = Spinner | Redirect(path: string) | Children

  /** The guard: a spinner while loading, whatever the user; a redirect to
      the login page without a user; the protected page otherwise. */
  function Guard(s: State): (r: View)
    ensures s.isLoading ==> r == Spinner
    ensures !s.isLoading && s.user.None? ==> r == Redirect("/login")
    ensures r == Children <==> !s.isLoading && s.user.Some?
  {
    if s.isLoading then Spinner
    else if s.user.None? then Redirect("/login")
    else Children
  }

  /** The guard's effect asks for the profile whenever there is no user. */
  function ShouldFetchProfile(s: State): (r: bool)
    ensures r <==> s.user.None?
  {
    s.user.None?
  }

  /** Opening the app: the first render shows the spinner and fetches the
      profile; a profile arriving shows the page, a failed fetch redirects. */
  lemma GuardLifecycle(u: User, detail: Option<string>)
    ensures Guard(Initial) == Spinner && ShouldFetchProfile(Initial)
    ensures var p := Reduce(Initial, Pending(FetchProfile));
      && Guard(p) == Spinner
      && Guard(Reduce(p, Fulfilled(FetchProfile, Some(u)))) == Children
      && Guard(Reduce(p, Rejected(FetchProfile, detail))) == Redirect("/login")
      && Reduce(p, Rejected(FetchProfile, detail)).error.None?
  {
  }

  /** A failed login keeps whoever was signed in and reports the reason. */
  lemma FailedLoginKeepsUser(s: State, detail: Option<string>)
    ensures Reduce(Reduce(s, Pending(Login)), Rejected(Login, detail)).user == s.user
    ensures Reduce(Reduce(s, Pending(Login)), Rejected(Login, detail)).error.Some?
    ensures !Reduce(Reduce(s, Pending(Login)), Rejected(Login, detail)).isLoading
  {
  }
}

=== FILE: auth_validation.dfy ===
/** The login and registration schemas as string predicates. String lengths
    count characters. The e-mail check is an input (`emailOk`). */
module AuthValidation {
  import opened Common

  /** `loginSchema`: identifier of at least 3 characters, non-empty password. */
  predicate LoginValid(identifier: string, password: string) {
    |identifier| >= 3 && |password| >= 1
  }

  /** The checks `loginSchema` reports, in field order. */
  datatype LoginIssue = IdentifierTooShort | PasswordMissing

  function LoginMessage(issue: LoginIssue): string {
    match issue
    case IdentifierTooShort => "A valid email or username is required"
    case PasswordMissing => "Password is required"
  }

  /** The failing login checks; the form is submitted exactly when there
      are none. */
  function LoginIssues(identifier: string, password: string): (r: seq<LoginIssue>)
    ensures r == [] <==> LoginValid(identifier, password)
    ensures IdentifierTooShort in r <==> |identifier| < 3
    ensures PasswordMissing in r <==> password == []
  {
    (if |identifier| < 3 then [IdentifierTooShort] else [])
    + (if |password| < 1 then [PasswordMissing] else [])
  }

  predicate IsUpper(c: char) { 'A' <= c <= 'Z' }
  predicate IsLower(c: char) { 'a' <= c <= 'z' }
  predicate IsAsciiDigit(c: char) { '0' <= c <= '9' }
  predicate IsAlnum(c: char) { IsUpper(c) || IsLower(c) || IsAsciiDigit(c) }

  /** A character of the class `[a-zA-Z0-9_]`. */
  predicate IsWordChar(c: char) { IsAlnum(c) || c == '_' }

  /** `fullName`: at least 2 characters, checked before trimming; the value
      passed on is trimmed. None when the check fails. */
  function FullName(raw: string): (r: Option<string>)
    ensures r.Some? <==> |raw| >= 2
    ensures r.Some? ==> r.value == Trim(raw)
  {
    if |raw| >= 2 then Some(Trim(raw)) else None
  }

  /** `username`: at least 3 characters, all of them from `[a-zA-Z0-9_]`. */
  predicate UsernameValid(u: string) {
    |u| >= 3 && forall k :: 0 <= k < |u| ==> IsWordChar(u[k])
  }

  predicate HasUpper(p: string) { exists k :: 0 <= k < |p| && IsUpper(p[k]) }
  predicate HasDigit(p: string) { exists k :: 0 <= k < |p| && IsAsciiDigit(p[k]) }
  predicate HasSpecial(p: string) { exists k :: 0 <= k < |p| && !IsAlnum(p[k]) }

  /** The password rules, in the order they report. */
  datatype PasswordRule = TooShort | NoUppercase | NoNumber | NoSpecial

  function RuleMessage(rule: PasswordRule): string {
    match rule
    case TooShort => "Password must be at least 8 characters"
    case NoUppercase => "Password must contain at least one uppercase letter"
    case NoNumber => "Password must contain at least one number"
    case NoSpecial => "Password must contain at least one special character"
  }

  /** The rules a password breaks, in declared order (every rule is checked,
      so several can be reported). */
  function PasswordIssues(p: string): (r: seq<PasswordRule>)
    ensures TooShort in r <==> |p| < 8
    ensures NoUppercase in r <==> !HasUpper(p)
    ensures NoNumber in r <==> !HasDigit(p)
    ensures NoSpecial in r <==> !HasSpecial(p)
  {
    (if |p| < 8 then [TooShort] else [])
    + (if HasUpper(p) then [] else [NoUppercase])
    + (if HasDigit(p) then [] else [NoNumber])
    + (if HasSpecial(p) then [] else [NoSpecial])
  }

  predicate PasswordValid(p: string) {
    |p| >= 8 && HasUpper(p) && HasDigit(p) && HasSpecial(p)
  }

  /** A password is accepted exactly when it breaks no rule. */
  lemma PasswordValidIffNoIssues(p: string)
    ensures PasswordValid(p) <==> PasswordIssues(p) == []
  {
    if !PasswordValid(p) {
      assert PasswordIssues(p) != [] by {
        if |p| < 8 { assert TooShort in PasswordIssues(p); }
        else if !HasUpper(p) { assert NoUppercase in PasswordIssues(p); }
        else if !HasDigit(p) { assert NoNumber in PasswordIssues(p); }
        else { assert NoSpecial in PasswordIssues(p); }
      }
    }
  }

  /** `registerSchema`: every field passes. `emailOk` is the e-mail check's
      verdict. */
  predicate RegisterValid(fullName: string, emailOk: bool, username: string, password: string) {
    FullName(fullName).Some? && emailOk && UsernameValid(username) && PasswordValid(password)
  }

  /** The checks `registerSchema` reports. The username's length and
      character-class checks are both made, and an empty name also fails
      the class check (its pattern needs one character). */
  datatype RegisterIssue =
    | FullNameTooShort
    | EmailInvalid
    | UsernameTooShort
    | UsernameBadChars
    | Password(rule: PasswordRule)

  function RegisterMessage(issue: RegisterIssue): string {
    match issue
    case FullNameTooShort => "Full name must be at least 2 characters"
    case EmailInvalid => "Invalid email address"
    case UsernameTooShort => "Username must be at least 3 characters"
    case UsernameBadChars => "Username can only contain letters, numbers, and underscores"
    case Password(rule) => RuleMessage(rule)
  }

  function UsernameIssues(u: string): (r: seq<RegisterIssue>)
    ensures r == [] <==> UsernameValid(u)
    ensures UsernameTooShort in r <==> |u| < 3
    ensures forall x :: x in r ==> x.UsernameTooShort? || x.UsernameBadChars?
  {
    (if |u| < 3 then [UsernameTooShort] else [])
    + (if |u| > 0 && forall k :: 0 <= k < |u| ==> IsWordChar(u[k]) then [] else [UsernameBadChars])
  }

  function PasswordRuleIssues(rules: seq<PasswordRule>): (r: seq<RegisterIssue>)
    ensures |r| == |rules|
    ensures forall k :: 0 <= k < |rules| ==> r[k] == Password(rules[k])
  {
    if rules == [] then [] else [Password(rules[0])] + PasswordRuleIssues(rules[1..])
  }

  /** Every failing registration check, field by field. */
  function RegisterIssues(fullName: string, emailOk: bool, username: string, password: string): seq<RegisterIssue> {
    (if |fullName| < 2 then [FullNameTooShort] else [])
    + (if emailOk then [] else [EmailInvalid])
    + UsernameIssues(username)
    + PasswordRuleIssues(PasswordIssues(password))
  }

  /** The password's issues appear as exactly the rules it breaks. */
  lemma PasswordRuleIssuesExact(rules: seq<PasswordRule>)
    ensures forall rule :: Password(rule) in PasswordRuleIssues(rules) <==> rule in rules
  {
    var pw := PasswordRuleIssues(rules);
    forall rule
      ensures Password(rule) in pw <==> rule in rules
    {
      if rule in rules {
        var k :| 0 <= k < |rules| && rules[k] == rule;
        assert pw[k] == Password(rule);
      }
    }
  }

  /** The registration form is submitted exactly when no check fails, and
      each field's check is reported exactly when that field breaks it. */
  lemma RegisterIssuesExact(fullName: string, emailOk: bool, username: string, password: string)
    ensures var r := RegisterIssues(fullName, emailOk, username, password);
      && (r == [] <==> RegisterValid(fullName, emailOk, username, password))
      && (FullNameTooShort in r <==> |fullName| < 2)
      && (EmailInvalid in r <==> !emailOk)
      && (UsernameTooShort in r <==> |username| < 3)
      && (forall rule :: Password(rule) in r <==> rule in PasswordIssues(password))
  {
    PasswordValidIffNoIssues(password);
    PasswordRuleIssuesExact(PasswordIssues(password));
    var pw := PasswordRuleIssues(PasswordIssues(password));
    assert forall x :: x in pw ==> x.Password?;
    IssuesOfParts(|fullName| < 2, emailOk, UsernameIssues(username), pw);
  }

  /** How the four parts of the registration issues combine: each part
      holds its own kind of issue only. */
  lemma IssuesOfParts(shortName: bool, emailOk: bool, user: seq<RegisterIssue>, pw: seq<RegisterIssue>)
    requires forall x :: x in user ==> x.UsernameTooShort? || x.UsernameBadChars?
    requires forall x :: x in pw ==> x.Password?
    ensures var r := (if shortName then [FullNameTooShort] else []) + (if emailOk then [] else [EmailInvalid]) + user + pw;
      && (r == [] <==> !shortName && emailOk && user == [] && pw == [])
      && (FullNameTooShort in r <==> shortName)
      && (EmailInvalid in r <==> !emailOk)
      && (UsernameTooShort in r <==> UsernameTooShort in user)
      && (forall rule :: Password(rule) in r <==> Password(rule) in pw)
  {
    var head := (if shortName then [FullNameTooShort] else []) + (if emailOk then [] else [EmailInvalid]);
    assert forall x :: x in head ==> x.FullNameTooShort? || x.EmailInvalid?;
    assert head + user + pw == head + (user + pw);
  }

  /** One left-to-right scan deciding the password rules, as a regular
      expression engine would. */
  method CheckPassword(p: string) returns (ok: bool)
    ensures ok <==> PasswordValid(p)
  {
    var upper, digit, special := false, false, false;
    var i := 0;
    while i < |p|
      invariant 0 <= i <= |p|
      invariant upper <==> exists k :: 0 <= k < i && IsUpper(p[k])
      invariant digit <==> exists k :: 0 <= k < i && IsAsciiDigit(p[k])
      invariant special <==> exists k :: 0 <= k < i && !IsAlnum(p[k])
    {
      var c := p[i];
      upper := upper || IsUpper(c);
      digit := digit || IsAsciiDigit(c);
      special := special || !IsAlnum(c);
      i := i + 1;
    }
    ok := |p| >= 8 && upper && digit && special;
  }

  /** One scan deciding the username rule. */
  method CheckUsername(u: string) returns (ok: bool)
    ensures ok <==> UsernameValid(u)
  {
    if |u| < 3 {
      return false;
    }
    var i := 0;
    while i < |u|
      invariant 0 <= i <= |u|
      invariant forall k :: 0 <= k < i ==> IsWordChar(u[k])
    {
      if !IsWordChar(u[i]) {
        return false;
      }
      i := i + 1;
    }
    return true;
  }

  /** One pass over the registration fields, using the two scans. */
  method CheckRegister(fullName: string, emailOk: bool, username: string, password: string) returns (ok: bool)
    ensures ok <==> RegisterValid(fullName, emailOk, username, password)
  {
    var userOk := CheckUsername(username);
    var passOk := CheckPassword(password);
    ok := |fullName| >= 2 && emailOk && userOk && passOk;
  }

  /** Examples the schemas decide. */
  lemma Examples()
    ensures PasswordValid("Secret#1x")
    ensures PasswordIssues("abc") == [TooShort, NoUppercase, NoNumber, NoSpecial]
    ensures !UsernameValid("ab") && !UsernameValid("a-b-c") && UsernameValid("a_b")
  {
    assert IsUpper("Secret#1x"[0]) && IsAsciiDigit("Secret#1x"[7]) && !IsAlnum("Secret#1x"[6]);
    assert !IsWordChar("a-b-c"[1]);
  }
}

=== FILE: change_password.dfy ===
/** The change-password page: request a one-time code, then submit it with
    the new password; a resend cooldown counts down once per second. Each
    request is taken as one step from start to completion. */
module ChangePassword {
  import opened Common

  datatype Step = RequestOtp | VerifyPassword

  datatype PageState = PageState(
    step: Step,
    otp: string,
    isLoading: bool,
    error: Option<string>,
    cooldown: int,
    location: Option<string>)

  const Initial: PageState := PageState(RequestOtp, "", false, None, 0, None)

  const Cooldown: int := 60
  const OtpLength: nat := 6

  /** `handleSendOtp`: success moves to the second step and starts the
      cooldown; failure keeps the step and reports the server's detail,
      else a fixed text. Loading is off again either way. */
  function SendOtp(s: PageState, ok: bool, detail: Option<string>): (r: PageState)
    ensures !r.isLoading
    ensures ok ==> r.step == VerifyPassword && r.cooldown == Cooldown && r.error.None?
    ensures !ok ==> r.step == s.step && r.cooldown == s.cooldown && r.error == Some(OrElse(detail, "Failed to send OTP"))
    ensures r.otp == s.otp && r.location == s.location
  {
    if ok then s.(step := VerifyPassword, cooldown := Cooldown, error := None, isLoading := false)
    else s.(error := Some(OrElse(detail, "Failed to send OTP")), isLoading := false)
  }

  /** The first step's Send OTP button, disabled while loading. */
  function SendOtpButton(s: PageState, ok: bool, detail: Option<string>): (r: PageState)
    ensures s.isLoading ==> r == s
    ensures !s.isLoading ==> r == SendOtp(s, ok, detail)
  {
    if s.isLoading then s else SendOtp(s, ok, detail)
  }

  /** The Resend button: disabled only while the cooldown runs. */
  function ResendEnabled(s: PageState): (r: bool)
    ensures r <==> s.cooldown <= 0
  {
    !(s.cooldown > 0)
  }

  /** A resend is `handleSendOtp` again: a success restarts the cooldown, a
      failure reports the error and leaves the cooldown as it was. The
      button does not look at the loading flag. */
  function Resend(s: PageState, ok: bool, detail: Option<string>): (r: PageState)
    ensures !ResendEnabled(s) ==> r == s
    ensures ResendEnabled(s) && ok ==> r.cooldown == Cooldown && r.step == VerifyPassword && r.error.None?
    ensures ResendEnabled(s) && !ok ==>
      r.cooldown == s.cooldown && r.step == s.step && r.error == Some(OrElse(detail, "Failed to send OTP"))
    ensures ResendEnabled(s) ==> !r.isLoading
    ensures r.otp == s.otp && r.location == s.location
  {
    if ResendEnabled(s) then SendOtp(s, ok, detail) else s
  }

  function ResendLabel(s: PageState): (r: string)
    ensures s.cooldown > 0 ==> r == "Resend in " + IntToDecimal(s.cooldown) + "s"
    ensures s.cooldown <= 0 ==> r == "Resend OTP"
  {
    if s.cooldown > 0 then "Resend in " + IntToDecimal(s.cooldown) + "s" else "Resend OTP"
  }

  /** One second of the interval, which only runs while the cooldown is
      positive. */
  function Tick(s: PageState): (r: PageState)
    ensures s.cooldown > 0 ==> r.cooldown == s.cooldown - 1
    ensures s.cooldown <= 0 ==> r == s
    ensures r.(cooldown := s.cooldown) == s
  {
    if s.cooldown > 0 then s.(cooldown := s.cooldown - 1) else s
  }

  function Ticks(s: PageState, n: nat): PageState
    decreases n
  {
    if n == 0 then s else Ticks(Tick(s), n - 1)
  }

  /** After `n` seconds the cooldown is `c - n`, stopping at 0; nothing else
      changes. */
  lemma {:induction false} TicksCountDown(s: PageState, n: nat)
    requires s.cooldown >= 0
    ensures Ticks(s, n).cooldown == if s.cooldown >= n then s.cooldown - n else 0
    ensures Ticks(s, n).(cooldown := s.cooldown) == s
    decreases n
  {
    if n > 0 {
      TicksCountDown(Tick(s), n - 1);
    }
  }

  /** The code input holds at most six characters: longer input is cut. */
  function EnterOtp(s: PageState, value: string): (r: PageState)
    ensures |r.otp| <= OtpLength
    ensures |value| <= OtpLength ==> r.otp == value
    ensures |value| > OtpLength ==> r.otp == value[..OtpLength]
    ensures r.(otp := s.otp) == s
  {
    s.(otp := if |value| <= OtpLength then value else value[..OtpLength])
  }

  /** Change Password is enabled when not loading and the code is complete. */
  function SubmitEnabled(s: PageState): (r: bool)
    ensures r <==> !s.isLoading && |s.otp| == OtpLength
  {
    !(s.isLoading || |s.otp| != OtpLength)
  }

  /** Submitting: nothing happens unless the button is enabled and the
      password fields pass their schema (`formOk`). Success goes to the
      profile page; failure stays with the server's message, else a fixed
      text. */
  function Submit(s: PageState, formOk: bool, ok: bool, message: Option<string>): (r: PageState)
    ensures !SubmitEnabled(s) || !formOk ==> r == s
    ensures SubmitEnabled(s) && formOk && ok ==> r.location == Some("/profile") && r.error.None?
    ensures SubmitEnabled(s) && formOk && !ok ==>
      r.location == s.location && r.step == s.step && r.error == Some(OrElse(message, "Failed to change password"))
    ensures SubmitEnabled(s) && formOk ==> !r.isLoading && r.otp == s.otp
  {
    if !SubmitEnabled(s) || !formOk then s
    else if ok then s.(location := Some("/profile"), error := None, isLoading := false)
    else s.(error := Some(OrElse(message, "Failed to change password")), isLoading := false)
  }

  /** The flow: a sent code opens the second step with Resend held back for
      a minute and released after sixty ticks; six digits then enable the
      submit button. */
  lemma HappyPath(detail: Option<string>, code: string)
    requires |code| == OtpLength
    ensures var s := SendOtpButton(Initial, true, detail);
      && s.step == VerifyPassword && !ResendEnabled(s)
      && ResendLabel(s) == "Resend in 60s"
      && ResendEnabled(Ticks(s, 60))
      && SubmitEnabled(EnterOtp(s, code))
  {
    var s := SendOtpButton(Initial, true, detail);
    TicksCountDown(s, 60);
    assert IntToDecimal(60) == "60" by {
      assert NatToDecimal(60) == NatToDecimal(6) + [DigitChar(0)];
    }
  }

  /** A code typed longer than six characters is cut to six, so it still
      enables the submit button. */
  lemma LongCodeIsCut(s: PageState, value: string)
    requires !s.isLoading && |value| >= OtpLength
    ensures SubmitEnabled(EnterOtp(s, value))
  {
  }
}

=== FILE: common.dfy ===
/** Vocabulary shared by every part of the client model: optional values,
    the user record, JavaScript truthiness of optional strings, the
    ECMAScript `String.prototype.trim`, and decimal rendering of integers
    (what a template literal `${n}` prints). */
module Common {

  /** A value that may be absent (`undefined` / `null` in the client). */
  datatype Option<+T> = None | Some(value: T) {
    function GetOr(default: T): T {
      match this
      case Some(v) => v
      case None => default
    }
  }

  type UserId = string

  /** The user record the server sends (profile, roster entries, join events). */
  datatype User = User(id: UserId, username: string, fullName: string, email: string)

  /** A post. `author` is the embedded user some list endpoints attach. */
  datatype Tweet = Tweet(id: string, text: string, isPrivate: bool, createdAt: int, updatedAt: int, author: Option<User>)

  /** The three signalling message kinds relayed between peers. */
  datatype SignalType = Offer | Answer | IceCandidate

  /** JavaScript truthiness of an optional string: present and non-empty. */
  predicate Truthy(s: Option<string>) {
    s.Some? && s.value != ""
  }

  /** `s || fallback` for an optional string. */
  function OrElse(s: Option<string>, fallback: string): (r: string)
    ensures Truthy(s) ==> r == s.value
    ensures !Truthy(s) ==> r == fallback
    ensures fallback != "" ==> r != ""
  {
    if Truthy(s) then s.value else fallback
  }

  /** The outcome of a REST call: the value, or an error with the server's
      `detail` and the exception's `message` (either may be absent). */
  datatype Outcome<T> = Ok(value: T) | Failure(detail: Option<string>, message: Option<string>)

  /** Maps `a` and `b` agree outside the keys `ks`. */
  ghost predicate SameOutside<K(!new), V>(a: map<K, V>, b: map<K, V>, ks: set<K>) {
    forall k :: k !in ks ==> (k in a <==> k in b) && (k in a ==> a[k] == b[k])
  }

  // ---------------------------------------------------------------------
  // String.prototype.trim
  // ---------------------------------------------------------------------

  /** The characters ECMAScript `trim` removes: WhiteSpace (TAB, VT, FF, SP,
      NBSP, ZWNBSP and the Unicode space separators) and LineTerminator
      (LF, CR, LS, PS). */
  predicate IsSpace(c: char) {
    || c == '\t' || c == '\n' || c == '\U{000B}' || c == '\U{000C}' || c == '\r'
    || c == ' ' || c == '\U{00A0}' || c == '\U{1680}'
    || ('\U{2000}' <= c <= '\U{200A}')
    || c == '\U{2028}' || c == '\U{2029}' || c == '\U{202F}' || c == '\U{205F}'
    || c == '\U{3000}' || c == '\U{FEFF}'
  }

  predicate AllSpace(s: string) {
    forall k :: 0 <= k < |s| ==> IsSpace(s[k])
  }

  /** Number of leading whitespace characters. */
  function LeadingSpaces(s: string): (n: nat)
    ensures n <= |s|
    ensures forall k :: 0 <= k < n ==> IsSpace(s[k])
    ensures n < |s| ==> !IsSpace(s[n])
  {
    if |s| == 0 || !IsSpace(s[0]) then 0
    else
      var n := LeadingSpaces(s[1..]);
      assert forall k :: 1 <= k < n + 1 ==> s[k] == s[1..][k - 1];
      n + 1
  }

  /** Number of trailing whitespace characters. */
  function TrailingSpaces(s: string): (n: nat)
    ensures n <= |s|
    ensures forall k :: |s| - n <= k < |s| ==> IsSpace(s[k])
    ensures n < |s| ==> !IsSpace(s[|s| - n - 1])
  {
    if |s| == 0 || !IsSpace(s[|s| - 1]) then 0
    else
      var n := TrailingSpaces(s[..|s| - 1]);
      assert forall k :: |s| - 1 - n <= k < |s| - 1 ==> s[k] == s[..|s| - 1][k];
      n + 1
  }

  /** `s.trim()`: the slice of `s` between its leading and trailing whitespace. */
  function Trim(s: string): string {
    var t := s[LeadingSpaces(s)..];
    t[..|t| - TrailingSpaces(t)]
  }

  /** Trimming to the empty string happens exactly for whitespace-only text;
      this is the test behind every "ignore blank input" guard. */
  lemma TrimEmptyIffAllSpace(s: string)
    ensures Trim(s) == "" <==> AllSpace(s)
  {
    var i := LeadingSpaces(s);
    var t := s[i..];
    var j := TrailingSpaces(t);
    if AllSpace(s) {
      assert i == |s|;
    } else {
      assert i < |s|;
      assert t[0] == s[i];
      assert j < |t|;
    }
  }

  /** The trimmed text is a slice of the input with no whitespace at either
      end, and everything cut away is whitespace. */
  lemma TrimIsCore(s: string)
    ensures var r := Trim(s);
            && |r| <= |s|
            && (r == "" || (!IsSpace(r[0]) && !IsSpace(r[|r| - 1])))
            && (r == "" <==> AllSpace(s))
  {
    TrimEmptyIffAllSpace(s);
    var i := LeadingSpaces(s);
    var t := s[i..];
    var j := TrailingSpaces(t);
    var r := t[..|t| - j];
    if r != "" {
      assert r[0] == s[i];
      assert r[|r| - 1] == t[|t| - j - 1];
    }
  }

  /** Trimming twice is trimming once. */
  lemma TrimIdempotent(s: string)
    ensures Trim(Trim(s)) == Trim(s)
  {
    var r := Trim(s);
    TrimIsCore(s);
    if r != "" {
      assert LeadingSpaces(r) == 0;
      assert r[0..] == r;
      assert TrailingSpaces(r) == 0;
      assert r[..|r|] == r;
    }
  }

  // ---------------------------------------------------------------------
  // Decimal rendering (`${n}` for integers)
  // ---------------------------------------------------------------------

  predicate IsDigit(c: char) {
    '0' as int <= c as int <= '9' as int
  }

  function DigitChar(d: nat): (c: char)
    requires d < 10
    ensures IsDigit(c) && (c as int) - ('0' as int) == d
  {
    (('0' as int) + d) as char
  }

  /** Decimal digits of `n`, most significant first, without leading zeros. */
  function NatToDecimal(n: nat): (r: string)
    ensures |r| >= 1
    ensures forall k :: 0 <= k < |r| ==> IsDigit(r[k])
    ensures |r| > 1 ==> r[0] != '0'
    decreases n
  {
    if n < 10 then [DigitChar(n)]
    else NatToDecimal(n / 10) + [DigitChar(n % 10)]
  }

  /** Template-literal rendering of an integer: a minus sign before the
      digits of a negative value. */
  function IntToDecimal(n: int): (r: string)
    ensures |r| >= 1
    ensures n < 0 <==> r[0] == '-'
  {
    if n < 0 then "-" + NatToDecimal(-n) else NatToDecimal(n)
  }

  /** Reads back a non-empty run of decimal digits. */
  function ParseDecimal(s: string): nat
    requires |s| >= 1
    requires forall k :: 0 <= k < |s| ==> IsDigit(s[k])
    decreases |s|
  {
    assert IsDigit(s[|s| - 1]);
    var last := (s[|s| - 1] as int) - ('0' as int);
    if |s| == 1 then last
    else 10 * ParseDecimal(s[..|s| - 1]) + last
  }

  /** Rendering a natural number and reading it back gives the number:
      the rendering is faithful and injective. */
  lemma {:induction false} DecimalRoundTrip(n: nat)
    ensures ParseDecimal(NatToDecimal(n)) == n
    decreases n
  {
    if n >= 10 {
      var r := NatToDecimal(n);
      var p := NatToDecimal(n / 10);
      assert r == p + [DigitChar(n % 10)];
      assert r[..|r| - 1] == p;
      DecimalRoundTrip(n / 10);
    }
  }

  lemma DecimalInjective(m: nat, n: nat)
    ensures NatToDecimal(m) == NatToDecimal(n) ==> m == n
  {
    DecimalRoundTrip(m);
    DecimalRoundTrip(n);
  }

  // ---------------------------------------------------------------------
  // Floor division (`Math.floor(a / b)` for a positive divisor)
  // ---------------------------------------------------------------------

  /** Dafny's `/` with a positive divisor rounds toward negative infinity,
      as `Math.floor(a / b)` does: the quotient is the largest `q` with
      `q * b <= a`. */
  lemma FloorDivBounds(a: int, b: int)
    requires b > 0
    ensures (a / b) * b <= a < (a / b) * b + b
  {
  }

  /** A floored quotient is below `k` exactly when the dividend is below
      `k * b`. */
  lemma FloorDivBelow(a: int, b: int, k: int)
    requires b > 0
    ensures a / b < k <==> a < k * b
  {
    var q := a / b;
    FloorDivBounds(a, b);
    if q < k {
      assert q + 1 <= k;
      assert (q + 1) * b <= k * b;
    } else {
      assert q * b >= k * b;
    }
  }

  /** Flooring twice is flooring once by the product. */
  lemma FloorDivTwice(a: int, b: int, c: int)
    requires b > 0 && c > 0
    ensures a / b / c == a / (b * c)
  {
    var q := a / b;
    var q2 := q / c;
    FloorDivBounds(a, b);
    FloorDivBounds(q, c);
    MulLeq(q2 * c, q, b);
    MulLeq(q + 1, (q2 + 1) * c, b);
    MulRegroup(q2, c, b);
    MulRegroup(q2 + 1, c, b);
    FloorDivUnique(a, b * c, q2);
  }

  /** Multiplying by a positive factor keeps a non-strict comparison. */
  lemma MulLeq(x: int, y: int, b: int)
    requires b > 0 && x <= y
    ensures x * b <= y * b
  {
  }

  /** Regrouping a triple product. */
  lemma MulRegroup(x: int, c: int, b: int)
    ensures x * c * b == x * (b * c)
  {
  }

  /** Cancelling a positive factor from a strict comparison. */
  lemma MulCancelLess(x: int, y: int, b: int)
    requires b > 0 && x * b < y * b
    ensures x < y
  {
  }

  /** The floored quotient is the only `q` with `q * b <= a < (q + 1) * b`. */
  lemma FloorDivUnique(a: int, b: int, q: int)
    requires b > 0
    requires q * b <= a < (q + 1) * b
    ensures a / b == q
  {
    var d := a / b;
    assert d * b <= a < d * b + b;
    assert d * b < (q + 1) * b;
    MulCancelLess(d, q + 1, b);
    assert q * b < (d + 1) * b;
    MulCancelLess(q, d + 1, b);
  }
}

=== FILE: create_tweet_dialog.dfy ===
/** The new-post dialog: the text schema, the submit-enable rule, the
    request it sends, and when the form is reset and the dialog closed. */
module CreateTweetDialog {
  import opened Common

  const MaxLength: nat := 280

  /** `createTweetSchema.text`: between 1 and 280 characters. */
  predicate ValidText(text: string) {
    1 <= |text| <= MaxLength
  }

  datatype Form = Form(text: string, isPrivate: bool)

  /** The form's default values. */
  const Blank: Form := Form("", false)

  datatype Dialog = Dialog(open: bool, isSubmitting: bool, form: Form)

  const Closed: Dialog := Dialog(false, false, Blank)

  /** The request body: the privacy flag is sent as text. */
  datatype Request = Request(text: string, isPrivate: string)

  function BoolText(b: bool): (r: string)
    ensures b ==> r == "true"
    ensures !b ==> r == "false"
  {
    if b then "true" else "false"
  }

  /** The submit button is enabled while not submitting and when the text
      does not trim to nothing. */
  function SubmitEnabled(d: Dialog): (r: bool)
    ensures r <==> !d.isSubmitting && !AllSpace(d.form.text)
  {
    TrimEmptyIffAllSpace(d.form.text);
    !d.isSubmitting && Trim(d.form.text) != ""
  }

  /** What a submit does. */
  datatype Submitted = Submitted(dialog: Dialog, request: Option<Request>, notified: bool)

  /** Pressing the enabled submit button: text that fails the schema sends
      nothing; otherwise the request is sent with the untrimmed text.
      Success (`ok`) resets the form, closes the dialog and notifies the
      parent; failure keeps the dialog open with its values. */
  function Submit(d: Dialog, ok: bool): (r: Submitted)
    ensures !SubmitEnabled(d) || !ValidText(d.form.text) ==> r == Submitted(d, None, false)
    ensures SubmitEnabled(d) && ValidText(d.form.text) ==>
      && r.request == Some(Request(d.form.text, BoolText(d.form.isPrivate)))
      && !r.dialog.isSubmitting
      && (ok ==> r.dialog == Closed && r.notified)
      && (!ok ==> r.dialog == d && !r.notified)
  {
    if !SubmitEnabled(d) || !ValidText(d.form.text) then Submitted(d, None, false)
    else
      var request := Request(d.form.text, BoolText(d.form.isPrivate));
      if ok then Submitted(Dialog(false, false, Blank), Some(request), true)
      else Submitted(d.(isSubmitting := false), Some(request), false)
  }

  /** `handleOpenChange`: closing while not submitting resets the form;
      closing mid-submit keeps it. */
  function OpenChange(d: Dialog, newOpen: bool): (r: Dialog)
    ensures r.open == newOpen && r.isSubmitting == d.isSubmitting
    ensures !newOpen && !d.isSubmitting ==> r.form == Blank
    ensures newOpen || d.isSubmitting ==> r.form == d.form
  {
    Dialog(newOpen, d.isSubmitting, if !newOpen && !d.isSubmitting then Blank else d.form)
  }

  /** The Cancel button closes the dialog directly, without a reset. */
  function Cancel(d: Dialog): (r: Dialog)
    ensures !r.open && r.form == d.form
  {
    d.(open := false)
  }

  /** The counter below the text: "length/280". It ends in "/280", and
      what precedes that is a decimal numeral, without leading zeros, that
      reads back as the text's length. */
  function Counter(text: string): (r: string)
    ensures |r| >= 5 && r[|r| - 4..] == "/280"
    ensures var n := r[..|r| - 4];
      && (forall k :: 0 <= k < |n| ==> IsDigit(n[k]))
      && (|n| > 1 ==> n[0] != '0')
      && ParseDecimal(n) == |text|
  {
    var n := NatToDecimal(|text|);
    DecimalRoundTrip(|text|);
    var r := n + "/280";
    assert r[..|r| - 4] == n;
    r
  }

  /** Whitespace-only text passes the schema but cannot be posted. */
  lemma BlankPassesSchemaButIsBlocked()
    ensures ValidText(" ") && !SubmitEnabled(Dialog(true, false, Form(" ", false)))
  {
    assert AllSpace(" ");
  }

  /** A draft dismissed with Cancel is still there when the dialog reopens;
      one dismissed by closing the dialog otherwise is gone. */
  lemma CancelKeepsDraft(d: Dialog)
    requires !d.isSubmitting
    ensures OpenChange(Cancel(d), true).form == d.form
    ensures OpenChange(OpenChange(d, false), true).form == Blank
  {
  }

  /** Only posts the schema accepts are ever sent, and a sent post is never
      blank. */
  lemma SentPostsAreValid(d: Dialog, ok: bool)
    ensures Submit(d, ok).request.Some? ==>
      ValidText(Submit(d, ok).request.value.text) && Trim(Submit(d, ok).request.value.text) != ""
  {
    TrimEmptyIffAllSpace(d.form.text);
  }
}

=== FILE: feed_page.dfy ===
/** The home feed: a paged list that replaces on a fresh fetch and appends
    on Load More, with `hasMore` taken from the page count. A failed fetch
    is only logged. Each request is one step from start to completion. */
module FeedPage {
  import opened Common
  import P = PagedList

  datatype Feed = Feed(tweets: seq<Tweet>, loading: bool, loadingMore: bool, page: int, hasMore: bool)

  const Initial: Feed := Feed([], false, false, 1, true)

  datatype FeedResponse = FeedResponse(tweets: seq<Tweet>, totalPages: int)

  /** `fetchTweets(pageNum, append)`: the list is extended or replaced and
      `hasMore` is `pageNum < total_pages`; a failure (None) keeps both.
      Both loading flags end cleared; the page counter is not touched. */
  function FetchTweets(s: Feed, pageNum: int, append: bool, reply: Option<FeedResponse>): (r: Feed)
    ensures !r.loading && !r.loadingMore && r.page == s.page
    ensures reply.Some? && append ==> r.tweets == s.tweets + reply.value.tweets
    ensures reply.Some? && !append ==> r.tweets == reply.value.tweets
    ensures reply.Some? ==> (r.hasMore <==> pageNum < reply.value.totalPages)
    ensures reply.None? ==> r.tweets == s.tweets && r.hasMore == s.hasMore
  {
    match reply
    case Some(resp) =>
      s.(tweets := P.Merge(s.tweets, resp.tweets, !append), hasMore := pageNum < resp.totalPages,
         loading := false, loadingMore := false)
    case None => s.(loading := false, loadingMore := false)
  }

  /** The effect on mount: page 1. */
  function Mount(s: Feed, reply: Option<FeedResponse>): (r: Feed)
    ensures reply.Some? ==> r.tweets == reply.value.tweets
  {
    FetchTweets(s, 1, false, reply)
  }

  /** `loadMore`: the page counter advances first, then that page is
      fetched and appended. */
  function LoadMore(s: Feed, reply: Option<FeedResponse>): (r: Feed)
    ensures r.page == s.page + 1
    ensures reply.Some? ==> r.tweets == s.tweets + reply.value.tweets && (r.hasMore <==> s.page + 1 < reply.value.totalPages)
    ensures reply.None? ==> r.tweets == s.tweets
  {
    FetchTweets(s.(page := s.page + 1), s.page + 1, true, reply)
  }

  /** A new post: back to page 1, replacing the list. */
  function TweetCreated(s: Feed, reply: Option<FeedResponse>): (r: Feed)
    ensures r.page == 1
    ensures reply.Some? ==> r.tweets == reply.value.tweets && (r.hasMore <==> 1 < reply.value.totalPages)
  {
    FetchTweets(s.(page := 1), 1, false, reply)
  }

  datatype LoadButton = LoadButton(disabled: bool, caption: string)

  /** What the feed shows: skeletons while the first page loads, the empty
      message, or the posts with Load More while there are more pages. */
  datatype View = Skeletons | NoTweets | Posts(tweets: seq<Tweet>, loadMore: Option<LoadButton>)

  function ViewOf(s: Feed): (r: View)
    ensures r == Skeletons <==> s.loading
    ensures r == NoTweets <==> !s.loading && |s.tweets| == 0
    ensures r.Posts? ==> r.tweets == s.tweets && (r.loadMore.Some? <==> s.hasMore)
  {
    if s.loading then Skeletons
    else if |s.tweets| == 0 then NoTweets
    else Posts(s.tweets, if s.hasMore then Some(LoadButton(s.loadingMore, if s.loadingMore then "Loading..." else "Load More")) else None)
  }

  /** A failed Load More still advances the page counter, so the next one
      asks for the page after the one that failed. */
  lemma FailedLoadMoreSkipsPage(s: Feed, reply: Option<FeedResponse>)
    ensures var t := LoadMore(s, None);
      t.tweets == s.tweets && LoadMore(t, reply).page == s.page + 2
  {
  }

  /** Pressing Load More once per reply, in order. */
  function LoadMoreAll(s: Feed, replies: seq<Option<FeedResponse>>): Feed
    decreases |replies|
  {
    if replies == [] then s else LoadMoreAll(LoadMore(s, replies[0]), replies[1..])
  }

  /** The pages among the replies that arrived, in order. */
  function Delivered(replies: seq<Option<FeedResponse>>): seq<seq<Tweet>>
    decreases |replies|
  {
    if replies == [] then []
    else (if replies[0].Some? then [replies[0].value.tweets] else []) + Delivered(replies[1..])
  }

  /** Every press advances the page counter, and every page that arrives is
      appended in order; failed presses add nothing. */
  lemma {:induction false} LoadMoreAllAppends(s: Feed, replies: seq<Option<FeedResponse>>)
    ensures var t := LoadMoreAll(s, replies);
      t.tweets == s.tweets + P.Concat(Delivered(replies)) && t.page == s.page + |replies|
    decreases |replies|
  {
    if replies != [] {
      var t1 := LoadMore(s, replies[0]);
      LoadMoreAllAppends(t1, replies[1..]);
      if replies[0].Some? {
        P.ConcatCons(replies[0].value.tweets, Delivered(replies[1..]));
      } else {
        assert [] + Delivered(replies[1..]) == Delivered(replies[1..]);
      }
    }
  }

  /** Mounting and then pressing Load More lists the first page and every
      later page that arrived, in order. */
  lemma PagesAccumulate(s: Feed, first: FeedResponse, replies: seq<Option<FeedResponse>>)
    ensures var t := LoadMoreAll(Mount(s, Some(first)), replies);
      t.tweets == P.Concat([first.tweets] + Delivered(replies)) && t.page == s.page + |replies|
  {
    LoadMoreAllAppends(Mount(s, Some(first)), replies);
    P.ConcatCons(first.tweets, Delivered(replies));
  }

  /** The button disappears once the last page has been loaded. */
  lemma LastPageHidesButton(s: Feed, resp: FeedResponse)
    requires s.page + 1 >= resp.totalPages
    ensures !LoadMore(s, Some(resp)).hasMore
  {
  }
}

=== FILE: feed_tweet_item.dfy ===
/** A post in the home feed: its own copy of the relative date label, the
    author line read from the post's embedded user, and the lock marker. */
module FeedTweetItem {
  import opened Common
  import TweetItem

  /** `formatDate`, the feed's own copy of the relative date label: minutes,
      hours and days are each floored from the one before. */
  function FormatDate(elapsedMs: int): TweetItem.DateLabel {
    var mins := elapsedMs / 60000;
    var hours := mins / 60;
    var days := hours / 24;
    if mins < 1 then TweetItem.Now
    else if mins < 60 then TweetItem.Minutes(mins)
    else if hours < 24 then TweetItem.Hours(hours)
    else if days < 7 then TweetItem.Days(days)
    else TweetItem.LocaleDate
  }

  /** The feed's copy agrees with the direct statement of the buckets, and
      so with the owner list's copy, for every elapsed time. */
  lemma FormatDateAgrees(elapsedMs: int)
    ensures FormatDate(elapsedMs) == TweetItem.ElapsedLabel(elapsedMs)
    ensures FormatDate(elapsedMs) == TweetItem.FormatDate(elapsedMs)
  {
    FloorDivTwice(elapsedMs, 60000, 60);
    FloorDivTwice(elapsedMs, 3600000, 24);
    FloorDivBelow(elapsedMs, 60000, 1);
    FloorDivBelow(elapsedMs, 60000, 60);
    FloorDivBelow(elapsedMs, 3600000, 24);
    FloorDivBelow(elapsedMs, 86400000, 7);
    TweetItem.FormatDateIsElapsedLabel(elapsedMs);
  }

  /** The author line: the post's user's full name and username, falling
      back to "Unknown User" and "unknown". */
  function AuthorLine(tweet: Tweet): (r: (string, string))
    ensures tweet.author.Some? && tweet.author.value.fullName != "" ==> r.0 == tweet.author.value.fullName
    ensures tweet.author.Some? && tweet.author.value.username != "" ==> r.1 == tweet.author.value.username
    ensures tweet.author.None? || tweet.author.value.fullName == "" ==> r.0 == "Unknown User"
    ensures tweet.author.None? || tweet.author.value.username == "" ==> r.1 == "unknown"
  {
    TweetItem.AuthorLine(tweet.author)
  }

  /** The lock marker is shown exactly for private posts. */
  function ShowsLock(tweet: Tweet): (r: bool)
    ensures r <==> tweet.isPrivate
  {
    tweet.isPrivate
  }
}

=== FILE: notification_dropdown.dfy ===
/** The bell menu over the unread list: the badge, the first five items and
    the "N more" line. */
module NotificationDropdown {
  import opened Common
  import N = NotificationSlice

  /** The badge: absent with nothing unread, "9+" above nine, else the count. */
  function Badge(unread: seq<N.Notification>): (r: Option<string>)
    ensures r.None? <==> |unread| == 0
    ensures |unread| > 9 ==> r == Some("9+")
    ensures 0 < |unread| <= 9 ==> r == Some(NatToDecimal(|unread|))
  {
    if |unread| == 0 then None
    else if |unread| > 9 then Some("9+")
    else Some(NatToDecimal(|unread|))
  }

  /** The items listed: the first five in stored order. */
  function Listed(unread: seq<N.Notification>): (r: seq<N.Notification>)
    ensures |r| == if |unread| < 5 then |unread| else 5
    ensures forall i :: 0 <= i < |r| ==> r[i] == unread[i]
  {
    if |unread| <= 5 then unread else unread[..5]
  }

  /** The "N more unread notifications" line: present above five, with the
      number not listed. */
  function MoreCount(unread: seq<N.Notification>): (r: Option<nat>)
    ensures r.Some? <==> |unread| > 5
    ensures r.Some? ==> r.value == |unread| - 5
  {
    if |unread| > 5 then Some(|unread| - 5) else None
  }

  predicate ShowsEmptyState(unread: seq<N.Notification>) {
    |unread| == 0
  }

  /** Every unread item is either listed or counted in the "more" line. */
  lemma EveryUnreadAccountedFor(unread: seq<N.Notification>)
    ensures |Listed(unread)| + MoreCount(unread).GetOr(0) == |unread|
    ensures ShowsEmptyState(unread) <==> Listed(unread) == []
  {
  }

  /** A notification pushed by the live socket is listed first and shows
      the badge. */
  lemma NewestListedFirst(s: N.State, n: N.Notification)
    ensures var u := N.AddNewNotification(s, n).unread;
      Listed(u)[0] == n && Badge(u).Some? && !ShowsEmptyState(u)
  {
  }

  /** After a clear, the menu shows the empty state and no badge. */
  lemma ClearedMenuIsEmpty(s: N.State)
    ensures var u := N.ClearNotifications(s).unread;
      ShowsEmptyState(u) && Badge(u).None? && MoreCount(u).None?
  {
  }
}

=== FILE: notification_slice.dfy ===
/** The notification store slice: the unread list fed by the live socket,
    the paged full list fed by `fetchNotifications`, and that request's
    lifecycle. */
module NotificationSlice {
  import opened Common

  datatype Notification = Notification(
    id: string,
    title: string,
    message: string,
    kind: string,
    createdAt: string,
    isRead: bool)

  datatype State = State(
    unread: seq<Notification>,
    all: seq<Notification>,
    isLoading: bool,
    error: Option<string>,
    hasMore: bool,
    currentPage: int)

  const Initial: State := State([], [], false, None, true, 1)

  /** A fetched page's body: either field may be missing. */
  datatype PageData = PageData(notifications: Option<seq<Notification>>, hasMore: Option<bool>)

  /** `data.notifications || []`. */
  function ItemsOf(data: PageData): seq<Notification> {
    data.notifications.GetOr([])
  }

  function SetUnreadNotifications(s: State, items: seq<Notification>): (r: State)
    ensures r.unread == items
    ensures r.(unread := s.unread) == s
  {
    s.(unread := items)
  }

  /** A live notification goes to the front of the unread list. */
  function AddNewNotification(s: State, n: Notification): (r: State)
    ensures |r.unread| == |s.unread| + 1 && r.unread[0] == n && r.unread[1..] == s.unread
    ensures r.(unread := s.unread) == s
  {
    s.(unread := [n] + s.unread)
  }

  /** Empties the unread list only; the full list is left as it is. */
  function ClearNotifications(s: State): (r: State)
    ensures r.unread == [] && r.all == s.all
    ensures r.(unread := s.unread) == s
  {
    s.(unread := [])
  }

  function ClearError(s: State): (r: State)
    ensures r.error.None?
    ensures r.(error := s.error) == s
  {
    s.(error := None)
  }

  function FetchPending(s: State): (r: State)
    ensures r.isLoading && r.error.None?
    ensures r.(isLoading := s.isLoading, error := s.error) == s
  {
    s.(isLoading := true, error := None)
  }

  /** A fetched page: page 1 replaces the full list, any other page is
      appended; `hasMore` is the server's flag (false when missing) and the
      current page becomes the requested one. The unread list and the error
      are not touched. */
  function FetchFulfilled(s: State, data: PageData, page: int): (r: State)
    ensures page == 1 ==> r.all == ItemsOf(data)
    ensures page != 1 ==> r.all == s.all + ItemsOf(data)
    ensures r.hasMore <==> data.hasMore == Some(true)
    ensures r.currentPage == page && !r.isLoading
    ensures r.unread == s.unread && r.error == s.error
  {
    var items := ItemsOf(data);
    s.(isLoading := false,
       all := if page == 1 then items else s.all + items,
       hasMore := data.hasMore.GetOr(false),
       currentPage := page)
  }

  /** A failed fetch: the server's detail, else a fixed text; both lists
      are kept. */
  function FetchRejected(s: State, detail: Option<string>): (r: State)
    ensures !r.isLoading
    ensures Truthy(detail) ==> r.error == detail
    ensures !Truthy(detail) ==> r.error == Some("Failed to fetch notifications")
    ensures r.unread == s.unread && r.all == s.all && r.hasMore == s.hasMore && r.currentPage == s.currentPage
  {
    s.(isLoading := false, error := Some(OrElse(detail, "Failed to fetch notifications")))
  }

  // -----------------------------------------------------------------------
  // Loading consecutive pages
  // -----------------------------------------------------------------------

  /** The items of several pages, in order. */
  function AllItems(pages: seq<PageData>): seq<Notification>
  {
    if pages == [] then [] else ItemsOf(pages[0]) + AllItems(pages[1..])
  }

  /** Pages arriving in order, the first numbered `page`. */
  function LoadFrom(s: State, pages: seq<PageData>, page: int): State
    decreases |pages|
  {
    if pages == [] then s else LoadFrom(FetchFulfilled(s, pages[0], page), pages[1..], page + 1)
  }

  /** Pages fetched from page 2 on are appended in the order they arrive,
      and the current page ends at the last page fetched. */
  lemma {:induction false} LoadFromAppends(s: State, pages: seq<PageData>, page: int)
    requires page >= 2
    ensures LoadFrom(s, pages, page).all == s.all + AllItems(pages)
    ensures LoadFrom(s, pages, page).currentPage == if pages == [] then s.currentPage else page + |pages| - 1
    decreases |pages|
  {
    if pages != [] {
      var t := FetchFulfilled(s, pages[0], page);
      LoadFromAppends(t, pages[1..], page + 1);
      assert s.all + ItemsOf(pages[0]) + AllItems(pages[1..]) == s.all + (ItemsOf(pages[0]) + AllItems(pages[1..]));
    }
  }

  /** Loading pages 1, 2, … in order yields exactly their items, whatever
      was listed before. */
  lemma LoadFromFirstPage(s: State, pages: seq<PageData>)
    requires pages != []
    ensures LoadFrom(s, pages, 1).all == AllItems(pages)
  {
    var t := FetchFulfilled(s, pages[0], 1);
    LoadFromAppends(t, pages[1..], 2);
  }
}

=== FILE: notifications_page.dfy ===
/** The notifications page: when it asks for pages, what Clear All does to
    it, and what it shows. */
module NotificationsPage {
  import opened Common
  import N = NotificationSlice

  /** The effect's body: page 1 while the full list is empty. */
  function InitialFetch(s: N.State): (r: Option<int>)
    ensures r.Some? <==> |s.all| == 0
    ensures r.Some? ==> r.value == 1
  {
    if |s.all| == 0 then Some(1) else None
  }

  /** The effect runs on mount and after a render in which the list's
      length changed; only then does its body ask for page 1. */
  function FetchAfterRender(before: N.State, after: N.State): (r: Option<int>)
    ensures r.Some? <==> |before.all| != |after.all| && |after.all| == 0
    ensures r.Some? ==> r == InitialFetch(after)
  {
    if |before.all| != |after.all| then InitialFetch(after) else None
  }

  /** Load More requests the next page, only when nothing is loading and the
      server said there is more. */
  function LoadMore(s: N.State): (r: Option<int>)
    ensures r.Some? <==> !s.isLoading && s.hasMore
    ensures r.Some? ==> r.value == s.currentPage + 1
  {
    if !s.isLoading && s.hasMore then Some(s.currentPage + 1) else None
  }

  /** Clear All empties the unread list only. */
  function ClearAll(s: N.State): (r: N.State)
    ensures r.all == s.all && r.unread == []
    ensures r.(unread := s.unread) == s
  {
    N.ClearNotifications(s)
  }

  function ClearAllEnabled(s: N.State): (r: bool)
    ensures r <==> |s.all| > 0
  {
    |s.all| != 0
  }

  /** One listed notification. */
  datatype Card = Card(title: string, message: string, kind: string, unreadMarker: bool)

  datatype LoadButton = LoadButton(disabled: bool, caption: string)

  /** What the page shows: the error with a Retry that asks for page 1, the
      empty state, or the cards with an optional Load More button. */
  datatype Screen =
    | ErrorScreen(text: string, retryPage: int)
    | EmptyScreen(clearEnabled: bool)
    | ListScreen(cards: seq<Card>, loadMore: Option<LoadButton>, clearEnabled: bool)

  function CardOf(n: N.Notification): Card {
    Card(n.title, n.message, n.kind, !n.isRead)
  }

  function ScreenOf(s: N.State): (r: Screen)
    ensures r.ErrorScreen? <==> Truthy(s.error)
    ensures r.ErrorScreen? ==> r.retryPage == 1
    ensures r.EmptyScreen? <==> !Truthy(s.error) && |s.all| == 0 && !s.isLoading
    ensures r.ListScreen? ==>
      && |r.cards| == |s.all|
      && (forall i :: 0 <= i < |s.all| ==> r.cards[i].title == s.all[i].title && (r.cards[i].unreadMarker <==> !s.all[i].isRead))
      && (r.loadMore.Some? <==> s.hasMore)
      && (r.loadMore.Some? ==> (r.loadMore.value.disabled <==> s.isLoading))
      && (r.clearEnabled <==> |s.all| > 0)
  {
    if Truthy(s.error) then ErrorScreen("Error loading notifications: " + s.error.value, 1)
    else if |s.all| == 0 && !s.isLoading then EmptyScreen(ClearAllEnabled(s))
    else
      ListScreen(
        seq(|s.all|, i requires 0 <= i < |s.all| => CardOf(s.all[i])),
        if s.hasMore then Some(LoadButton(s.isLoading, if s.isLoading then "Loading..." else "Load More")) else None,
        ClearAllEnabled(s))
  }

  /** Clear All changes nothing this page shows. */
  lemma ClearAllKeepsScreen(s: N.State)
    ensures ScreenOf(ClearAll(s)) == ScreenOf(s)
  {
  }

  /** A Load More request, once pending, cannot be issued again; when it
      arrives its items are appended and the page advances by one. */
  lemma LoadMoreRoundTrip(s: N.State, data: N.PageData)
    requires LoadMore(s).Some? && s.currentPage >= 1
    ensures LoadMore(N.FetchPending(s)).None?
    ensures var t := N.FetchFulfilled(N.FetchPending(s), data, LoadMore(s).value);
      t.all == s.all + N.ItemsOf(data) && t.currentPage == s.currentPage + 1 && t.error.None?
  {
  }

  /** A first page that comes back empty leaves the list empty. The
      effect's condition still holds, but the length it depends on did not
      change, so it does not run again and page 1 is not asked for a second
      time; a list emptied from elsewhere does trigger a fetch. */
  lemma EmptyFirstPageNotRetried(s: N.State, more: Option<bool>)
    requires |s.all| == 0
    ensures var t := N.FetchFulfilled(s, N.PageData(None, more), 1);
      && t.all == [] && InitialFetch(t) == Some(1)
      && FetchAfterRender(s, t).None?
    ensures forall u: N.State :: |u.all| > 0 ==> FetchAfterRender(u, s) == Some(1)
  {
  }
}

=== FILE: paged_list.dfy ===
/** The list operations the tweet and people pages share: a fetched page
    replaces or extends the list, an entry is removed by id, and an entry is
    rewritten by id. */
module PagedList {
  import opened Common

  /** A REST reply on the list pages: the body, or a failure carrying the
      server's `message` field when there is one. */
  datatype Reply<T> = Served(value: T) | Refused(message: Option<string>)

  /** `replace ? incoming : [...prev, ...incoming]`. */
  function Merge<T>(prev: seq<T>, incoming: seq<T>, replace: bool): (r: seq<T>)
    ensures replace ==> r == incoming
    ensures !replace ==> |r| == |prev| + |incoming| && r[..|prev|] == prev && r[|prev|..] == incoming
  {
    if replace then incoming else prev + incoming
  }

  /** Pages laid end to end. */
  function Concat<T>(pages: seq<seq<T>>): seq<T>
  {
    if pages == [] then [] else pages[0] + Concat(pages[1..])
  }

  /** Laying a page in front of others. */
  lemma ConcatCons<T>(first: seq<T>, rest: seq<seq<T>>)
    ensures Concat([first] + rest) == first + Concat(rest)
  {
    assert ([first] + rest)[1..] == rest;
  }

  /** Later pages appended one at a time. */
  function AppendAll<T>(prev: seq<T>, pages: seq<seq<T>>): seq<T>
    decreases |pages|
  {
    if pages == [] then prev else AppendAll(Merge(prev, pages[0], false), pages[1..])
  }

  /** Appending pages one by one gives the list followed by all the pages
      in order. */
  lemma {:induction false} AppendAllConcat<T>(prev: seq<T>, pages: seq<seq<T>>)
    ensures AppendAll(prev, pages) == prev + Concat(pages)
    decreases |pages|
  {
    if pages != [] {
      AppendAllConcat(prev + pages[0], pages[1..]);
      assert prev + pages[0] + Concat(pages[1..]) == prev + (pages[0] + Concat(pages[1..]));
    }
  }

  /** A first page that replaces, followed by appended pages, yields all
      the pages in order, whatever was listed before. */
  lemma FirstThenAppend<T>(prev: seq<T>, first: seq<T>, rest: seq<seq<T>>)
    ensures AppendAll(Merge(prev, first, true), rest) == Concat([first] + rest)
  {
    AppendAllConcat(first, rest);
    assert ([first] + rest)[1..] == rest;
  }

  // -----------------------------------------------------------------------
  // Removal and rewriting by id
  // -----------------------------------------------------------------------

  /** `xs.filter(x => key(x) !== id)`. */
  function Without<T>(xs: seq<T>, key: T -> string, id: string): (r: seq<T>)
    ensures forall x :: x in r ==> x in xs && key(x) != id
    ensures forall x :: x in xs && key(x) != id ==> x in r
    ensures |r| <= |xs|
    decreases |xs|
  {
    if xs == [] then []
    else (if key(xs[0]) == id then [] else [xs[0]]) + Without(xs[1..], key, id)
  }

  /** Removal works piecewise: the order of what is kept is the original
      order. */
  lemma {:induction false} WithoutDistributes<T>(xs: seq<T>, ys: seq<T>, key: T -> string, id: string)
    ensures Without(xs + ys, key, id) == Without(xs, key, id) + Without(ys, key, id)
    decreases |xs|
  {
    if xs == [] {
      assert xs + ys == ys;
    } else {
      assert (xs + ys)[0] == xs[0];
      assert (xs + ys)[1..] == xs[1..] + ys;
      WithoutDistributes(xs[1..], ys, key, id);
    }
  }

  /** A list with no entry of that id is kept as it is. */
  lemma {:induction false} WithoutAbsent<T>(xs: seq<T>, key: T -> string, id: string)
    requires forall k :: 0 <= k < |xs| ==> key(xs[k]) != id
    ensures Without(xs, key, id) == xs
    decreases |xs|
  {
    if xs != [] {
      WithoutAbsent(xs[1..], key, id);
    }
  }

  /** Removing twice is removing once. */
  lemma WithoutIdempotent<T>(xs: seq<T>, key: T -> string, id: string)
    ensures Without(Without(xs, key, id), key, id) == Without(xs, key, id)
  {
    var w := Without(xs, key, id);
    forall k | 0 <= k < |w| ensures key(w[k]) != id {
      assert w[k] in w;
    }
    WithoutAbsent(w, key, id);
  }

  /** `xs.map(x => key(x) === id ? f(x) : x)`. */
  function Rewrite<T>(xs: seq<T>, key: T -> string, id: string, f: T -> T): (r: seq<T>)
    ensures |r| == |xs|
    ensures forall k :: 0 <= k < |xs| && key(xs[k]) != id ==> r[k] == xs[k]
    ensures forall k :: 0 <= k < |xs| && key(xs[k]) == id ==> r[k] == f(xs[k])
  {
    seq(|xs|, k requires 0 <= k < |xs| => if key(xs[k]) == id then f(xs[k]) else xs[k])
  }

  /** When the rewrite keeps ids, removing the rewritten id afterwards is
      the same as removing it straight away. */
  lemma {:induction false} RewriteThenRemove<T>(xs: seq<T>, key: T -> string, id: string, f: T -> T)
    requires forall x :: key(f(x)) == key(x)
    ensures Without(Rewrite(xs, key, id, f), key, id) == Without(xs, key, id)
    decreases |xs|
  {
    if xs != [] {
      var r := Rewrite(xs, key, id, f);
      assert r[1..] == Rewrite(xs[1..], key, id, f);
      RewriteThenRemove(xs[1..], key, id, f);
    }
  }
}

=== FILE: people_page.dfy ===
/** The people directory: a paged user list and the set of ids followed
    from this page, updated optimistically and rolled back on failure. */
module PeoplePage {
  import opened Common
  import P = PagedList

  datatype People = People(
    users: seq<User>,
    initialLoading: bool,
    loadingMore: bool,
    page: int,
    hasMore: bool,
    following: set<UserId>)

  const Initial: People := People([], true, false, 1, false, {})

  datatype PeopleResponse = PeopleResponse(users: seq<User>, totalPages: int)

  /** `fetchUsers(pageNum, append)`: extends or replaces the list and sets
      `hasMore` to `pageNum < total_pages`; a failure (None) keeps both.
      Only a replacing fetch ends the initial loading. */
  function FetchUsers(s: People, pageNum: int, append: bool, reply: Option<PeopleResponse>): (r: People)
    ensures !r.loadingMore && r.page == s.page && r.following == s.following
    ensures !append ==> !r.initialLoading
    ensures append ==> r.initialLoading == s.initialLoading
    ensures reply.Some? && append ==> r.users == s.users + reply.value.users
    ensures reply.Some? && !append ==> r.users == reply.value.users
    ensures reply.Some? ==> (r.hasMore <==> pageNum < reply.value.totalPages)
    ensures reply.None? ==> r.users == s.users && r.hasMore == s.hasMore
  {
    var t := s.(loadingMore := false, initialLoading := if append then s.initialLoading else false);
    match reply
    case Some(resp) => t.(users := P.Merge(s.users, resp.users, !append), hasMore := pageNum < resp.totalPages)
    case None => t
  }

  /** `loadMore`: the page counter advances, then that page is appended. */
  function LoadMore(s: People, reply: Option<PeopleResponse>): (r: People)
    ensures r.page == s.page + 1
    ensures reply.Some? ==> r.users == s.users + reply.value.users
  {
    FetchUsers(s.(page := s.page + 1), s.page + 1, true, reply)
  }

  /** The optimistic half of `handleFollow`: the id is marked before the
      request is sent. */
  function FollowStarted(s: People, id: UserId): (r: People)
    ensures r.following == s.following + {id}
    ensures r.(following := s.following) == s
  {
    s.(following := s.following + {id})
  }

  /** The rollback after a failed request: the id is unmarked. */
  function FollowFailed(s: People, id: UserId): (r: People)
    ensures r.following == s.following - {id}
    ensures r.(following := s.following) == s
  {
    s.(following := s.following - {id})
  }

  /** The whole of `handleFollow`, given whether the request succeeded. */
  function Follow(s: People, id: UserId, ok: bool): (r: People)
    ensures ok ==> r.following == s.following + {id}
    ensures !ok ==> r.following == s.following - {id}
    ensures r.users == s.users
    ensures r.(following := s.following) == s
  {
    var t := FollowStarted(s, id);
    if ok then t else FollowFailed(t, id)
  }

  /** A card shows "following" exactly for ids in the set. */
  function IsFollowing(s: People, u: User): (r: bool)
    ensures r <==> u.id in s.following
  {
    u.id in s.following
  }

  /** A failed follow unmarks the user even when they had been marked by an
      earlier follow that succeeded. */
  lemma FailedFollowForgetsEarlierFollow(s: People, u: User)
    ensures !IsFollowing(Follow(Follow(s, u.id, true), u.id, false), u)
  {
  }

  /** A follow, whatever its outcome, never changes another card. */
  lemma FollowTouchesOneCard(s: People, id: UserId, ok: bool, u: User)
    requires u.id != id
    ensures IsFollowing(Follow(s, id, ok), u) == IsFollowing(s, u)
  {
  }

  /** Pressing Load More once per reply, in order. */
  function LoadMoreAll(s: People, replies: seq<Option<PeopleResponse>>): People
    decreases |replies|
  {
    if replies == [] then s else LoadMoreAll(LoadMore(s, replies[0]), replies[1..])
  }

  /** The pages among the replies that arrived, in order. */
  function Delivered(replies: seq<Option<PeopleResponse>>): seq<seq<User>>
    decreases |replies|
  {
    if replies == [] then []
    else (if replies[0].Some? then [replies[0].value.users] else []) + Delivered(replies[1..])
  }

  /** Every press advances the page counter, every page that arrives is
      appended in order, and the follow marks are untouched. */
  lemma {:induction false} LoadMoreAllAppends(s: People, replies: seq<Option<PeopleResponse>>)
    ensures var t := LoadMoreAll(s, replies);
      && t.users == s.users + P.Concat(Delivered(replies))
      && t.page == s.page + |replies|
      && t.following == s.following
    decreases |replies|
  {
    if replies != [] {
      var t1 := LoadMore(s, replies[0]);
      LoadMoreAllAppends(t1, replies[1..]);
      if replies[0].Some? {
        P.ConcatCons(replies[0].value.users, Delivered(replies[1..]));
      } else {
        assert [] + Delivered(replies[1..]) == Delivered(replies[1..]);
      }
    }
  }

  /** The first page and every later page that arrived end up listed in
      order. */
  lemma PagesAccumulate(s: People, first: PeopleResponse, replies: seq<Option<PeopleResponse>>)
    ensures var t := LoadMoreAll(FetchUsers(s, 1, false, Some(first)), replies);
      t.users == P.Concat([first.users] + Delivered(replies)) && t.page == s.page + |replies|
  {
    LoadMoreAllAppends(FetchUsers(s, 1, false, Some(first)), replies);
    P.ConcatCons(first.users, Delivered(replies));
  }
}

=== FILE: profile_page.dfy ===
/** The profile page's post list and following list. Its fetch and delete
    behave as the hook's; its edit merges only the edited fields into the
    listed post instead of taking the server's copy. */
module ProfilePage {
  import opened Common
  import P = PagedList
  import T = UseTweets

  datatype State = State(list: T.State, following: seq<User>)

  function UserIdOf(u: User): string { u.id }

  /** `fetchTweets`: page 1 replaces the posts, other pages are appended,
      the pagination mirrors the response; the following list is kept. */
  function FetchTweets(s: State, page: int, reply: P.Reply<T.Response>): (r: State)
    ensures r.following == s.following && !r.list.loading
    ensures reply.Served? ==> r.list.tweets == P.Merge(s.list.tweets, reply.value.tweets, page == 1)
    ensures reply.Served? ==> r.list.pagination.page == reply.value.page && r.list.pagination.totalPages == reply.value.totalPages
    ensures reply.Refused? ==> r.list.tweets == s.list.tweets && r.list.error == Some(OrElse(reply.message, "Failed to fetch tweets"))
  {
    s.(list := T.FetchTweets(s.list, page, reply))
  }

  /** `deleteTweet`: exactly the posts with that id go, after the server
      agreed. */
  function DeleteTweet(s: State, id: string, reply: P.Reply<()>): (r: State)
    ensures reply.Served? ==> forall t :: t in r.list.tweets <==> t in s.list.tweets && t.id != id
    ensures reply.Served? ==> r.list.tweets == P.Without(s.list.tweets, T.TweetId, id) && r.list.error == s.list.error
    ensures reply.Refused? ==> r.list.tweets == s.list.tweets && r.list.error == Some(OrElse(reply.message, "Failed to delete tweet"))
    ensures r.list.pagination == s.list.pagination && r.list.loading == s.list.loading
    ensures r.following == s.following
  {
    s.(list := T.DeleteTweet(s.list, id, reply))
  }

  /** The local edit: the new text and privacy go into the listed post; its
      id, dates and author are kept. */
  function ApplyEdit(t: Tweet, text: string, isPrivate: bool): (r: Tweet)
    ensures r.text == text && r.isPrivate == isPrivate
    ensures r.id == t.id && r.createdAt == t.createdAt && r.updatedAt == t.updatedAt && r.author == t.author
  {
    t.(text := text, isPrivate := isPrivate)
  }

  /** `updateTweet`: after the server accepts the edit, every listed post
      with that id takes the new text and privacy and keeps its other
      fields, whatever the server sent back; the server's copy is returned.
      A failure keeps the list and rethrows (None). */
  function UpdateTweet(s: State, id: string, text: string, isPrivate: bool, reply: P.Reply<Tweet>): (r: (State, Option<Tweet>))
    ensures reply.Served? ==>
      && r.1 == Some(reply.value)
      && |r.0.list.tweets| == |s.list.tweets|
      && (forall k :: 0 <= k < |s.list.tweets| && s.list.tweets[k].id == id ==>
            r.0.list.tweets[k] == ApplyEdit(s.list.tweets[k], text, isPrivate))
      && (forall k :: 0 <= k < |s.list.tweets| && s.list.tweets[k].id != id ==>
            r.0.list.tweets[k] == s.list.tweets[k])
    ensures reply.Refused? ==> r.1.None? && r.0.list.tweets == s.list.tweets && r.0.list.error == Some(OrElse(reply.message, "Failed to update tweet"))
    ensures r.0.following == s.following
  {
    match reply
    case Served(t) =>
      (s.(list := s.list.(tweets := P.Rewrite(s.list.tweets, T.TweetId, id, x => ApplyEdit(x, text, isPrivate)))), Some(t))
    case Refused(message) =>
      (s.(list := s.list.(error := Some(OrElse(message, "Failed to update tweet")))), None)
  }

  /** `handleUnfollow`: exactly that user leaves the following list. */
  function Unfollow(s: State, userId: string): (r: State)
    ensures forall u :: u in r.following <==> u in s.following && u.id != userId
    ensures r.following == P.Without(s.following, UserIdOf, userId)
    ensures r.list == s.list
  {
    s.(following := P.Without(s.following, UserIdOf, userId))
  }

  /** The Load More button is rendered under a non-empty list while the
      server reports more pages. */
  function LoadMoreShown(s: State): (r: bool)
    ensures r <==> |s.list.tweets| > 0 && s.list.pagination.page < s.list.pagination.totalPages
  {
    |s.list.tweets| > 0 && s.list.pagination.page < s.list.pagination.totalPages
  }

  /** A shown button always fetches: its guard is the same comparison. */
  lemma ShownButtonFetches(s: State)
    requires LoadMoreShown(s)
    ensures T.LoadMore(s.list) == Some(s.list.pagination.page + 1)
  {
  }

  /** Editing a post and then deleting it leaves the list deleting alone
      would leave: the local edit keeps ids. */
  lemma EditThenDelete(s: State, id: string, text: string, isPrivate: bool, t: Tweet)
    ensures var edited := UpdateTweet(s, id, text, isPrivate, P.Served(t)).0;
      DeleteTweet(edited, id, P.Served(())).list.tweets == DeleteTweet(s, id, P.Served(())).list.tweets
  {
    P.RewriteThenRemove(s.list.tweets, T.TweetId, id, x => ApplyEdit(x, text, isPrivate));
  }

  /** Unlike the hook, the page keeps the listed post's creation date even
      when the server's copy carries another. */
  lemma EditKeepsListedDates(s: State, k: int, text: string, isPrivate: bool, t: Tweet)
    requires 0 <= k < |s.list.tweets|
    ensures var id := s.list.tweets[k].id;
      && UpdateTweet(s, id, text, isPrivate, P.Served(t)).0.list.tweets[k].createdAt == s.list.tweets[k].createdAt
      && T.UpdateTweet(s.list, id, P.Served(t)).0.tweets[k] == t
  {
  }

  /** Unfollowing twice is unfollowing once. */
  lemma UnfollowIdempotent(s: State, userId: string)
    ensures Unfollow(Unfollow(s, userId), userId) == Unfollow(s, userId)
  {
    P.WithoutIdempotent(s.following, UserIdOf, userId);
  }
}

=== FILE: tweet_item.dfy ===
/** A post in the owner's own list: the relative date label, the author line
    (read from the logged-in user), the edit buffer with its save and cancel
    rules, and the delete confirmation. */
module TweetItem {
  import opened Common

  const MsPerMinute: int := 60000

  /** What `formatDate` shows. `LocaleDate` is the `toLocaleDateString`
      rendering, whose text is not modelled. */
  datatype DateLabel = Now | Minutes(m: int) | Hours(h: int) | Days(d: int) | LocaleDate

  /** `formatDate`, as written: minutes, hours and days are floored one
      from the other, and the buckets are tested in order. `elapsedMs` is
      the current instant minus the post's instant. */
  function FormatDate(elapsedMs: int): DateLabel {
    var mins := elapsedMs / MsPerMinute;
    var hours := mins / 60;
    var days := hours / 24;
    if mins < 1 then Now
    else if mins < 60 then Minutes(mins)
    else if hours < 24 then Hours(hours)
    else if days < 7 then Days(days)
    else LocaleDate
  }

  /** The label for an elapsed time, stated directly on milliseconds. */
  function ElapsedLabel(elapsedMs: int): DateLabel {
    if elapsedMs < 60000 then Now
    else if elapsedMs < 3600000 then Minutes(elapsedMs / 60000)
    else if elapsedMs < 86400000 then Hours(elapsedMs / 3600000)
    else if elapsedMs < 604800000 then Days(elapsedMs / 86400000)
    else LocaleDate
  }

  /** The chained floors agree with the direct statement for every elapsed
      time, future instants included. */
  lemma FormatDateIsElapsedLabel(elapsedMs: int)
    ensures FormatDate(elapsedMs) == ElapsedLabel(elapsedMs)
  {
    var mins := elapsedMs / 60000;
    var hours := mins / 60;
    FloorDivTwice(elapsedMs, 60000, 60);
    FloorDivTwice(elapsedMs, 3600000, 24);
    FloorDivBelow(elapsedMs, 60000, 1);
    FloorDivBelow(elapsedMs, 60000, 60);
    FloorDivBelow(elapsedMs, 3600000, 24);
    FloorDivBelow(elapsedMs, 86400000, 7);
  }

  /** A post dated in the future reads "now". */
  lemma FutureIsNow(elapsedMs: int)
    requires elapsedMs < 0
    ensures FormatDate(elapsedMs) == Now
  {
    FormatDateIsElapsedLabel(elapsedMs);
  }

  /** The counts shown lie in their buckets' ranges. */
  lemma LabelRanges(elapsedMs: int)
    ensures FormatDate(elapsedMs).Minutes? ==> 1 <= FormatDate(elapsedMs).m < 60
    ensures FormatDate(elapsedMs).Hours? ==> 1 <= FormatDate(elapsedMs).h < 24
    ensures FormatDate(elapsedMs).Days? ==> 1 <= FormatDate(elapsedMs).d < 7
  {
  }

  /** The label text; `locale` stands for the locale date rendering. */
  function LabelText(l: DateLabel, locale: string): (r: string)
    ensures l.Now? ==> r == "now"
    ensures l.Minutes? ==> r == IntToDecimal(l.m) + "m"
    ensures l.Hours? ==> r == IntToDecimal(l.h) + "h"
    ensures l.Days? ==> r == IntToDecimal(l.d) + "d"
    ensures l.LocaleDate? ==> r == locale
  {
    match l
    case Now => "now"
    case Minutes(m) => IntToDecimal(m) + "m"
    case Hours(h) => IntToDecimal(h) + "h"
    case Days(d) => IntToDecimal(d) + "d"
    case LocaleDate => locale
  }

  /** The author line shows the logged-in user's full name and username,
      with "Unknown User" and "unknown" when absent or empty. */
  function AuthorLine(loggedIn: Option<User>): (r: (string, string))
    ensures loggedIn.Some? && loggedIn.value.fullName != "" ==> r.0 == loggedIn.value.fullName
    ensures loggedIn.Some? && loggedIn.value.username != "" ==> r.1 == loggedIn.value.username
    ensures loggedIn.None? || loggedIn.value.fullName == "" ==> r.0 == "Unknown User"
    ensures loggedIn.None? || loggedIn.value.username == "" ==> r.1 == "unknown"
  {
    var name := if loggedIn.Some? then Some(loggedIn.value.fullName) else None;
    var handle := if loggedIn.Some? then Some(loggedIn.value.username) else None;
    (OrElse(name, "Unknown User"), OrElse(handle, "unknown"))
  }

  // -----------------------------------------------------------------------
  // Edit buffer
  // -----------------------------------------------------------------------

  datatype Editor = Editor(
    isEditing: bool,
    editText: string,
    editIsPrivate: bool,
    isUpdating: bool,
    showDeleteDialog: bool)

  /** The component's state when it mounts for `tweet`. */
  function Mount(tweet: Tweet): Editor {
    Editor(false, tweet.text, tweet.isPrivate, false, false)
  }

  /** `handleEdit`: the buffer is loaded from the post and edit mode entered. */
  function Edit(e: Editor, tweet: Tweet): (r: Editor)
    ensures r.isEditing && r.editText == tweet.text && r.editIsPrivate == tweet.isPrivate
    ensures r.isUpdating == e.isUpdating && r.showDeleteDialog == e.showDeleteDialog
  {
    e.(editText := tweet.text, editIsPrivate := tweet.isPrivate, isEditing := true)
  }

  /** The update request a save sends. */
  datatype Update = Update(id: string, text: string, isPrivate: bool)

  /** `handleSave`: a buffer that trims to nothing sends nothing. Otherwise
      the trimmed text and the privacy flag are sent, and edit mode ends only
      when the update succeeds (`ok`). The buffer is kept untrimmed. */
  function Save(e: Editor, tweet: Tweet, ok: bool): (r: (Editor, Option<Update>))
    ensures AllSpace(e.editText) ==> r == (e, None)
    ensures !AllSpace(e.editText) ==>
      && r.1 == Some(Update(tweet.id, Trim(e.editText), e.editIsPrivate))
      && r.0.isEditing == (e.isEditing && !ok)
      && !r.0.isUpdating
      && r.0.editText == e.editText && r.0.editIsPrivate == e.editIsPrivate
      && r.0.showDeleteDialog == e.showDeleteDialog
  {
    TrimEmptyIffAllSpace(e.editText);
    if Trim(e.editText) == "" then (e, None)
    else
      var sent := Update(tweet.id, Trim(e.editText), e.editIsPrivate);
      (e.(isEditing := if ok then false else e.isEditing, isUpdating := false), Some(sent))
  }

  /** `handleCancel`: the buffer is restored from the post and edit mode
      left. */
  function Cancel(e: Editor, tweet: Tweet): (r: Editor)
    ensures !r.isEditing && r.editText == tweet.text && r.editIsPrivate == tweet.isPrivate
    ensures r.(editText := e.editText, editIsPrivate := e.editIsPrivate, isEditing := e.isEditing) == e
  {
    e.(editText := tweet.text, editIsPrivate := tweet.isPrivate, isEditing := false)
  }

  /** Save is enabled while not updating and with a non-blank buffer. */
  function SaveEnabled(e: Editor): (r: bool)
    ensures r <==> !e.isUpdating && !AllSpace(e.editText)
  {
    TrimEmptyIffAllSpace(e.editText);
    !e.isUpdating && Trim(e.editText) != ""
  }

  /** Editing and then cancelling leaves the buffer as the post. */
  lemma EditThenCancel(e: Editor, tweet: Tweet)
    ensures Cancel(Edit(e, tweet), tweet) == e.(editText := tweet.text, editIsPrivate := tweet.isPrivate, isEditing := false)
  {
  }

  /** Saving a buffer whose text is already trimmed sends it unchanged. */
  lemma SaveSendsTrimmed(e: Editor, tweet: Tweet, ok: bool)
    requires !AllSpace(e.editText)
    ensures var u := Save(e, tweet, ok).1.value;
      Trim(u.text) == u.text && u.text != ""
  {
    TrimIdempotent(e.editText);
    TrimEmptyIffAllSpace(e.editText);
  }

  // -----------------------------------------------------------------------
  // Delete dialog
  // -----------------------------------------------------------------------

  datatype DialogAction = OpenDialog | DismissDialog | ConfirmDelete

  /** The delete dialog: the menu opens it, Cancel closes it, and Delete
      asks the parent to delete this post and closes it. Only the confirm
      button produces a delete request. */
  function DeleteDialog(e: Editor, tweet: Tweet, a: DialogAction): (r: (Editor, Option<string>))
    ensures r.1.Some? <==> a == ConfirmDelete
    ensures r.1.Some? ==> r.1.value == tweet.id
    ensures r.0.showDeleteDialog <==> a == OpenDialog
    ensures r.0.(showDeleteDialog := e.showDeleteDialog) == e
  {
    match a
    case OpenDialog => (e.(showDeleteDialog := true), None)
    case DismissDialog => (e.(showDeleteDialog := false), None)
    case ConfirmDelete => (e.(showDeleteDialog := false), Some(tweet.id))
  }
}

=== FILE: use_tweets.dfy ===
/** The hook behind the user's own post list: paged fetching, deletion and
    editing by id, and the Load More guard. Each request is taken as one
    step from start to completion. */
module UseTweets {
  import opened Common
  import P = PagedList

  datatype Pagination = Pagination(page: int, pageSize: int, total: int, totalPages: int)

  /** A page of posts as the server sends it. */
  datatype Response = Response(tweets: seq<Tweet>, page: int, pageSize: int, total: int, totalPages: int)

  datatype State = State(tweets: seq<Tweet>, loading: bool, error: Option<string>, pagination: Pagination)

  const Initial: State := State([], false, None, Pagination(1, 10, 0, 0))

  function TweetId(t: Tweet): string { t.id }

  /** `fetchTweets(page)`: page 1 replaces the list, any other page is
      appended; the pagination is copied from the response. A failure keeps
      the list and the pagination and reports the server's message, else a
      fixed text. */
  function FetchTweets(s: State, page: int, reply: P.Reply<Response>): (r: State)
    ensures !r.loading
    ensures reply.Served? && page == 1 ==> r.tweets == reply.value.tweets
    ensures reply.Served? && page != 1 ==> r.tweets == s.tweets + reply.value.tweets
    ensures reply.Served? ==>
      && r.error.None?
      && r.pagination == Pagination(reply.value.page, reply.value.pageSize, reply.value.total, reply.value.totalPages)
    ensures reply.Refused? ==>
      && r.tweets == s.tweets && r.pagination == s.pagination
      && r.error == Some(OrElse(reply.message, "Failed to fetch tweets"))
  {
    match reply
    case Served(data) =>
      State(P.Merge(s.tweets, data.tweets, page == 1), false, None,
            Pagination(data.page, data.pageSize, data.total, data.totalPages))
    case Refused(message) =>
      s.(loading := false, error := Some(OrElse(message, "Failed to fetch tweets")))
  }

  /** `deleteTweet`: the list loses exactly the posts with that id, in order,
      and only once the server agreed. */
  function DeleteTweet(s: State, id: string, reply: P.Reply<()>): (r: State)
    ensures reply.Served? ==> r.tweets == P.Without(s.tweets, TweetId, id) && r.error == s.error
    ensures reply.Served? ==> forall t :: t in r.tweets <==> t in s.tweets && t.id != id
    ensures reply.Refused? ==> r.tweets == s.tweets && r.error == Some(OrElse(reply.message, "Failed to delete tweet"))
    ensures r.pagination == s.pagination && r.loading == s.loading
  {
    match reply
    case Served(_) => s.(tweets := P.Without(s.tweets, TweetId, id))
    case Refused(message) => s.(error := Some(OrElse(message, "Failed to delete tweet")))
  }

  /** `updateTweet`: every post with that id is replaced by the server's
      copy, the rest are kept; the copy is returned. A failure keeps the
      list, reports the error and rethrows (None). */
  function UpdateTweet(s: State, id: string, reply: P.Reply<Tweet>): (r: (State, Option<Tweet>))
    ensures reply.Served? ==>
      && r.1 == Some(reply.value)
      && |r.0.tweets| == |s.tweets|
      && (forall k :: 0 <= k < |s.tweets| ==> r.0.tweets[k] == if s.tweets[k].id == id then reply.value else s.tweets[k])
    ensures reply.Refused? ==>
      && r.1.None? && r.0.tweets == s.tweets
      && r.0.error == Some(OrElse(reply.message, "Failed to update tweet"))
  {
    match reply
    case Served(t) => (s.(tweets := P.Rewrite(s.tweets, TweetId, id, _ => t)), Some(t))
    case Refused(message) => (s.(error := Some(OrElse(message, "Failed to update tweet"))), None)
  }

  /** `loadMore`: the next page, only while the server reports more pages. */
  function LoadMore(s: State): (r: Option<int>)
    ensures r.Some? <==> s.pagination.page < s.pagination.totalPages
    ensures r.Some? ==> r.value == s.pagination.page + 1
  {
    if s.pagination.page < s.pagination.totalPages then Some(s.pagination.page + 1) else None
  }

  /** Load More after a page that reported more pages appends the next page
      to what is listed. */
  lemma LoadMoreAppends(s: State, page: int, first: Response, next: Response)
    requires first.page >= 1 && first.page < first.totalPages
    ensures var t := FetchTweets(s, page, P.Served(first));
      && LoadMore(t) == Some(first.page + 1)
      && FetchTweets(t, first.page + 1, P.Served(next)).tweets == t.tweets + next.tweets
  {
  }

  /** Pressing Load More once per reply, in order, for as long as the
      button's guard lets the press through. */
  function LoadMoreAll(s: State, replies: seq<P.Reply<Response>>): State
    decreases |replies|
  {
    if replies == [] then s
    else match LoadMore(s)
      case None => s
      case Some(next) => LoadMoreAll(FetchTweets(s, next, replies[0]), replies[1..])
  }

  /** The pages among the replies that were served, in order. */
  function Delivered(replies: seq<P.Reply<Response>>): seq<seq<Tweet>>
    decreases |replies|
  {
    if replies == [] then []
    else (if replies[0].Served? then [replies[0].value.tweets] else []) + Delivered(replies[1..])
  }

  /** A server that serves the pages after `page` one by one, each reporting
      more pages except possibly the last. */
  predicate Consecutive(page: int, replies: seq<P.Reply<Response>>) {
    forall k :: 0 <= k < |replies| ==>
      && replies[k].Served?
      && replies[k].value.page == page + k + 1
      && (k + 1 < |replies| ==> replies[k].value.page < replies[k].value.totalPages)
  }

  /** Against such a server, every press goes through, every page is
      appended in order, and the pagination is the last page's. */
  lemma {:induction false} LoadMoreAllAppends(s: State, replies: seq<P.Reply<Response>>)
    requires s.pagination.page >= 1
    requires replies != [] ==> s.pagination.page < s.pagination.totalPages
    requires Consecutive(s.pagination.page, replies)
    ensures var t := LoadMoreAll(s, replies);
      && t.tweets == s.tweets + P.Concat(Delivered(replies))
      && t.pagination.page == s.pagination.page + |replies|
      && (replies != [] ==> t.pagination.totalPages == replies[|replies| - 1].value.totalPages)
    decreases |replies|
  {
    if replies != [] {
      var next := s.pagination.page + 1;
      assert LoadMore(s) == Some(next);
      var t1 := FetchTweets(s, next, replies[0]);
      assert replies[0].Served? && replies[0].value.page == next;
      var rest := replies[1..];
      assert Consecutive(next, rest) by {
        forall k | 0 <= k < |rest|
          ensures rest[k].Served? && rest[k].value.page == next + k + 1
          ensures k + 1 < |rest| ==> rest[k].value.page < rest[k].value.totalPages
        {
          assert rest[k] == replies[k + 1];
        }
      }
      LoadMoreAllAppends(t1, rest);
      P.ConcatCons(replies[0].value.tweets, Delivered(rest));
      assert s.tweets + replies[0].value.tweets + P.Concat(Delivered(rest))
          == s.tweets + (replies[0].value.tweets + P.Concat(Delivered(rest)));
      if rest != [] {
        assert rest[|rest| - 1] == replies[|replies| - 1];
      }
    }
  }

  /** The first page and the Load More pages of such a server are listed
      in order. */
  lemma PagesAccumulate(s: State, first: Response, replies: seq<P.Reply<Response>>)
    requires first.page == 1
    requires replies != [] ==> first.page < first.totalPages
    requires Consecutive(1, replies)
    ensures LoadMoreAll(FetchTweets(s, 1, P.Served(first)), replies).tweets
         == P.Concat([first.tweets] + Delivered(replies))
  {
    LoadMoreAllAppends(FetchTweets(s, 1, P.Served(first)), replies);
    P.ConcatCons(first.tweets, Delivered(replies));
  }

  /** A failed edit loses nothing: the list is the one before. */
  lemma FailedUpdateKeepsList(s: State, id: string, message: Option<string>)
    ensures UpdateTweet(s, id, P.Refused(message)).0.tweets == s.tweets
    ensures UpdateTweet(s, id, P.Refused(message)).0.pagination == s.pagination
  {
  }
}

=== FILE: webrtc_audio.dfy ===
/** The client side of one audio room's peer mesh: the participant
    directory, the per-peer link registry (peer connection, mute side-channel,
    remote stream, analyser, audio level, playback element), the local
    capture stream and the local mute flag.

    Every operation is a pure step from a `Session` to a new `Session` plus
    the set of effects it emits: signalling envelopes handed to the room
    socket, mute messages written on side-channels, peer connections closed,
    playback elements attached or removed and the microphone released.
    Browser objects are opaque handles; an awaited negotiation step is an
    oracle `ok` that either succeeds or fails and is caught. */
module WebRtcAudio {
  import opened Common

  /** The captured microphone stream: one `enabled` flag per audio track. */
  datatype LocalStream = LocalStream(tracks: seq<bool>)

  /** A directory entry. `isCreator` is false where `handleUserJoined` and
      the `existing_participants` handler leave it unset. */
  datatype Participant = Participant(user: User, isMuted: bool, audioLevel: real, isCreator: bool)

  /** What the model tracks of one RTCPeerConnection: how many local tracks
      were added to it and which negotiation steps have been applied. */
  datatype PeerLink = PeerLink(attachedTracks: nat, localDescription: bool, remoteDescription: bool, appliedCandidates: nat)

  /** Each link has the side-channel this client created and, once the peer
      opens its own, the one accepted through `ondatachannel`. Both register
      under the same peer id. */
  datatype ChannelOrigin = Created | Accepted
  datatype ReadyState = Open | Closing
  datatype Channel = Channel(origin: ChannelOrigin, readyState: ReadyState)

  /** Payload received on a side-channel. */
  datatype SideMessage = MuteStatus(isMuted: bool) | OtherType | Unparseable

  type Byte = b: int | 0 <= b < 256

  /** `fftSize` is 256, so every analyser frame has 128 frequency bins. */
  const FrequencyBinCount: nat := 128

  /** One frame of byte frequency data. */
  type Spectrum = s: seq<Byte> | |s| == FrequencyBinCount witness seq(128, _ => 0)

  datatype Effect =
    | SendSignal(signalType: SignalType, target: UserId)
    | SendMuteStatus(target: UserId, isMuted: bool)
    | ClosePeer(id: UserId)
    | AttachPlayback(id: UserId)
    | RemovePlayback(id: UserId)
    | ReleaseMicrophone

  /** `playback` counts the `<audio id="audio-<id>">` elements in the page
      per peer id: every arriving track appends one, and a removal by
      `getElementById` takes away only the first one found. */
  datatype Session = Session(
    participants: map<UserId, Participant>,
    peers: map<UserId, PeerLink>,
    channels: map<UserId, Channel>,
    remoteStreams: map<UserId, nat>,
    analysers: map<UserId, nat>,
    audioLevels: map<UserId, real>,
    playback: multiset<UserId>,
    localStream: Option<LocalStream>,
    isMuted: bool,
    isAudioEnabled: bool)

  datatype Step = Step(session: Session, effects: set<Effect>)

  /** The hook's state when it mounts: nothing known, muted, no capture. */
  const Initial: Session :=
    Session(map[], map[], map[], map[], map[], map[], multiset{}, None, true, false)

  function Ids(users: seq<User>): set<UserId> {
    set u | u in users :: u.id
  }

  /** A freshly inserted directory entry. */
  function Fresh(user: User, isCreator: bool): Participant {
    Participant(user, true, 0.0, isCreator)
  }

  /** Holds for a directory entry exactly as every insertion path makes it
      from `user`: the whole user record, muted, at level 0. */
  predicate IsFresh(p: Participant, user: User) {
    p.user == user && p.isMuted && p.audioLevel == 0.0
  }

  /** The position of the first listed user with id `id`. */
  function FirstIndexOf(users: seq<User>, id: UserId): (k: nat)
    requires id in Ids(users)
    ensures k < |users| && users[k].id == id
    ensures forall j :: 0 <= j < k ==> users[j].id != id
    decreases |users|
  {
    if users[0].id == id then 0
    else
      assert id in Ids(users[1..]) by {
        var u :| u in users && u.id == id;
        var i :| 0 <= i < |users| && users[i] == u;
        assert users[1..][i - 1] == u;
      }
      FirstIndexOf(users[1..], id) + 1
  }

  /** The position of the last listed user with id `id`. */
  function LastIndexOf(users: seq<User>, id: UserId): (k: nat)
    requires id in Ids(users)
    ensures k < |users| && users[k].id == id
    ensures forall j :: k < j < |users| ==> users[j].id != id
    decreases |users|
  {
    if id in Ids(users[1..]) then LastIndexOf(users[1..], id) + 1
    else
      assert forall j :: 0 < j < |users| ==> users[j] == users[1..][j - 1];
      assert users[0].id == id by {
        var u :| u in users && u.id == id;
        var i :| 0 <= i < |users| && users[i] == u;
      }
      0
  }

  // -----------------------------------------------------------------------
  // Directory writes
  // -----------------------------------------------------------------------

  /** `initializeCurrentUser`: insert or overwrite the local user's entry. */
  function InitializeCurrentUser(s: Session, user: User, isCreator: bool): (r: Session)
    ensures user.id in r.participants && IsFresh(r.participants[user.id], user)
    ensures r.participants[user.id].isCreator == isCreator
    ensures SameOutside(s.participants, r.participants, {user.id})
    ensures r.(participants := s.participants) == s
  {
    s.(participants := s.participants[user.id := Fresh(user, isCreator)])
  }

  /** The roster loop of `initializeExistingParticipants`: every listed user
      is (over)written, creator exactly when the id is the creator id; when
      an id is listed twice the later user record wins. */
  function SetRoster(m: map<UserId, Participant>, users: seq<User>, creatorId: UserId): (r: map<UserId, Participant>)
    ensures r.Keys == m.Keys + Ids(users)
    ensures forall id :: id in Ids(users) ==> IsFresh(r[id], users[LastIndexOf(users, id)]) && (r[id].isCreator <==> id == creatorId)
    ensures forall id :: id in m && id !in Ids(users) ==> r[id] == m[id]
    decreases |users|
  {
    if users == [] then m
    else
      var u := users[0];
      assert Ids(users) == {u.id} + Ids(users[1..]) by {
        assert forall v :: v in users <==> v == u || v in users[1..];
      }
      SetRoster(m[u.id := Fresh(u, u.id == creatorId)], users[1..], creatorId)
  }

  function InitializeExistingParticipants(s: Session, users: seq<User>, creatorId: UserId): (r: Session)
    ensures r.participants.Keys == s.participants.Keys + Ids(users)
    ensures forall id :: id in Ids(users) ==>
      IsFresh(r.participants[id], users[LastIndexOf(users, id)]) && (r.participants[id].isCreator <==> id == creatorId)
    ensures SameOutside(s.participants, r.participants, Ids(users))
    ensures r.(participants := s.participants) == s
  {
    s.(participants := SetRoster(s.participants, users, creatorId))
  }

  /** The `existing_participants` loop: only ids not yet present are added,
      never as creator; present entries are kept as they are, so when an id
      is listed twice the earlier user record wins. */
  function InsertAbsent(m: map<UserId, Participant>, users: seq<User>): (r: map<UserId, Participant>)
    ensures r.Keys == m.Keys + Ids(users)
    ensures forall id :: id in m ==> r[id] == m[id]
    ensures forall id :: id in Ids(users) && id !in m ==> IsFresh(r[id], users[FirstIndexOf(users, id)]) && !r[id].isCreator
    decreases |users|
  {
    if users == [] then m
    else
      var u := users[0];
      assert Ids(users) == {u.id} + Ids(users[1..]) by {
        assert forall v :: v in users <==> v == u || v in users[1..];
      }
      var m' := if u.id in m then m else m[u.id := Fresh(u, false)];
      var r := InsertAbsent(m', users[1..]);
      InsertAbsentHead(m, users, m', r);
      r
  }

  /** The step of `InsertAbsent`: the head user is inserted when absent, and
      every later first occurrence is one position further on. */
  lemma InsertAbsentHead(m: map<UserId, Participant>, users: seq<User>, m': map<UserId, Participant>, r: map<UserId, Participant>)
    requires users != [] && Ids(users) == {users[0].id} + Ids(users[1..])
    requires m' == if users[0].id in m then m else m[users[0].id := Fresh(users[0], false)]
    requires forall id :: id in m' ==> id in r && r[id] == m'[id]
    requires forall id :: id in Ids(users[1..]) && id !in m' ==>
      id in r && IsFresh(r[id], users[1..][FirstIndexOf(users[1..], id)]) && !r[id].isCreator
    ensures forall id :: id in Ids(users) && id !in m ==> id in r && IsFresh(r[id], users[FirstIndexOf(users, id)]) && !r[id].isCreator
  {
    forall id | id in Ids(users) && id !in m
      ensures id in r && IsFresh(r[id], users[FirstIndexOf(users, id)]) && !r[id].isCreator
    {
      if id != users[0].id {
        assert users[FirstIndexOf(users, id)] == users[1..][FirstIndexOf(users[1..], id)];
      }
    }
  }

  /** The `existing_participants` event: a missing or empty list is ignored. */
  function ExistingParticipants(s: Session, users: Option<seq<User>>): (r: Session)
    ensures users.None? || users.value == [] ==> r == s
    ensures users.Some? ==> r.participants.Keys == s.participants.Keys + Ids(users.value)
    ensures forall id :: id in s.participants ==> id in r.participants && r.participants[id] == s.participants[id]
    ensures users.Some? ==> forall id :: id in Ids(users.value) && id !in s.participants ==>
      IsFresh(r.participants[id], users.value[FirstIndexOf(users.value, id)]) && !r.participants[id].isCreator
    ensures r.(participants := s.participants) == s
  {
    if users.Some? && |users.value| > 0 then s.(participants := InsertAbsent(s.participants, users.value))
    else s
  }

  /** `updateCurrentUserMuteStatus`, and the side-channel handlers: set the
      `isMuted` field of an existing entry; an unknown id changes nothing. */
  function SetMuted(m: map<UserId, Participant>, id: UserId, muted: bool): (r: map<UserId, Participant>)
    ensures r.Keys == m.Keys
    ensures id in m ==> r[id].isMuted == muted && r[id].(isMuted := m[id].isMuted) == m[id]
    ensures SameOutside(m, r, {id})
    ensures id !in m ==> r == m
  {
    if id in m then m[id := m[id].(isMuted := muted)] else m
  }

  function UpdateCurrentUserMuteStatus(s: Session, id: UserId, muted: bool): (r: Session)
    ensures r.participants == SetMuted(s.participants, id, muted)
    ensures r.(participants := s.participants) == s
  {
    s.(participants := SetMuted(s.participants, id, muted))
  }

  /** A message arriving on either side-channel of the link to `id`. */
  function ReceiveSideMessage(s: Session, id: UserId, msg: SideMessage): (r: Session)
    ensures msg.MuteStatus? ==> r.participants == SetMuted(s.participants, id, msg.isMuted)
    ensures !msg.MuteStatus? ==> r == s
    ensures r.(participants := s.participants) == s
  {
    match msg
    case MuteStatus(b) => s.(participants := SetMuted(s.participants, id, b))
    case _ => s
  }

  // -----------------------------------------------------------------------
  // Local capture and mute
  // -----------------------------------------------------------------------

  /** The channels a broadcast writes to: those whose readyState is "open". */
  function OpenChannels(channels: map<UserId, Channel>): set<UserId> {
    set id | id in channels && channels[id].readyState == Open
  }

  /** `broadcastMuteStatus`: one mute message per open side-channel. */
  function BroadcastMuteStatus(channels: map<UserId, Channel>, muted: bool): (r: set<Effect>)
    ensures forall e :: e in r <==> e.SendMuteStatus? && e.isMuted == muted && e.target in OpenChannels(channels)
  {
    set id | id in OpenChannels(channels) :: SendMuteStatus(id, muted)
  }

  function AddTracks(peers: map<UserId, PeerLink>, n: nat): (r: map<UserId, PeerLink>)
    ensures r.Keys == peers.Keys
    ensures forall id :: id in r ==> r[id].attachedTracks == peers[id].attachedTracks + n
    ensures forall id :: id in r ==> r[id].(attachedTracks := peers[id].attachedTracks) == peers[id]
  {
    map id | id in peers :: peers[id].(attachedTracks := peers[id].attachedTracks + n)
  }

  /** `startAudioStream`. `grant` is what `getUserMedia` yields: the number of
      tracks of the new stream, or None when it throws (the state is then
      unchanged and the caller sees the exception, modelled as None). */
  function StartAudioStream(s: Session, grant: Option<nat>): (r: Option<Session>)
    ensures r.Some? <==> grant.Some?
    ensures r.Some? ==> var t := r.value;
      && t.isAudioEnabled
      && t.localStream.Some?
      && |t.localStream.value.tracks| == grant.value
      && (forall k :: 0 <= k < |t.localStream.value.tracks| ==> !t.localStream.value.tracks[k])
      && t.peers.Keys == s.peers.Keys
      && (forall id :: id in t.peers ==> t.peers[id].attachedTracks == s.peers[id].attachedTracks + grant.value)
      && (forall id :: id in t.peers ==> t.peers[id].(attachedTracks := s.peers[id].attachedTracks) == s.peers[id])
      && t.(localStream := s.localStream, isAudioEnabled := s.isAudioEnabled, peers := s.peers) == s
  {
    match grant
    case None => None
    case Some(n) =>
      Some(s.(localStream := Some(LocalStream(seq(n, _ => false))),
              isAudioEnabled := true,
              peers := AddTracks(s.peers, n)))
  }

  /** `stopAudioStream`: a no-op without a stream; otherwise the tracks are
      stopped and both flags cleared (note: `isMuted` becomes false). */
  function StopAudioStream(s: Session): (r: Step)
    ensures s.localStream.None? ==> r == Step(s, {})
    ensures s.localStream.Some? ==>
      && r.session.localStream.None? && !r.session.isAudioEnabled && !r.session.isMuted
      && r.effects == {ReleaseMicrophone}
      && r.session.(localStream := s.localStream, isAudioEnabled := s.isAudioEnabled, isMuted := s.isMuted) == s
  {
    if s.localStream.None? then Step(s, {})
    else Step(s.(localStream := None, isAudioEnabled := false, isMuted := false), {ReleaseMicrophone})
  }

  /** `toggleMute(currentUserId)`: with no stream nothing happens; otherwise
      the flag flips, every track gets `enabled = !muted`, the caller's own
      entry (when the id is truthy) follows, and the new value is sent on
      every open side-channel. */
  function ToggleMute(s: Session, currentUserId: Option<UserId>): (r: Step)
    ensures s.localStream.None? ==> r == Step(s, {})
    ensures s.localStream.Some? ==> var t := r.session;
      && t.isMuted == !s.isMuted
      && t.localStream.Some?
      && |t.localStream.value.tracks| == |s.localStream.value.tracks|
      && (forall k :: 0 <= k < |t.localStream.value.tracks| ==> t.localStream.value.tracks[k] == !t.isMuted)
      && t.participants == (if Truthy(currentUserId) then SetMuted(s.participants, currentUserId.value, t.isMuted) else s.participants)
      && (forall e :: e in r.effects <==> e.SendMuteStatus? && e.isMuted == t.isMuted && e.target in OpenChannels(s.channels))
      && t.(localStream := s.localStream, isMuted := s.isMuted, participants := s.participants) == s
  {
    if s.localStream.None? then Step(s, {})
    else
      var muted := !s.isMuted;
      var stream := LocalStream(seq(|s.localStream.value.tracks|, _ => !muted));
      var ps := if Truthy(currentUserId) then SetMuted(s.participants, currentUserId.value, muted) else s.participants;
      Step(s.(localStream := Some(stream), isMuted := muted, participants := ps), BroadcastMuteStatus(s.channels, muted))
  }

  /** Every local track's `enabled` flag agrees with the mute flag. */
  predicate TracksFollowMute(s: Session) {
    s.localStream.Some? ==> forall k :: 0 <= k < |s.localStream.value.tracks| ==> s.localStream.value.tracks[k] == !s.isMuted
  }

  // -----------------------------------------------------------------------
  // Signalling and the link registry
  // -----------------------------------------------------------------------

  /** A new link, with the local tracks added when a stream exists. */
  function NewLink(stream: Option<LocalStream>): PeerLink {
    PeerLink(if stream.Some? then |stream.value.tracks| else 0, false, false, 0)
  }

  /** `handleWebRTCSignal`: an offer from an unknown peer creates its link;
      any other signal from an unknown peer is dropped. With a link, an
      offer is answered (one answer to the sender), an answer is applied,
      a candidate is added. `ok` is false when an awaited step throws: the
      error is caught, nothing is sent and the link stays registered. */
  function HandleSignal(s: Session, from: UserId, kind: SignalType, ok: bool): (r: Step)
    ensures from !in s.peers && kind != Offer ==> r == Step(s, {})
    ensures r.effects == (if ok && kind == Offer then {SendSignal(Answer, from)} else {})
    ensures r.session.peers.Keys == (if from in s.peers || kind == Offer then s.peers.Keys + {from} else s.peers.Keys)
    ensures from !in s.peers && kind == Offer ==> r.session.peers[from].attachedTracks == NewLink(s.localStream).attachedTracks
    ensures ok && (from in s.peers || kind == Offer) && kind != IceCandidate ==> r.session.peers[from].remoteDescription
    // only the sender's link changes, and only in the step its kind applies
    ensures SameOutside(s.peers, r.session.peers, {from})
    ensures from in s.peers ==> r.session.peers[from].attachedTracks == s.peers[from].attachedTracks
    ensures !ok && from in s.peers ==> r.session.peers[from] == s.peers[from]
    ensures !ok && from !in s.peers && kind == Offer ==> r.session.peers[from] == NewLink(s.localStream)
    ensures ok && from !in s.peers && kind == Offer ==>
      r.session.peers[from] == NewLink(s.localStream).(remoteDescription := true, localDescription := true)
    ensures ok && from in s.peers && kind == Offer ==>
      r.session.peers[from] == s.peers[from].(remoteDescription := true, localDescription := true)
    ensures ok && from in s.peers && kind == Answer ==>
      r.session.peers[from] == s.peers[from].(remoteDescription := true)
    ensures ok && from in s.peers && kind == IceCandidate ==>
      r.session.peers[from] == s.peers[from].(appliedCandidates := s.peers[from].appliedCandidates + 1)
    ensures r.session.(peers := s.peers) == s
  {
    if from !in s.peers && kind != Offer then Step(s, {})
    else
      var pc := if from in s.peers then s.peers[from] else NewLink(s.localStream);
      if !ok then Step(s.(peers := s.peers[from := pc]), {})
      else
        match kind
        case Offer =>
          Step(s.(peers := s.peers[from := pc.(remoteDescription := true, localDescription := true)]), {SendSignal(Answer, from)})
        case Answer =>
          Step(s.(peers := s.peers[from := pc.(remoteDescription := true)]), {})
        case IceCandidate =>
          Step(s.(peers := s.peers[from := pc.(appliedCandidates := pc.appliedCandidates + 1)]), {})
  }

  /** `handleUserJoined`: a fresh entry (no creator flag) and a new link for
      the newcomer, then an offer to it unless creating the offer throws.
      An existing link for that id is replaced without being closed. */
  function HandleUserJoined(s: Session, user: User, ok: bool): (r: Step)
    ensures user.id in r.session.participants && IsFresh(r.session.participants[user.id], user)
    ensures !r.session.participants[user.id].isCreator
    ensures SameOutside(s.participants, r.session.participants, {user.id})
    ensures user.id in r.session.peers && r.session.peers[user.id].localDescription == ok
    ensures r.session.peers[user.id].attachedTracks == NewLink(s.localStream).attachedTracks
    ensures SameOutside(s.peers, r.session.peers, {user.id})
    ensures r.effects == (if ok then {SendSignal(Offer, user.id)} else {})
    ensures r.session.(participants := s.participants, peers := s.peers) == s
  {
    var pc := NewLink(s.localStream).(localDescription := ok);
    Step(s.(participants := s.participants[user.id := Fresh(user, false)], peers := s.peers[user.id := pc]),
         if ok then {SendSignal(Offer, user.id)} else {})
  }

  /** `handleUserLeft`: the id disappears from every keyed registry; its link
      is closed when it exists, and one of its playback elements (the first
      one `getElementById` finds) is removed. Any further element for the
      same id stays in the page. */
  function HandleUserLeft(s: Session, user: User): (r: Step)
    ensures var t := r.session; var id := user.id;
      && id !in t.participants && id !in t.peers && id !in t.channels && id !in t.remoteStreams
      && id !in t.analysers && id !in t.audioLevels
      && (id !in t.playback <==> s.playback[id] <= 1)
      && (id in s.playback ==> t.playback[id] == s.playback[id] - 1)
      && (forall x :: x != id ==> t.playback[x] == s.playback[x])
      && SameOutside(s.participants, t.participants, {id}) && SameOutside(s.peers, t.peers, {id})
      && SameOutside(s.channels, t.channels, {id}) && SameOutside(s.remoteStreams, t.remoteStreams, {id})
      && SameOutside(s.analysers, t.analysers, {id}) && SameOutside(s.audioLevels, t.audioLevels, {id})
      && t.localStream == s.localStream && t.isMuted == s.isMuted && t.isAudioEnabled == s.isAudioEnabled
    ensures forall e :: e in r.effects <==> (e == ClosePeer(user.id) && user.id in s.peers) || (e == RemovePlayback(user.id) && user.id in s.playback)
  {
    var id := user.id;
    Step(s.(participants := s.participants - {id}, peers := s.peers - {id}, channels := s.channels - {id},
            remoteStreams := s.remoteStreams - {id}, analysers := s.analysers - {id},
            audioLevels := s.audioLevels - {id}, playback := s.playback - multiset{id}),
         (if id in s.peers then {ClosePeer(id)} else {}) + (if id in s.playback then {RemovePlayback(id)} else {}))
  }

  /** `closeAllPeerConnections`: every link is closed and every keyed map is
      emptied, the local user's own entry included. For each registered link
      one playback element is removed, the first one `getElementById` finds;
      elements of ids without a link, and any second element of a linked
      id, stay in the page. Capture and mute are untouched. */
  function CloseAllPeerConnections(s: Session): (r: Step)
    ensures var t := r.session;
      && t.participants == map[] && t.peers == map[] && t.channels == map[]
      && t.remoteStreams == map[] && t.analysers == map[] && t.audioLevels == map[]
      && (forall x :: x in s.peers && x in s.playback ==> t.playback[x] == s.playback[x] - 1)
      && (forall x :: x !in s.peers ==> t.playback[x] == s.playback[x])
      && (t.playback == multiset{} <==> forall x :: x in s.playback ==> x in s.peers && s.playback[x] == 1)
      && t.localStream == s.localStream && t.isMuted == s.isMuted && t.isAudioEnabled == s.isAudioEnabled
    ensures forall e :: e in r.effects <==>
      (e.ClosePeer? && e.id in s.peers) || (e.RemovePlayback? && e.id in s.peers && e.id in s.playback)
  {
    Step(s.(participants := map[], peers := map[], channels := map[], remoteStreams := map[],
            analysers := map[], audioLevels := map[], playback := s.playback - multiset(s.peers.Keys)),
         (set id | id in s.peers :: ClosePeer(id)) + (set id | id in s.peers && id in s.playback :: RemovePlayback(id)))
  }

  /** Closing every link and then stopping capture, as a page does when it
      is left or unmounted: every link closed, one playback element per
      link removed, the microphone released when it was held, and no
      signal sent. */
  function ReleaseAll(s: Session): (r: Step)
    ensures r.session == StopAudioStream(CloseAllPeerConnections(s).session).session
    ensures r.session.peers == map[] && r.session.participants == map[] && r.session.localStream.None?
    ensures forall e :: e in r.effects ==> e.ClosePeer? || e.RemovePlayback? || e.ReleaseMicrophone?
    ensures forall id :: ClosePeer(id) in r.effects <==> id in s.peers
    ensures forall id :: RemovePlayback(id) in r.effects <==> id in s.peers && id in s.playback
    ensures ReleaseMicrophone in r.effects <==> s.localStream.Some?
  {
    var closed := CloseAllPeerConnections(s);
    var stopped := StopAudioStream(closed.session);
    Step(stopped.session, closed.effects + stopped.effects)
  }

  // -----------------------------------------------------------------------
  // Link callbacks
  // -----------------------------------------------------------------------

  /** `onopen` of either side-channel: the channel is registered for the id
      (the later one to open wins). */
  function ChannelOpened(s: Session, id: UserId, origin: ChannelOrigin): (r: Session)
    ensures id in r.channels && r.channels[id] == Channel(origin, Open)
    ensures id in OpenChannels(r.channels)
    ensures SameOutside(s.channels, r.channels, {id})
    ensures r.(channels := s.channels) == s
  {
    s.(channels := s.channels[id := Channel(origin, Open)])
  }

  /** The channel's readyState moves to "closing" before `onclose` fires. */
  function ChannelClosing(s: Session, id: UserId): (r: Session)
    ensures r.channels.Keys == s.channels.Keys
    ensures id in s.channels ==> r.channels[id] == s.channels[id].(readyState := Closing)
    ensures id !in OpenChannels(r.channels)
    ensures SameOutside(s.channels, r.channels, {id})
    ensures r.(channels := s.channels) == s
  {
    if id in s.channels then s.(channels := s.channels[id := s.channels[id].(readyState := Closing)]) else s
  }

  /** `onclose` of either side-channel deletes the entry for the id, even
      when the registered channel is the other one. */
  function ChannelClosed(s: Session, id: UserId): (r: Session)
    ensures id !in r.channels
    ensures SameOutside(s.channels, r.channels, {id})
    ensures r.(channels := s.channels) == s
  {
    s.(channels := s.channels - {id})
  }

  /** A side-channel that has opened, from either side, receives the next
      mute broadcast; one that is closing or closed does not. */
  lemma BroadcastFollowsChannelState(s: Session, id: UserId, o: ChannelOrigin, muted: bool)
    ensures SendMuteStatus(id, muted) in BroadcastMuteStatus(ChannelOpened(s, id, o).channels, muted)
    ensures SendMuteStatus(id, muted) !in BroadcastMuteStatus(ChannelClosing(s, id).channels, muted)
    ensures SendMuteStatus(id, muted) !in BroadcastMuteStatus(ChannelClosed(s, id).channels, muted)
  {
  }

  /** Sum of a frame's bins. */
  function Sum(bins: seq<Byte>): (r: int)
    ensures 0 <= r <= 255 * |bins|
  {
    if bins == [] then 0 else bins[0] + Sum(bins[1..])
  }

  /** Dividing by a positive count and by 128 stays below 1 exactly when the
      total is below 128 times the count. */
  lemma MeanBelowFullScale(total: real, n: real)
    requires total >= 0.0 && n > 0.0
    ensures (total / n) / 128.0 < 1.0 <==> total < 128.0 * n
    ensures (total / n) / 128.0 >= 0.0
    ensures (total / n) / 128.0 * 128.0 * n == total
    ensures (total / n) / 128.0 > 0.1 <==> 10.0 * total > 128.0 * n
  {
    var mean := total / n;
    assert mean * n == total;
    if mean < 128.0 {
      assert mean * n < 128.0 * n;
    } else {
      assert mean * n >= 128.0 * n;
    }
    if mean > 12.8 {
      assert mean * n > 12.8 * n;
    } else {
      assert mean * n <= 12.8 * n;
    }
  }

  /** The normalised speaking level: `min(mean / 128, 1)`. It exceeds the
      speaking threshold 0.1 exactly when the mean bin value exceeds 12.8. */
  function NormalisedLevel(bins: seq<Byte>): (r: real)
    requires |bins| > 0
    ensures 0.0 <= r <= 1.0
    ensures r == 1.0 <==> Sum(bins) >= 128 * |bins|
    ensures r < 1.0 ==> r * 128.0 * (|bins| as real) == Sum(bins) as real
    ensures r > 0.1 <==> 10 * Sum(bins) > 128 * |bins|
  {
    var n := |bins| as real;
    var total := Sum(bins) as real;
    MeanBelowFullScale(total, n);
    var mean := total / n;
    if mean / 128.0 < 1.0 then mean / 128.0 else 1.0
  }

  /** `ontrack`: the remote stream is stored and a new playback element is
      appended, even when the id already has one; when the audio
      analysis can be set up (`analysis` is its analyser handle and first
      frame) the analyser is stored and the first level written. */
  function TrackArrived(s: Session, id: UserId, stream: nat, analysis: Option<(nat, Spectrum)>): (r: Step)
    ensures id in r.session.remoteStreams && r.session.remoteStreams[id] == stream
    ensures r.session.playback[id] == s.playback[id] + 1
    ensures forall x :: x != id ==> r.session.playback[x] == s.playback[x]
    ensures analysis.Some? ==>
      && id in r.session.analysers && id in r.session.audioLevels
      && 0.0 <= r.session.audioLevels[id] <= 1.0
    ensures analysis.Some? ==>
      && r.session.analysers[id] == analysis.value.0
      && r.session.audioLevels[id] == NormalisedLevel(analysis.value.1)
    ensures analysis.None? ==> r.session.analysers == s.analysers && r.session.audioLevels == s.audioLevels
    ensures SameOutside(s.remoteStreams, r.session.remoteStreams, {id})
    ensures SameOutside(s.analysers, r.session.analysers, {id})
    ensures SameOutside(s.audioLevels, r.session.audioLevels, {id})
    ensures r.effects == {AttachPlayback(id)}
    ensures r.session.(remoteStreams := s.remoteStreams, playback := s.playback, analysers := s.analysers, audioLevels := s.audioLevels) == s
  {
    var t := s.(remoteStreams := s.remoteStreams[id := stream], playback := s.playback + multiset{id});
    match analysis
    case None => Step(t, {AttachPlayback(id)})
    case Some((a, bins)) =>
      Step(t.(analysers := t.analysers[id := a], audioLevels := t.audioLevels[id := NormalisedLevel(bins)]), {AttachPlayback(id)})
  }

  // -----------------------------------------------------------------------
  // Event dispatch
  // -----------------------------------------------------------------------

  datatype Event =
    | SelfInit(user: User, isCreator: bool)
    | RosterInit(users: seq<User>, creatorId: UserId)
    | ExistingList(list: Option<seq<User>>)
    | Joined(joiner: User, offerOk: bool)
    | Left(leaver: User)
    | CloseAll
    | Signal(from: UserId, kind: SignalType, negotiationOk: bool)
    | LocalCandidate(target: UserId)
    | SideChannelOpened(peer: UserId, origin: ChannelOrigin)
    | SideChannelClosing(peer: UserId)
    | SideChannelClosed(peer: UserId)
    | SideChannelMessage(peer: UserId, msg: SideMessage)
    | RemoteTrack(peer: UserId, stream: nat, analysis: Option<(nat, Spectrum)>)
    | Start(grant: Option<nat>)
    | Stop
    | Toggle(currentUserId: Option<UserId>)
    | LocalMute(id: UserId, muted: bool)

  /** Callbacks of a link only arrive while that link is registered: a
      closed RTCPeerConnection fires no more events. */
  predicate IsLinkEvent(e: Event) {
    e.LocalCandidate? || e.SideChannelOpened? || e.SideChannelClosing? || e.SideChannelClosed? || e.SideChannelMessage? || e.RemoteTrack?
  }

  function LinkOf(e: Event): UserId
    requires IsLinkEvent(e)
  {
    match e
    case LocalCandidate(id) => id
    case SideChannelOpened(id, _) => id
    case SideChannelClosing(id) => id
    case SideChannelClosed(id) => id
    case SideChannelMessage(id, _) => id
    case RemoteTrack(id, _, _) => id
  }

  function Apply(s: Session, e: Event): Step {
    if IsLinkEvent(e) && LinkOf(e) !in s.peers then Step(s, {})
    else
      match e
      case SelfInit(u, c) => Step(InitializeCurrentUser(s, u, c), {})
      case RosterInit(us, c) => Step(InitializeExistingParticipants(s, us, c), {})
      case ExistingList(l) => Step(ExistingParticipants(s, l), {})
      case Joined(u, ok) => HandleUserJoined(s, u, ok)
      case Left(u) => HandleUserLeft(s, u)
      case CloseAll => CloseAllPeerConnections(s)
      case Signal(from, k, ok) => HandleSignal(s, from, k, ok)
      case LocalCandidate(id) => Step(s, {SendSignal(IceCandidate, id)})
      case SideChannelOpened(id, o) => Step(ChannelOpened(s, id, o), {})
      case SideChannelClosing(id) => Step(ChannelClosing(s, id), {})
      case SideChannelClosed(id) => Step(ChannelClosed(s, id), {})
      case SideChannelMessage(id, m) => Step(ReceiveSideMessage(s, id, m), {})
      case RemoteTrack(id, st, a) => TrackArrived(s, id, st, a)
      case Start(g) => Step(StartAudioStream(s, g).GetOr(s), {})
      case Stop => StopAudioStream(s)
      case Toggle(u) => ToggleMute(s, u)
      case LocalMute(id, m) => Step(UpdateCurrentUserMuteStatus(s, id, m), {})
  }

  function Run(s: Session, events: seq<Event>): Session
    decreases |events|
  {
    if events == [] then s else Run(Apply(s, events[0]).session, events[1..])
  }

  // -----------------------------------------------------------------------
  // Properties over events and event sequences
  // -----------------------------------------------------------------------

  /** Every per-link registry is scoped by the link registry, and capture is
      enabled exactly when a local stream is held. Playback elements are not
      part of it: they can outlive their link (see `SecondTrackOrphansPlayback`). */
  predicate Scoped(s: Session) {
    && s.channels.Keys <= s.peers.Keys
    && s.remoteStreams.Keys <= s.peers.Keys
    && s.analysers.Keys <= s.remoteStreams.Keys
    && s.audioLevels.Keys <= s.analysers.Keys
    && (s.isAudioEnabled <==> s.localStream.Some?)
  }

  /** Each stored remote stream has at most one playback element, and no
      element exists without a stream. */
  predicate PlaybackTidy(s: Session) {
    forall id :: id in s.playback ==> id in s.remoteStreams && s.playback[id] == 1
  }

  lemma InitialScoped()
    ensures Scoped(Initial)
  {
  }

  /** No event leaves a channel, stream, analyser or level behind for an id
      without a registered link. */
  lemma JoinKeepsScoped(s: Session, u: User, ok: bool)
    requires Scoped(s)
    ensures Scoped(HandleUserJoined(s, u, ok).session)
  {
    assert HandleUserJoined(s, u, ok).session.peers.Keys == s.peers.Keys + {u.id};
  }

  lemma LeaveKeepsScoped(s: Session, u: User)
    requires Scoped(s)
    ensures Scoped(HandleUserLeft(s, u).session)
  {
    var t := HandleUserLeft(s, u).session;
    assert t.channels.Keys == s.channels.Keys - {u.id};
    assert t.remoteStreams.Keys == s.remoteStreams.Keys - {u.id};
    assert t.analysers.Keys == s.analysers.Keys - {u.id};
    assert t.audioLevels.Keys == s.audioLevels.Keys - {u.id};
    assert t.peers.Keys == s.peers.Keys - {u.id};
  }

  lemma SignalKeepsScoped(s: Session, from: UserId, kind: SignalType, ok: bool)
    requires Scoped(s)
    ensures Scoped(HandleSignal(s, from, kind, ok).session)
  {
  }

  lemma TrackKeepsScoped(s: Session, id: UserId, stream: nat, analysis: Option<(nat, Spectrum)>)
    requires Scoped(s) && id in s.peers
    ensures Scoped(TrackArrived(s, id, stream, analysis).session)
  {
  }

  lemma LocalKeepsScoped(s: Session, grant: Option<nat>, currentUserId: Option<UserId>)
    requires Scoped(s)
    ensures Scoped(StartAudioStream(s, grant).GetOr(s))
    ensures Scoped(StopAudioStream(s).session)
    ensures Scoped(ToggleMute(s, currentUserId).session)
  {
  }

  /** No event leaves a channel, stream, analyser or level behind for an id
      without a registered link. */
  lemma ApplyKeepsScoped(s: Session, e: Event)
    requires Scoped(s)
    ensures Scoped(Apply(s, e).session)
  {
    var r := Apply(s, e);
    if IsLinkEvent(e) && LinkOf(e) !in s.peers {
      assert r.session == s;
    } else {
      match e
      case SelfInit(u, c) => assert r.session == InitializeCurrentUser(s, u, c);
      case RosterInit(us, c) => assert r.session == InitializeExistingParticipants(s, us, c);
      case ExistingList(l) => assert r.session == ExistingParticipants(s, l);
      case Joined(u, ok) => JoinKeepsScoped(s, u, ok);
      case Left(u) => LeaveKeepsScoped(s, u);
      case CloseAll => assert r == CloseAllPeerConnections(s);
      case Signal(from, k, ok) => SignalKeepsScoped(s, from, k, ok);
      case LocalCandidate(id) => assert r.session == s;
      case SideChannelOpened(id, o) => assert r.session == ChannelOpened(s, id, o);
      case SideChannelClosing(id) => assert r.session == ChannelClosing(s, id);
      case SideChannelClosed(id) => assert r.session == ChannelClosed(s, id);
      case SideChannelMessage(id, m) => assert r.session == ReceiveSideMessage(s, id, m);
      case RemoteTrack(id, st, a) => TrackKeepsScoped(s, id, st, a);
      case Start(g) => LocalKeepsScoped(s, g, None);
      case Stop => LocalKeepsScoped(s, None, None);
      case Toggle(u) => LocalKeepsScoped(s, None, u);
      case LocalMute(id, m) => assert r.session == UpdateCurrentUserMuteStatus(s, id, m);
    }
  }

  lemma {:induction false} RunKeepsScoped(s: Session, events: seq<Event>)
    requires Scoped(s)
    ensures Scoped(Run(s, events))
    decreases |events|
  {
    if events != [] {
      ApplyKeepsScoped(s, events[0]);
      RunKeepsScoped(Apply(s, events[0]).session, events[1..]);
    }
  }

  /** An arriving track for a linked peer that already has a playback
      element: the page then holds two `audio-<id>` elements. */
  predicate AddsSecondElement(s: Session, e: Event) {
    e.RemoteTrack? && e.peer in s.peers && e.peer in s.playback
  }

  /** Removing a peer's stream removes its one element, so with at most one
      element per stream no event orphans an element, and an event breaks
      that exactly when it appends a second element for the same peer. */
  lemma ApplyKeepsTidy(s: Session, e: Event)
    requires Scoped(s) && PlaybackTidy(s)
    ensures PlaybackTidy(Apply(s, e).session) <==> !AddsSecondElement(s, e)
  {
    var r := Apply(s, e);
    if IsLinkEvent(e) && LinkOf(e) !in s.peers {
      assert r.session == s;
    } else if e.Left? {
      assert r == HandleUserLeft(s, e.leaver);
      LeaveKeepsTidy(s, e.leaver);
    } else if e.CloseAll? {
      assert r == CloseAllPeerConnections(s);
      CloseAllKeepsTidy(s);
    } else if e.RemoteTrack? {
      assert r == TrackArrived(s, e.peer, e.stream, e.analysis);
      TrackKeepsTidy(s, e.peer, e.stream, e.analysis);
    } else {
      KeepsPlayback(s, e);
    }
  }

  lemma LeaveKeepsTidy(s: Session, u: User)
    requires PlaybackTidy(s)
    ensures PlaybackTidy(HandleUserLeft(s, u).session)
  {
    var t := HandleUserLeft(s, u).session;
    forall id | id in t.playback
      ensures id in t.remoteStreams && t.playback[id] == 1
    {
      assert id != u.id;
    }
  }

  lemma CloseAllKeepsTidy(s: Session)
    requires Scoped(s) && PlaybackTidy(s)
    ensures CloseAllPeerConnections(s).session.playback == multiset{}
  {
  }

  lemma TrackKeepsTidy(s: Session, id: UserId, stream: nat, analysis: Option<(nat, Spectrum)>)
    requires PlaybackTidy(s)
    ensures PlaybackTidy(TrackArrived(s, id, stream, analysis).session) <==> id !in s.playback
  {
    var t := TrackArrived(s, id, stream, analysis).session;
    if id !in s.playback {
      forall x | x in t.playback
        ensures x in t.remoteStreams && t.playback[x] == 1
      {
        if x != id {
          assert t.playback[x] == s.playback[x];
        }
      }
    } else {
      assert t.playback[id] == 2;
    }
  }

  /** Every event other than a departure, a close-all or an arriving track
      leaves the playback elements alone and drops no remote stream. */
  lemma KeepsPlayback(s: Session, e: Event)
    requires !e.Left? && !e.CloseAll? && !e.RemoteTrack?
    ensures Apply(s, e).session.playback == s.playback
    ensures Apply(s, e).session.remoteStreams == s.remoteStreams
  {
    var r := Apply(s, e);
    if IsLinkEvent(e) && LinkOf(e) !in s.peers {
      assert r.session == s;
    } else {
      match e
      case SelfInit(u, c) => assert r.session == InitializeCurrentUser(s, u, c);
      case RosterInit(us, c) => assert r.session == InitializeExistingParticipants(s, us, c);
      case ExistingList(l) => assert r.session == ExistingParticipants(s, l);
      case Joined(u, ok) => assert r == HandleUserJoined(s, u, ok);
      case Signal(from, k, ok) => assert r == HandleSignal(s, from, k, ok);
      case LocalCandidate(id) => assert r.session == s;
      case SideChannelOpened(id, o) => assert r.session == ChannelOpened(s, id, o);
      case SideChannelClosing(id) => assert r.session == ChannelClosing(s, id);
      case SideChannelClosed(id) => assert r.session == ChannelClosed(s, id);
      case SideChannelMessage(id, m) => assert r.session == ReceiveSideMessage(s, id, m);
      case Start(g) => assert r.session == StartAudioStream(s, g).GetOr(s);
      case Stop => assert r == StopAudioStream(s);
      case Toggle(u) => assert r == ToggleMute(s, u);
      case LocalMute(id, m) => assert r.session == UpdateCurrentUserMuteStatus(s, id, m);
    }
  }

  /** Every arriving track is the first for its peer: checked against the
      session each event meets. */
  predicate OneTrackEach(s: Session, events: seq<Event>)
    decreases |events|
  {
    events == [] || (!AddsSecondElement(s, events[0]) && OneTrackEach(Apply(s, events[0]).session, events[1..]))
  }

  /** Over any run in which no peer's track arrives twice while its element
      is still in the page, every playback element belongs to a stored
      stream and there is at most one per peer; a departure or a close-all
      therefore leaves no element behind. */
  lemma {:induction false} RunKeepsTidy(s: Session, events: seq<Event>)
    requires Scoped(s) && PlaybackTidy(s) && OneTrackEach(s, events)
    ensures PlaybackTidy(Run(s, events))
    decreases |events|
  {
    if events != [] {
      ApplyKeepsScoped(s, events[0]);
      ApplyKeepsTidy(s, events[0]);
      RunKeepsTidy(Apply(s, events[0]).session, events[1..]);
    }
  }

  /** A peer that leaves, re-joins and sends its track again gets a second
      playback element; when it leaves the second time only the first is
      removed, and the other keeps playing with no link, no stream and no
      directory entry behind it. */
  lemma SecondTrackOrphansPlayback(b: User, x: nat, y: nat)
    ensures var t := Run(Initial, LinkAndPlayEvents(b, x) + LinkAndPlayEvents(b, y) + [Left(b)]);
      && b.id !in t.participants && b.id !in t.peers && b.id !in t.remoteStreams
      && t.playback[b.id] == 1
  {
    var s3 := LinkAndPlay(Initial, b, x);
    var s6 := LinkAndPlay(s3, b, y);
    var s7 := HandleUserLeft(s6, b).session;
    assert s3.playback[b.id] == 1;
    assert s6.playback[b.id] == 2;
    assert s7.playback[b.id] == 1;
    var ex, ey := LinkAndPlayEvents(b, x), LinkAndPlayEvents(b, y);
    RunLinkAndPlay(Initial, b, x);
    RunLinkAndPlay(s3, b, y);
    RunSteps(Initial, ex, ey);
    assert Run(Initial, ex + ey) == s6;
    RunSteps(Initial, ex + ey, [Left(b)]);
    assert Run(s6, [Left(b)]) == s7 by {
      assert Apply(s6, Left(b)) == HandleUserLeft(s6, b);
      assert [Left(b)][1..] == [];
    }
  }

  /** A peer joins, answers the offer and sends its track. */
  function LinkAndPlayEvents(b: User, x: nat): seq<Event> {
    [Joined(b, true), Signal(b.id, Answer, true), RemoteTrack(b.id, x, None)]
  }

  /** A join, its answer and one arriving track, as plain function calls. */
  function LinkAndPlay(s: Session, b: User, x: nat): (r: Session)
    ensures b.id in r.peers && b.id in r.remoteStreams
    ensures r.playback[b.id] == s.playback[b.id] + 1
  {
    var s1 := HandleUserJoined(s, b, true).session;
    var s2 := HandleSignal(s1, b.id, Answer, true).session;
    TrackArrived(s2, b.id, x, None).session
  }

  lemma RunLinkAndPlay(s: Session, b: User, x: nat)
    ensures Run(s, LinkAndPlayEvents(b, x)) == LinkAndPlay(s, b, x)
  {
    var e := LinkAndPlayEvents(b, x);
    var s1 := HandleUserJoined(s, b, true).session;
    var s2 := HandleSignal(s1, b.id, Answer, true).session;
    var s3 := TrackArrived(s2, b.id, x, None).session;
    assert Apply(s, e[0]).session == s1;
    assert Apply(s1, e[1]).session == s2;
    assert Apply(s2, e[2]).session == s3;
    assert e[1..][1..] == e[2..];
    assert e[2..][1..] == [];
    assert Run(s3, []) == s3;
    assert Run(s2, e[2..]) == s3;
    assert Run(s1, e[1..]) == s3;
    assert Run(s, e) == s3;
  }

  /** Running two stretches of events is running their concatenation. */
  lemma {:induction false} RunSteps(s: Session, a: seq<Event>, b: seq<Event>)
    ensures Run(s, a + b) == Run(Run(s, a), b)
    decreases |a|
  {
    if a != [] {
      assert (a + b)[0] == a[0];
      assert (a + b)[1..] == a[1..] + b;
      RunSteps(Apply(s, a[0]).session, a[1..], b);
    } else {
      assert a + b == b;
    }
  }

  predicate IsPresenceEvent(e: Event) {
    e.Joined? || e.Left?
  }

  /** Who is present after one join or leave. */
  function PresenceAfter(present: set<UserId>, e: Event): set<UserId>
    requires IsPresenceEvent(e)
  {
    if e.Joined? then present + {e.joiner.id} else present - {e.leaver.id}
  }

  /** Reference presence: who is in the room after a run of join and leave
      events, starting from `present`. */
  function Presence(present: set<UserId>, events: seq<Event>): set<UserId>
    requires forall k :: 0 <= k < |events| ==> IsPresenceEvent(events[k])
    decreases |events|
  {
    if events == [] then present
    else Presence(PresenceAfter(present, events[0]), events[1..])
  }

  /** One join or leave moves the directory and the registry alike. */
  lemma ApplyMovesPresence(s: Session, e: Event)
    requires IsPresenceEvent(e)
    ensures Apply(s, e).session.participants.Keys == PresenceAfter(s.participants.Keys, e)
    ensures Apply(s, e).session.peers.Keys == PresenceAfter(s.peers.Keys, e)
  {
    var t := Apply(s, e).session;
    if e.Joined? {
      assert t == HandleUserJoined(s, e.joiner, e.offerOk).session;
      assert t.participants.Keys == s.participants.Keys + {e.joiner.id};
      assert t.peers.Keys == s.peers.Keys + {e.joiner.id};
    } else {
      assert t == HandleUserLeft(s, e.leaver).session;
      assert t.participants.Keys == s.participants.Keys - {e.leaver.id};
      assert t.peers.Keys == s.peers.Keys - {e.leaver.id};
    }
  }

  /** Over any run of join and leave events, both the directory and the
      link registry hold exactly the present ids: no duplicates and nothing
      left behind by a departure. */
  lemma {:induction false} DirectoryTracksPresence(s: Session, events: seq<Event>)
    requires forall k :: 0 <= k < |events| ==> IsPresenceEvent(events[k])
    ensures Run(s, events).participants.Keys == Presence(s.participants.Keys, events)
    ensures Run(s, events).peers.Keys == Presence(s.peers.Keys, events)
    decreases |events|
  {
    if events != [] {
      ApplyMovesPresence(s, events[0]);
      DirectoryTracksPresence(Apply(s, events[0]).session, events[1..]);
    }
  }

  /** A directory and registry that start in lockstep stay in lockstep over
      joins and leaves: one link per listed participant and vice versa. */
  lemma LinksMatchDirectory(s: Session, events: seq<Event>)
    requires forall k :: 0 <= k < |events| ==> IsPresenceEvent(events[k])
    requires s.participants.Keys == s.peers.Keys
    ensures Run(s, events).participants.Keys == Run(s, events).peers.Keys
  {
    DirectoryTracksPresence(s, events);
  }

  /** Leaving undoes joining: for an id the session knew nothing about, a
      join followed by its leave restores the session, and the leave closes
      exactly the link the join opened. */
  lemma JoinThenLeave(s: Session, u: User, ok: bool)
    requires u.id !in s.participants && u.id !in s.peers && u.id !in s.channels
    requires u.id !in s.remoteStreams && u.id !in s.analysers && u.id !in s.audioLevels && u.id !in s.playback
    ensures HandleUserLeft(HandleUserJoined(s, u, ok).session, u).session == s
    ensures HandleUserLeft(HandleUserJoined(s, u, ok).session, u).effects == {ClosePeer(u.id)}
  {
    var t := HandleUserJoined(s, u, ok).session;
    var r := HandleUserLeft(t, u).session;
    assert r.participants == s.participants;
    assert r.peers == s.peers;
    assert r.channels == s.channels;
    assert r.remoteStreams == s.remoteStreams;
    assert r.analysers == s.analysers;
    assert r.audioLevels == s.audioLevels;
  }

  /** Toggling twice restores the session when the tracks and the caller's
      own entry agree with the mute flag. */
  lemma ToggleTwiceRestores(s: Session, currentUserId: Option<UserId>)
    requires s.localStream.Some? && TracksFollowMute(s)
    requires Truthy(currentUserId) && currentUserId.value in s.participants ==>
      s.participants[currentUserId.value].isMuted == s.isMuted
    ensures ToggleMute(ToggleMute(s, currentUserId).session, currentUserId).session == s
  {
    var t := ToggleMute(s, currentUserId).session;
    var r := ToggleMute(t, currentUserId).session;
    assert r.localStream.value.tracks == s.localStream.value.tracks;
    if Truthy(currentUserId) && currentUserId.value in s.participants {
      var id := currentUserId.value;
      assert r.participants[id] == s.participants[id];
    }
    assert r.participants == s.participants;
  }

  /** After a toggle the tracks always agree with the flag, whatever they
      were before: enablement changes atomically for all tracks. */
  lemma ToggleAlignsTracks(s: Session, currentUserId: Option<UserId>)
    ensures TracksFollowMute(ToggleMute(s, currentUserId).session)
  {
  }

  /** Starting capture keeps tracks and flag in agreement only while the
      flag says muted: the new tracks always start disabled. */
  lemma StartAlignsTracksWhenMuted(s: Session, n: nat)
    ensures TracksFollowMute(StartAudioStream(s, Some(n)).value) <==> (s.isMuted || n == 0)
  {
    var t := StartAudioStream(s, Some(n)).value;
    if !s.isMuted && n > 0 {
      assert !t.localStream.value.tracks[0];
    }
  }

  /** As written, stopping clears `isMuted`, so stopping and starting again
      leaves the flag saying unmuted while every track is disabled. */
  lemma StopThenStartDisagrees(s: Session, n: nat)
    requires s.localStream.Some? && n > 0
    ensures !TracksFollowMute(StartAudioStream(StopAudioStream(s).session, Some(n)).value)
  {
    StartAlignsTracksWhenMuted(StopAudioStream(s).session, n);
  }

  /** Closing everything twice is closing once, and the second time closes
      no link. */
  lemma CloseAllIdempotent(s: Session)
    ensures var t := CloseAllPeerConnections(s).session;
      CloseAllPeerConnections(t) == Step(t, {})
  {
    var t := CloseAllPeerConnections(s).session;
    assert multiset(t.peers.Keys) == multiset{};
  }

  /** Scenario: A is alone (as host); B joins. A registers B, opens a link
      and sends one offer to B; B's answer completes A's side. */
  lemma CallerScenario(a: User, b: User)
    requires a.id != b.id
    ensures var s1 := Apply(Initial, SelfInit(a, true)).session;
            var j := Apply(s1, Joined(b, true));
            var f := Apply(j.session, Signal(b.id, Answer, true));
      && j.effects == {SendSignal(Offer, b.id)}
      && j.session.participants.Keys == {a.id, b.id}
      && j.session.peers.Keys == {b.id}
      && j.session.peers[b.id].localDescription && !j.session.peers[b.id].remoteDescription
      && f.session.peers[b.id].localDescription && f.session.peers[b.id].remoteDescription
      && f.effects == {}
  {
  }

  /** Scenario: an answer or candidate from a peer with no link is dropped;
      an offer creates the link and answers the sender. */
  lemma CalleeScenario(s: Session, c: UserId)
    requires c !in s.peers
    ensures Apply(s, Signal(c, Answer, true)) == Step(s, {})
    ensures Apply(s, Signal(c, IceCandidate, true)) == Step(s, {})
    ensures Apply(s, Signal(c, Offer, true)).effects == {SendSignal(Answer, c)}
    ensures c in Apply(s, Signal(c, Offer, true)).session.peers
    ensures Apply(s, Signal(c, Offer, true)).session.participants == s.participants
  {
  }

  /** Scenario: after tearing everything down, re-entering starts clean:
      the directory holds only the local user. */
  lemma RejoinStartsClean(s: Session, me: User, isCreator: bool)
    ensures var t := Apply(Apply(s, CloseAll).session, SelfInit(me, isCreator)).session;
      && t.participants.Keys == {me.id}
      && t.peers == map[] && t.channels == map[] && t.audioLevels == map[]
  {
  }
}
